=== FILE: README.md ===
# dwh_platform backend core, modelled in Dafny

This project models the backend of dwh_platform, a multi-tenant data-warehousing product:

- Users own projects.
- A project owns datasources and a warehouse.
- A warehouse places data tables under the roles "fact" and "dimension".
- A query layer sends SQL and data loads to the Spark cluster of the project's node.

The model covers the parts of `backend/src` that decide something:

- The sign-up password policy (`PasswordValidation`).
- Schema discovery for external databases (`Databases`):
  - type-name mappings;
  - MongoDB URL splitting;
  - dispatch by URL prefix;
  - turning driver rows into table descriptors.
- The repositories of projects, datasources, data tables and warehouses:
  - tables held as sequences in the class `Store.Database`;
  - writes as methods that reassign them.
- The column typing, schemas and ingestion plans of the Spark helpers (`SparkHelpers`).
  - The cluster is the class `SparkHelpers.Cluster`.
  - It counts the sessions left open and logs every command sent.
- The project, datasource, warehouse and query services:
  - access rules;
  - status replies;
  - the order of their steps.
- The checks `get_current_user` makes on a decoded token (`UsersRouter`).

Modules follow the source files one to one. `Common` (options, results, Python exceptions, sequence filters) and `Strings` (split, join, lower-casing, prefixes) are shared vocabulary.

**External results as parameters.** What a database driver, the cluster or a file extract would return is passed in as a value:

- `Databases.Driver` holds the database drivers' answers.
- `Cluster.respond` holds the cluster's answer to each command.
- An `extract` function stands for the file extract of a table.

Every method that opens a session ends with as many sessions open as it started with (`cluster.live == old(cluster.live)`).

**Three behaviours of the code that the model keeps:**

- Failures of schema discovery and of node lookup are not turned into 400 replies. They propagate as exceptions (`Err`).
- The create path of a warehouse inserts one link per listed id. It does not skip ids already linked.
- A token is expired when its expiry is at or before the current time, not only strictly past it. The JWT library already refuses a signature whose expiry lies in the past, as a JWTError, so "Token expired" is reached only for a token without an expiry or, when the server's local time zone is UTC, one that expires within the current second. The check at backend/src/routers/users.py:45 takes `timestamp()` of the naive `utcnow()`, which Python reads as local time, so on a server east or west of UTC `now` is off by the zone's offset, and then tokens are refused as expired, or accepted, that many seconds early or late. `now` in the model is that reading.

## Model

| member | source | states |
|---|---|---|
| PasswordValidation.ValidatePassword | backend/src/utils/validation.py:7-23 | valid exactly when no rule is violated, then "Password is valid"; otherwise "Password must: " followed by the messages of the violated rules joined by ", " |
| PasswordValidation.CollectMessages | backend/src/utils/validation.py:9-19 | the list built check by check is the list of messages of the violated rules, in report order |
| PasswordValidation.CheckRule | backend/src/utils/validation.py:10-19 | one check appends the rule's message exactly when the password violates it, so the messages stay those of the rules violated so far in report order |
| PasswordValidation.ReportsEveryViolation | backend/src/utils/validation.py:9-19 | a rule is reported exactly when the password violates it, so every violation is reported, not only the first |
| PasswordValidation.ViolationsInReportOrder | backend/src/utils/validation.py:9-19 | reported rules appear in the fixed order length, spaces, uppercase, number, special characters |
| PasswordValidation.ShortPasswordFirstMessage | backend/src/utils/validation.py:10-11 | a password under 8 characters is refused and its first message is "be at least 8 characters long" |
| PasswordValidation.WhitespaceBreaksTwoRules | backend/src/utils/validation.py:12-19 | a password containing whitespace breaks both the spaces rule and the special-characters rule |
| PasswordValidation.AcceptedShape | backend/src/utils/validation.py:10-19 | a password is accepted exactly when it has at least 8 characters, only ASCII letters and digits, an uppercase letter and a decimal digit |
| PasswordValidation.EmptyPasswordViolations | backend/src/utils/validation.py:10-19 | the empty password breaks exactly the length, uppercase and number rules |
| Databases.ParseMongoType | backend/src/utils/databases.py:19-28 | succeeds exactly when the lower-cased name is listed, and then yields "int", "float" or "str"; otherwise a key error naming the lower-cased name |
| Databases.ParseMySqlType | backend/src/utils/databases.py:31-46 | the same for the lower-cased text before the first "(" |
| Databases.ParsePostgresType | backend/src/utils/databases.py:49-62 | the same for the lower-cased name |
| Databases.TypeMappingsIgnoreCase | backend/src/utils/databases.py:19-62 | lower-casing a name first never changes any of the three mappings' results |
| Databases.MySqlVarcharWithLength | backend/src/utils/databases.py:31-46 | "VARCHAR(255)" maps to "str" |
| Databases.UnlistedTypeIsKeyError | backend/src/utils/databases.py:19-62 | "boolean" is a key error in all three mappings: there is no default |
| Databases.ParseMongoUrl | backend/src/utils/databases.py:159-162 | as written: fails exactly when nothing follows the last "/", and the database name is the text after the last "/" |
| Databases.MongoUrlRoundTrip | backend/src/utils/databases.py:159-162 | when the name does not occur earlier in the URL, client URL + "/" + name gives the URL back |
| Databases.MongoUrlCutAtFirstOccurrence | backend/src/utils/databases.py:159-162 | when the name first occurs right after a prefix, the client URL is that prefix without its last character, whatever follows |
| Databases.MongoUrlNameInHost | backend/src/utils/databases.py:159-162 | "mongodb://localhost:27017/local" splits into ("mongodb:/", "local") |
| Databases.SplitMongoUrl | backend/src/utils/databases.py:159-162 | corrected split: the same error and database name, and client URL + "/" + name is the URL whenever it holds a "/" |
| Databases.SplitMongoUrlAgrees | backend/src/utils/databases.py:159-162 | the corrected split equals the written one whenever the name does not occur earlier |
| Databases.ParseColumns | backend/src/utils/databases.py:94-97 | succeeds exactly when every row's type parses; then one column per row in result order, named after the row and carrying the parsed type; a failure is some row's parse error |
| Databases.Each | backend/src/utils/databases.py:86-98 | succeeds exactly when every table is described; then one descriptor per name in order; a failure is some table's error |
| Databases.DescribeEach | backend/src/utils/databases.py:86-98 | the loop over the tables returns what `Each` specifies |
| Databases.PostgresTablesInfo | backend/src/utils/databases.py:79-102 | a refused connection first, otherwise one descriptor per table, as `PostgresInfo` specifies |
| Databases.PostgresInfo | backend/src/utils/databases.py:79-102 | a refused connection is the error; success gives one descriptor per requested table, named after it, under "table_name" |
| Databases.PostgresInfoShape | backend/src/utils/databases.py:86-98 | one descriptor per requested table, in request order, under "table_name", with one column per result row carrying that row's name, in result order |
| Databases.MySqlTableFirstCharacter | backend/src/utils/databases.py:140-152 | as written, the table "orders" is queried and reported as "o" |
| Databases.MySqlTableAsWritten | backend/src/utils/databases.py:140-152 | as written: an empty name is an IndexError, and a described table is named after its first character only |
| Databases.MySqlTable | backend/src/utils/databases.py:140-152 | corrected: a descriptor named after the whole table under "name", with one column per result row |
| Databases.MySqlInfo | backend/src/utils/databases.py:135-156 | corrected (built on `MySqlTable`): a refused connection is the error; success gives one descriptor per table, named after it, under "name" |
| Databases.MySqlTablesInfo | backend/src/utils/databases.py:135-156 | corrected (built on `MySqlTable`): a refused connection first, otherwise one descriptor per table, as `MySqlInfo` specifies |
| Databases.MongoFieldColumns | backend/src/utils/databases.py:186-190 | the loop yields the document's fields other than `_id`, in document order, as `MongoColumnsOf` specifies |
| Databases.MongoColumnsSkipId | backend/src/utils/databases.py:187-190 | no column is named `_id`; every other field is a column carrying its runtime type name unmapped |
| Databases.MongoTable | backend/src/utils/databases.py:181-191 | a collection without a document is AttributeError("items"); a described collection is named after itself under "name" |
| Databases.MongoInfo | backend/src/utils/databases.py:176-193 | corrected (built on `SplitMongoUrl`): a bad URL is the split's error; success gives one descriptor per collection, named after it |
| Databases.MongoTablesInfo | backend/src/utils/databases.py:176-193 | corrected (built on `SplitMongoUrl`): a URL split error first, then one descriptor per collection; an empty collection is an attribute error, as `MongoInfo` specifies |
| Databases.ConnectionTiming | backend/src/utils/databases.py:176-193 | a MongoDB request for no collections succeeds without a server; the SQL engines fail on a refused connection even for no tables |
| Databases.FirstMatch | backend/src/utils/databases.py:204-208 | finds no engine exactly when the URL starts with none of the prefixes |
| Databases.GetTablesSpec | backend/src/utils/databases.py:196-210 | corrected (built on `MySqlInfo` and `MongoInfo`): a URL with none of the prefixes is ValueError("Unsupported database URL") |
| Databases.DispatchByPrefix | backend/src/utils/databases.py:196-210 | for every driver and table list: no prefix gives the unsupported-URL error, and a URL with a prefix is described by that prefix's engine |
| Databases.GetTables | backend/src/utils/databases.py:196-210 | corrected (built on `MySqlTable` and `SplitMongoUrl`): the loop over prefixes returns what `GetTablesSpec` specifies: the first matching engine's descriptors, else the unsupported-URL error |
| Databases.DispatchExclusive | backend/src/utils/databases.py:197-202 | no URL starts with two of the four prefixes, so the table's order never decides the engine |
| Databases.BackendForMatches | backend/src/utils/databases.py:204-208 | the engine chosen is the one whose prefix the URL carries |
| Databases.UnsupportedUrl | backend/src/utils/databases.py:204-210 | with a driver that answers nothing and no tables, ValueError("Unsupported database URL") comes exactly from a URL without a listed prefix |
| Databases.DispatchUsesGivenTables | backend/src/utils/databases.py:206-207 | corrected (built on `MySqlTable`): a successful dispatch describes exactly the caller's table names, in their order |
| DatatablesRepo.NewRows | backend/src/repos/datatables.py:13-18 | one row per table, in order, with consecutive ids, all under the given datasource |
| DatatablesRepo.CreateTables | backend/src/repos/datatables.py:10-21 | an empty list fails at `tables[0]` and changes nothing; otherwise every table is stored, in order, under the first table's datasource, and the new rows are returned |
| DatatablesRepo.SetColumns | backend/src/repos/datatables.py:38-46 | rows of the datasource with the name take the columns; every other row is unchanged |
| DatatablesRepo.UpdateTables | backend/src/repos/datatables.py:24-60 | an empty list fails and changes nothing; otherwise the table becomes the reconciliation over one snapshot of the datasource's names, and the result lists every input table in order under that datasource |
| DatatablesRepo.Fresh | backend/src/repos/datatables.py:47-57 | exactly the input tables whose names are not among the existing ones |
| DatatablesRepo.FinalColumns | backend/src/repos/datatables.py:38-46 | absent exactly when no input table carries the name |
| DatatablesRepo.Reconcile | backend/src/repos/datatables.py:31-57 | rows are only added, one per id used, and at most one per input table |
| DatatablesRepo.ReconcileClosedForm | backend/src/repos/datatables.py:24-60 | reconciliation is the existing rows refreshed in place followed by one new row per fresh table, with consecutive ids |
| DatatablesRepo.ReconcileNeverDeletes | backend/src/repos/datatables.py:31-57 | no row is removed; ids, names and datasources are kept; rows of other datasources, or with names no input carries, are unchanged |
| DatatablesRepo.ReconcileUpdatesInPlace | backend/src/repos/datatables.py:38-46 | a row of the datasource with an existing name takes the columns of the last input table of that name |
| DatatablesRepo.ReconcileInsertsFresh | backend/src/repos/datatables.py:47-57 | the rows appended are exactly the fresh tables, in input order, with the next ids |
| DatatablesRepo.SnapshotInsertsDuplicates | backend/src/repos/datatables.py:31-37 | names are read once, so two new tables with the same name are both inserted |
| DatatablesRepo.ReconcileCoversNames | backend/src/repos/datatables.py:24-60 | afterwards every input table's name is a name of the datasource |
| DatatablesRepo.ReconcileTwiceAddsNothing | backend/src/repos/datatables.py:31-57 | a second run with the same tables adds no row and uses no id |
| DatasourcesRepo.UserDatasources | backend/src/repos/datasources.py:15-29 | exactly the `OFFSET`/`LIMIT` window of `AllOwned`: the datasources of projects the user created, in the order the model stores rows (the SQL has no `ORDER BY`) |
| DatasourcesRepo.AllOwned | backend/src/repos/datasources.py:18-21 | a datasource is listed exactly when it is stored and its project was created by the user |
| DatasourcesRepo.GetDatasource | backend/src/repos/datasources.py:32-37 | a stored datasource with the id, absent exactly when no row has it |
| DatasourcesRepo.DatasourceOwner | backend/src/repos/datasources.py:40-50 | a stored user who created the datasource's project; absent for a missing datasource (`OwnerIsCreator` gives the other direction) |
| DatasourcesRepo.OwnerIsCreator | backend/src/repos/datasources.py:40-50 | with unique keys, the stored user who created a stored datasource's project is its owner |
| DatasourcesRepo.CreateDatasource | backend/src/repos/datasources.py:53-60 | the name, project, type and configuration are stored as given under a fresh id |
| DatasourcesRepo.ApplyUpdateChangesOnlySupplied | backend/src/repos/datasources.py:66-77 | each supplied field is set, every other field and the id are kept, and an empty update changes nothing |
| DatasourcesRepo.UpdateDatasource | backend/src/repos/datasources.py:63-77 | the rows with the id are updated and no other row changes; None exactly when no row has the id, else the updated row |
| DatasourcesRepo.DeleteDatasource | backend/src/repos/datasources.py:80-84 | true exactly when a row had the id; the rows left are the cascade of `DeleteDatasourceRows` |
| DatasourcesRepo.DeleteDatasourceLeavesNoTables | backend/src/models/datatable.py:22-25 | afterwards no datasource has the id, no table or link refers to it, and every other table, project, warehouse and user stays |
| DatasourcesRepo.DatasourceTables | backend/src/repos/datasources.py:88-89 | the stub lists no table |
| ProjectsRepo.UserProjects | backend/src/repos/projects.py:18-31 | exactly the `OFFSET`/`LIMIT` window of `AllCreated`: the projects the user created, in the order the model stores rows (the SQL has no `ORDER BY`) |
| ProjectsRepo.AllCreated | backend/src/repos/projects.py:21-23 | a project is listed exactly when it is stored and created by the user |
| ProjectsRepo.GetProject | backend/src/repos/projects.py:34-39 | a stored project with the id, absent exactly when no row has it |
| ProjectsRepo.ProjectByWarehouse | backend/src/repos/projects.py:42-51 | over the project and warehouse rows: a project joined to a warehouse with the id, absent exactly when no such pair exists |
| ProjectsRepo.ProjectOwner | backend/src/repos/projects.py:78-87 | a stored user whose id is the project's creator; absent for a missing project (`OwnerIsCreator` gives the other direction) |
| ProjectsRepo.OwnerIsCreator | backend/src/repos/projects.py:78-87 | with unique user ids, the stored user who created a stored project is its owner |
| ProjectsRepo.Content | backend/src/repos/projects.py:54-75 | None exactly when the user created no project with the id; a ValidationError exactly when the project has no warehouse, since `ProjectContent.warehouse` is required; otherwise exactly the project's datasources and one of its warehouses |
| ProjectsRepo.CreateProject | backend/src/repos/projects.py:90-96 | the caller becomes the creator of the new project, which gets a fresh id |
| ProjectsRepo.ApplyUpdateChangesOnlySupplied | backend/src/repos/projects.py:102-111 | each supplied field is set, the id and creator are kept, and an empty update changes nothing |
| ProjectsRepo.UpdateProject | backend/src/repos/projects.py:99-113 | the rows with the id are updated and no other row changes; None exactly when no row has the id |
| ProjectsRepo.DeleteProject | backend/src/repos/projects.py:116-120 | true exactly when a row had the id; the rows left are the cascade of `DeleteProjectRows` |
| ProjectsRepo.DeleteProjectLeavesNoChildren | backend/src/models/datasource.py:22-25 | afterwards nothing refers to the project: no datasource, warehouse, table or link under it; other projects' rows and the users stay |
| WarehousesRepo.OwnedWarehouses | backend/src/repos/warehouses.py:19-25 | exactly the `OFFSET`/`LIMIT` window of `AllOwned`: the warehouses of projects the user created, in the order the model stores rows (the SQL has no `ORDER BY`); at most `limit` of them |
| WarehousesRepo.AllOwned | backend/src/repos/warehouses.py:19-25 | a warehouse is listed exactly when it is stored and its project was created by the user |
| WarehousesRepo.UserWarehouses | backend/src/repos/warehouses.py:16-56 | one model per owned warehouse of the page, in order, each with its "fact" and "dimension" link ids |
| WarehousesRepo.RolesPartitionLinks | backend/src/repos/warehouses.py:36-42 | with distinct link ids, a link is under "fact" exactly when it is the warehouse's and typed "fact", likewise for "dimension"; other types appear in neither |
| WarehousesRepo.LinkIdsExact | backend/src/repos/warehouses.py:36-41 | a link's id is listed under a role exactly when the link is the warehouse's and carries that role |
| WarehousesRepo.GetWarehouse | backend/src/repos/warehouses.py:59-62 | a stored warehouse with the id, absent exactly when no row has it |
| WarehousesRepo.WarehouseOwner | backend/src/repos/warehouses.py:65-75 | a stored user who created the warehouse's project; absent for a missing warehouse (`OwnerIsCreator` gives the other direction) |
| WarehousesRepo.OwnerIsCreator | backend/src/repos/warehouses.py:65-75 | with unique keys, the stored user who created a stored warehouse's project is its owner |
| WarehousesRepo.CreateWarehouse | backend/src/repos/warehouses.py:78-86 | the row is stored under a fresh id and the returned model echoes the caller's table map |
| WarehousesRepo.ApplyUpdateChangesOnlySupplied | backend/src/repos/warehouses.py:92-101 | the name is set when supplied; the id and project are kept; no name leaves the row unchanged |
| WarehousesRepo.UpdateWarehouse | backend/src/repos/warehouses.py:89-103 | corrected (the name only): the rows with the id are updated and no other row changes; None exactly when no row has the id |
| WarehousesRepo.DeleteWarehouse | backend/src/repos/warehouses.py:106-110 | true exactly when a row had the id; the row and its links go |
| WarehousesRepo.DeleteWarehouseKeepsTables | backend/src/models/warehouseDatatable.py:22-25 | afterwards no link points into the warehouse, other warehouses' links stay, and the data tables, datasources and projects are untouched |
| Store.ConfigText | backend/src/services/datasource.py:34-38 | a configuration entry inside an f-string: a key error exactly when missing; text as it is, and a column list printed as a list of dictionaries |
| Store.ConnectionUrl | backend/src/utils/spark_helpers.py:65-69 | `<type value>://<username>:<password>@<host>` with the entries printed, exactly when all three are present; otherwise the key error of the first missing one |
| Store.Formatted | backend/src/services/datasource.py:34-38 | text is printed as it is; a column list is printed in brackets |
| Store.TextCredentialsInUrl | backend/src/utils/spark_helpers.py:65-69 | text credentials are joined into the URL unchanged; a column-list username is printed into the URL rather than refused |
| Store.DeleteByIdRemovesExactly | backend/src/repos/datasources.py:80-84 | a delete removes exactly the rows with the key, keeps the others, shortens the table exactly when a row had the key, and a second delete removes nothing more |
| Common.Page | backend/src/repos/projects.py:24-25 | the `OFFSET`/`LIMIT` window: consecutive elements from `offset`, exactly `limit` of them when the tail is long enough, the whole tail when unlimited, none past the end |
| Common.Positions | backend/src/repos/projects.py:21-23 | the indices from `i` on of the elements satisfying the condition: all of them, only them, strictly increasing |
| Common.FilterAtPositions | backend/src/repos/projects.py:21-23 | a filter keeps stored order: its k-th element is the element at the k-th satisfying position |
| SparkHelpers.GetColumnType | backend/src/utils/spark_helpers.py:51-61 | Integer exactly for "int", Float exactly for "float", String for every other name |
| SparkHelpers.BaseTypesKeepTheirKind | backend/src/utils/spark_helpers.py:55-61 | "int", "str" and "float" each get their own type; among the base names only "str" is a string |
| SparkHelpers.Schema | backend/src/utils/spark_helpers.py:37-46 | one nullable field per column, in order, with the column's name and its `get_column_type` type |
| SparkHelpers.SchemaAppend | backend/src/utils/spark_helpers.py:37-46 | the schema of two column lists is the two schemas concatenated |
| SparkHelpers.FileFormatIsExtension | backend/src/utils/spark_helpers.py:74 | the format holds no dot; a path with a dot is stem + "." + format; a path without one is its own format |
| SparkHelpers.FileFormatOf | backend/src/utils/spark_helpers.py:74 | the format of stem + "." + ext is ext when ext holds no dot |
| SparkHelpers.Run | backend/src/utils/spark_helpers.py:70-76 | with no failure every step was a command, sent and answered without error, and all were sent |
| SparkHelpers.RunStopsAtFirstFailure | backend/src/utils/spark_helpers.py:70-76 | a failure is the first one: every earlier step succeeded, and the failing command is sent only when the cluster raised it |
| SparkHelpers.IngestSteps | backend/src/utils/spark_helpers.py:64-76 | a bad configuration fails first; otherwise one load per table, into that table, from its extract, in the format after the extract's last dot |
| SparkHelpers.Cluster.Open | backend/src/utils/spark_helpers.py:19-29 | one more session is open and the connection is logged |
| SparkHelpers.Cluster.Send | backend/src/utils/spark_helpers.py:32-33 | the command is logged and the cluster's answer returned |
| SparkHelpers.Cluster.Stop | backend/src/services/query.py:82-83 | one session fewer is open |
| SparkHelpers.Cluster.SendAll | backend/src/utils/spark_helpers.py:70-76 | the commands are sent in order up to the first failure, which is returned, as `Run` specifies |
| ProjectService.ValidateAccess | backend/src/services/project.py:15-23 | 404 exactly when the project is missing; 200 only for its creator; otherwise 401 |
| ProjectService.AccessMatchesContent | backend/src/services/project.py:15-33 | with unique ids, access is 200 exactly when the content query does not answer None |
| ProjectService.UserProjects | backend/src/services/project.py:25-27 | exactly the projects the user created |
| ProjectService.GetProjectContent | backend/src/services/project.py:29-33 | 404 exactly when the user has no project with the id; the content's ValidationError propagates exactly when the project has no warehouse; else its content with exactly its datasources and one of its warehouses |
| ProjectService.CreateProject | backend/src/services/project.py:35-37 | the user's project is stored and the reply is 200 |
| ProjectService.UpdateProject | backend/src/services/project.py:39-45 | 400 "Bad request" exactly when no project has the id, else 200 naming it; only rows with the id change |
| ProjectService.DeleteProject | backend/src/services/project.py:47-51 | 400 exactly when no project has the id, else 200 naming it; the cascade is applied |
| DatasourceService.ParseToDatatableAsWritten | backend/src/services/datasource.py:23-26 | as written: succeeds exactly for descriptors keyed "table_name", else a key error |
| DatasourceService.MySqlDescriptorRefused | backend/src/services/datasource.py:23-26 | every described MySQL table is refused with KeyError("table_name") |
| DatasourceService.MongoDescriptorRefused | backend/src/services/datasource.py:23-26 | every described MongoDB collection is refused with KeyError("table_name") |
| DatasourceService.ParseToDatatable | backend/src/services/datasource.py:23-26 | corrected: the descriptor's name and columns, under the datasource, whichever key holds the name |
| DatasourceService.ParseToDatatableAgrees | backend/src/services/datasource.py:23-26 | the corrected parse equals the written one wherever that succeeds |
| DatasourceService.TableNames | backend/src/services/datasource.py:39 | a missing entry is a key error, a column list has no `split`; text splits at "," into names that join back to it |
| DatasourceService.RequestTables | backend/src/services/datasource.py:28-46 | corrected (built on `ParseToDatatable` and `GetTablesSpec`): an inline table yields exactly itself with its configured columns; otherwise the URL's key error first, then that of `TableNames`; then success exactly when `GetTablesSpec` describes the names at the URL, one table per descriptor with its name and columns, in order, under the datasource, and otherwise its error |
| DatasourceService.ValidateAccess | backend/src/services/datasource.py:48-57 | 404 exactly when the datasource is missing; 200 only when the user created its project; otherwise 401 |
| DatasourceService.OwnerIsAdmitted | backend/src/services/datasource.py:48-57 | with unique keys, the stored user who created the datasource's project gets 200 |
| DatasourceService.UserDatasources | backend/src/services/datasource.py:59-61 | exactly the datasources of projects the user created |
| DatasourceService.GetDatasourceById | backend/src/services/datasource.py:63-67 | 400 "Bad request" exactly when no datasource has the id, else that datasource |
| DatasourceService.CreateDatasource | backend/src/services/datasource.py:73-78 | corrected (built on `RequestTables`): the row is stored first and stays; a discovery failure propagates with no table stored; otherwise the discovered tables are stored under it and the reply is 200 |
| DatasourceService.UpdateDatasource | backend/src/services/datasource.py:80-89 | corrected (built on `RequestTables`): 400 with no reconciliation when no row has the id; a discovery failure propagates; otherwise the tables are reconciled by name and the reply is 200 |
| DatasourceService.DeleteDatasource | backend/src/services/datasource.py:91-95 | 400 exactly when no datasource has the id, else 200 naming it; the cascade is applied |
| QueryService.GroupedKeysDistinct | backend/src/services/query.py:36-40 | each datasource id is a key once, and the keys are the group map's domain |
| QueryService.GroupedKeysPresent | backend/src/services/query.py:37-39 | the keys are exactly the datasource ids of the input tables |
| QueryService.GroupedGroups | backend/src/services/query.py:32-41 | under each key lie exactly that datasource's tables, in input order |
| QueryService.GroupedCountPreserved | backend/src/services/query.py:32-41 | the groups hold as many tables as the input, so none is lost or duplicated |
| QueryService.GroupByDatasource | backend/src/services/query.py:32-41 | the loop builds the grouping `Grouped` specifies |
| QueryService.Grouped | backend/src/services/query.py:32-41 | no more keys than tables, and no empty group |
| QueryService.Paired | backend/src/services/query.py:43-51 | succeeds exactly when every datasource has a group; then each datasource, in order, with its group; otherwise a key error naming a missing one |
| QueryService.PairWithTables | backend/src/services/query.py:43-51 | the loop returns what `Paired` specifies |
| QueryService.DatasourcesById | backend/src/services/query.py:139 | over the datasource rows: a datasource is fetched exactly when it is stored and its id is listed |
| QueryService.PairingNeverFails | backend/src/services/query.py:138-140 | pairing the groups with the datasources fetched by their keys never raises |
| QueryService.TableById | backend/src/services/query.py:134-136 | a stored table with the id, absent exactly when no row has it |
| QueryService.LinkedTables | backend/src/services/query.py:134-138 | succeeds exactly when every link's table exists, then those tables in link order; otherwise the attribute error of reading a missing table |
| QueryService.NodeUrl | backend/src/services/query.py:28-30 | over the project rows: succeeds exactly when a project has the id, with that project's node URL; otherwise AttributeError("node_url") |
| QueryService.Outcome | backend/src/services/query.py:114-119 | success exactly without a failure; the message is then the given one, else the failure's text |
| QueryService.Session | backend/src/services/query.py:94-101 | a session is opened on the node, carries one command and is stopped, leaving the open count unchanged |
| QueryService.ValidateFile | backend/src/services/query.py:53-57 | 200 "OK" exactly when the text after the last "." is "csv" or "json", case-sensitive; else 400 with the format message |
| QueryService.ValidateFileByExtension | backend/src/services/query.py:53-57 | stem + "." + ext is accepted exactly when ext is "csv" or "json" |
| QueryService.ValidateQuery | backend/src/services/query.py:59-83 | a failed access check is 400 with its message and no session; otherwise EXPLAIN runs in one session and the cluster's error, if any, is the 400 |
| QueryService.RunQuery | backend/src/services/query.py:85-101 | a missing project raises with no session; otherwise the rows or the error's text, from one stopped session |
| QueryService.ReadData | backend/src/services/query.py:154-169 | a missing project raises with no session; otherwise the rows as 200 or the error as 400, from one stopped session |
| QueryService.CreateSteps | backend/src/services/query.py:110-116 | over the table rows: one step per link, in order: creating the link's table with its schema, or an error when the table is missing |
| QueryService.AddTables | backend/src/services/query.py:103-121 | an empty list or a warehouse without a project raises with no session; otherwise the tables are created in order until one fails, and the session is stopped |
| QueryService.AddTablesCreatesEveryTable | backend/src/services/query.py:114-117 | when creation succeeds, every link's table exists and was created, in link order, with its own schema |
| QueryService.IngestSkipsInlineTables | backend/src/services/query.py:144-147 | every load sent targets a table of a datasource that is not an inline table |
| QueryService.PairSteps | backend/src/services/query.py:144-147 | when every datasource is an inline table, no load is planned |
| QueryService.PairStepsAppend | backend/src/services/query.py:144-147 | the loop over pairs plans the steps of a concatenation as the steps of its first part followed by those of its second |
| QueryService.IngestCoversServerTables | backend/src/services/query.py:144-147 | every datasource that is not an inline table gets all its extract steps, in one run placed right after the steps of the pairs before it |
| QueryService.IngestPlan | backend/src/services/query.py:132-147 | a plan exists only when every link's table is stored |
| QueryService.PlanIngest | backend/src/services/query.py:132-140 | the lookups, grouping and pairing return what `IngestPlan` specifies |
| QueryService.IngestPlanFailsOnlyOnMissingTables | backend/src/services/query.py:132-140 | over the table and datasource rows: planning fails exactly when some link's table is missing |
| QueryService.IngestData | backend/src/services/query.py:123-152 | a missing project or table raises with no session; otherwise the loads are sent until one fails, and the session is stopped |
| QueryService.UploadKind | backend/src/services/query.py:182-187 | a file is read as JSON exactly when its lower-cased extension is "json" |
| QueryService.UploadCaseDiffers | backend/src/services/query.py:182-187 | "data.JSON" is refused by the file check but read as JSON by the writer |
| QueryService.WriteSteps | backend/src/services/query.py:197-201 | an upload is one frame write into the table; without one, a table of a missing datasource fails, and a table of a stored datasource gets that datasource's extract steps for the table alone |
| QueryService.WriteData | backend/src/services/query.py:171-206 | a missing project raises and a missing table is 404, both with no session; otherwise the write runs in one stopped session, 200 or 400 with the error |
| WarehouseService.RoleLinks | backend/src/services/warehouse.py:31-37 | one link record per id, in order, with the warehouse and role |
| WarehouseService.Parsed | backend/src/services/warehouse.py:25-38 | succeeds exactly when every role with ids is "fact" or "dimension", else the enum's error for such a role (`ParsedFailsAtFirstInvalid`: the first one); then one record per (role, id), as many as the ids, each with the warehouse's id |
| WarehouseService.ParsedStep | backend/src/services/warehouse.py:30-37 | the map parses as its first role's records followed by the rest's, or the first role's error |
| WarehouseService.ParsedFailsAtFirstInvalid | backend/src/services/warehouse.py:30-37 | the error names the first role in map order that has ids and is neither "fact" nor "dimension" |
| WarehouseService.AppendRole | backend/src/services/warehouse.py:31-37 | the inner loop appends the role's records, or fails for an invalid role with ids |
| WarehouseService.ParseDatatables | backend/src/services/warehouse.py:25-38 | the nested loop returns what `Parsed` specifies |
| WarehouseService.NewLinks | backend/src/services/warehouse.py:55 | one stored link per record, in order, with consecutive ids |
| WarehouseService.CreateLinks | backend/src/services/warehouse.py:55 | the records are stored as new links after the existing ones |
| WarehouseService.JobsSucceed | backend/src/services/warehouse.py:40-55 | when the jobs succeed, no job fails: `FailedJob` is absent |
| WarehouseService.RunJobs | backend/src/services/warehouse.py:43-53 | the jobs report success exactly when `JobsSucceed`; a failure reports the text of `FailedJob`; the open session count is unchanged |
| WarehouseService.LinkAfterJobs | backend/src/services/warehouse.py:43-55 | links are added exactly when `JobsSucceed`, as the records given; otherwise they are unchanged and the refusal carries `FailedJob`'s text |
| WarehouseService.AddDatatablesAsWritten | backend/src/services/warehouse.py:40-55 | as written, links are never stored: a parsed map is refused or the ingest call raises |
| WarehouseService.AddDatatables | backend/src/services/warehouse.py:40-55 | corrected: links are stored exactly when parsing succeeds and `JobsSucceed`, and then they are the parsed records; otherwise the links are unchanged, and a refusal carries the text of `FailedJob` |
| WarehouseService.ValidateAccessAsWritten | backend/src/services/warehouse.py:62-71 | as written: 404 exactly when the warehouse is missing, otherwise always 401 |
| WarehouseService.OwnerLockedOut | backend/src/services/warehouse.py:68-69 | as written, the warehouse's own owner is refused with 401 |
| WarehouseService.ValidateAccess | backend/src/services/warehouse.py:62-71 | corrected: 404 exactly when the warehouse is missing; 200 exactly when its owner is the user; otherwise 401 |
| WarehouseService.OwnerIsAdmitted | backend/src/services/warehouse.py:62-71 | with unique keys, the stored user who created the warehouse's project gets 200 |
| WarehouseService.GetWarehouse | backend/src/services/warehouse.py:77-81 | 400 "Bad request" exactly when no warehouse has the id, else that warehouse |
| WarehouseService.CreateWarehouse | backend/src/services/warehouse.py:83-88 | corrected (built on `AddDatatables`): the row is stored first and stays; the reply is 200 exactly when the map parses and `JobsSucceed`; a 400 carries the failing job's text and stores no link |
| WarehouseService.Retype | backend/src/services/warehouse.py:57-60 | the links of the record's warehouse and table take its role; others are unchanged |
| WarehouseService.RetypeAll | backend/src/services/warehouse.py:57-60 | as many links as before, each keeping its id and warehouse |
| WarehouseService.RetypeAllKeepsLinks | backend/src/services/warehouse.py:57-60 | retyping keeps every link's id, warehouse and table, and a role changes only to that of a record for the same pair |
| WarehouseService.UpdateWarehouse | backend/src/services/warehouse.py:90-98 | corrected (built on `WarehousesRepo.UpdateWarehouse`): 400 when no warehouse has the id; links change only when a table map is given, then they take its roles; else 200 |
| WarehouseService.DeleteWarehouse | backend/src/services/warehouse.py:100-104 | 400 exactly when no warehouse has the id, else 200 naming it; the row and its links go |
| UsersRouter.Expiry | backend/src/routers/users.py:44 | a missing expiry counts as 0 |
| UsersRouter.UserByEmail | backend/src/repos/users.py:27-32 | the first stored user with the address, absent exactly when none has it |
| UsersRouter.GetCurrentUser | backend/src/routers/users.py:33-64 | every refusal is 401; a token that does not decode gets the credentials error; "Token expired" exactly when the expiry is not after `now`; a user is returned exactly when the token is unexpired, names a subject, and a stored user has that address, and then that user's email is the subject |
| UsersRouter.MissingExpiryIsExpired | backend/src/routers/users.py:44-53 | a token without an expiry is refused as expired, whether or not it names a subject |

## Left out

- Database drivers are left out. psycopg2, mysql.connector and pymongo are replaced by the answers in a `Databases.Driver` value. The table listings `get_*_tables` and `parse_mysql_url` are not modelled: dispatch never calls the listings, and `parse_mysql_url` only wraps a URL parser.
- The Spark cluster is left out beyond its answers. Session construction, Delta configuration and the effect of a command are not modelled. The cluster's answer is a fixed function of the command, so the model does not capture answers that change over time. A failure of `setup_connection` itself is not modelled.
- SQLAlchemy is left out. Sessions, commits and `get_db` are replaced by the class `Store.Database`, which holds one sequence per table. UUID keys are natural numbers taken from a counter. Grouping keys by `str(uuid)` is modelled as keys by id, since that conversion is one-to-one.
- Foreign keys are only partly modelled. Deletes cascade as the `ondelete="CASCADE"` keys say, and they match rows by id. Inserts do not check that referenced rows exist.
- pandas is left out. Reading an upload is a `Frame` of its kind and its text, and a parse error in the file is not modelled.
- Cryptography is left out. JWT decoding is an optional payload passed to `UsersRouter.GetCurrentUser`, and a non-numeric `exp` is not modelled. bcrypt is not modelled. The current time is a real-valued parameter, as `timestamp()` returns a float.
- Unicode is left out. `isspace`, `isupper`, `isdecimal` and `lower()` are modelled on ASCII only. `Strings.Lower` maps only "A" to "Z", and the engine type mappings and `UploadKind` use it.
- Undefined repository functions are modelled by what their names say:
  - `get_table_by_id` is `QueryService.TableById`;
  - `get_datasources_by_id` is `QueryService.DatasourcesById`;
  - `create_warehouse_tables` is `WarehouseService.CreateLinks`;
  - `update_warehouse_tables` is `WarehouseService.RetypeAll`;
  - `read_from_db` is the `extract` parameter;
  - `ingest_from_file` is one `WriteFrame` command.

  These functions do not exist in the repository.
- The service `get_datasource_tables` (backend/src/services/datasource.py:69-71) is not modelled, because it calls a data-table repository function that does not exist. The repository stub is modelled as `DatasourcesRepo.DatasourceTables`.
- The service `get_user_warehouses` (backend/src/services/warehouse.py:73-75) has no member of its own. It is the repository listing with offset 0 and no limit: `WarehousesRepo.UserWarehouses`. The repository listings default to offset 0 and a limit of 25, as their Python signatures do; every service passes no limit.
- `get_all_users`, `get_users`, `get_user_by_username` and `create_user` are not modelled. They take no decision.
- Some source inconsistencies are resolved in one direction:
  - `DatasourceType` is taken to have an inline-table member whose value is "datatable", which the service and the query code both use.
  - Tables use the names `columns` and `datasource_id` throughout, not `fields` and `ds_id`.
  - Link roles are stored as "fact" and "dimension", the values the listing filters on, not "fact_table" and "dimension_table".
  - `existing_table_names` is the set of the datasource's table names, as its docstring says.
  - The unreachable statements at backend/src/repos/datatables.py:61-64 are left out.
- Configuration values are text or a column list. Other JSON values are not modelled.
- `from_orm` is left out, and so is a failure of it. `get_warehouse_by_id` is an optional lookup, as its callers test it against None.
- The "at most one fact table per warehouse" validator is not part of this model. It lives in the request schema.
- DatatablesRepo.UpdateTables: returns the records as saved, not models read back with their ids, because the model of a saved record has no id of its own.
- WarehousesRepo.UpdateWarehouse: sets the name only. As written, `wh.dict(exclude_none=True)` keeps a supplied `datatables` list and passes it to `.values()` at backend/src/repos/warehouses.py:92-100. The warehouse table has no such column, so that `UPDATE` raises before the commit and nothing changes. The model leaves the key out of the `UPDATE` instead.
- WarehouseService.UpdateWarehouse: built on the corrected `WarehousesRepo.UpdateWarehouse`. As written, an update that carries a table map raises in the repository, so nothing changes and the link retyping at backend/src/services/warehouse.py:96-97 is never reached. Only an update without a table map behaves as modelled.
- UserWarehouses: returns, for each warehouse, the "fact" and "dimension" id lists the listing builds. As written, backend/src/repos/warehouses.py:48-53 passes that dictionary as `WarehouseModel.datatables`, which backend/src/schema/warehouse.py:11 declares `List[UUID]`, so pydantic raises a ValidationError for every non-empty listing and only an empty listing is returned.
- MySqlTablesInfo: built on the corrected `MySqlTable`. As written, the table "orders" is queried with `SHOW COLUMNS FROM o` and reported as "o" (`MySqlTableAsWritten`).
- MySqlInfo: built on the corrected `MySqlTable`, with the same difference as `MySqlTablesInfo`.
- MongoTablesInfo: built on the corrected `SplitMongoUrl`. As written, "mongodb://localhost:27017/local" connects to the client URL "mongodb:/" (`ParseMongoUrl`).
- MongoInfo: built on the corrected `SplitMongoUrl`, with the same difference as `MongoTablesInfo`.
- GetTablesSpec: built on the corrected `MySqlInfo` and `MongoInfo`. As written, MySQL tables are named by their first character and MongoDB URLs are cut at the first occurrence of the database name.
- GetTables: returns `GetTablesSpec`, so it carries the same two corrections.
- DispatchUsesGivenTables: holds for the corrected dispatch. As written, a MySQL table's descriptor carries only the first character of its name.
- DispatchByPrefix: states the corrected dispatch, as `GetTablesSpec` does.
- RequestTables: built on the corrected `ParseToDatatable` and `GetTablesSpec`. As written, every described MySQL table and MongoDB collection raises KeyError("table_name") (`MySqlDescriptorRefused`, `MongoDescriptorRefused`).
- CreateDatasource: built on the corrected `RequestTables`. As written, a MySQL or MongoDB datasource whose discovery succeeds raises KeyError("table_name") after the row is committed, and no table is stored.
- UpdateDatasource: built on the corrected `RequestTables`. As written, a MySQL or MongoDB datasource raises KeyError("table_name") after the row is updated, and no table is reconciled.
- CreateWarehouse: built on the corrected `AddDatatables`. As written, a map that parses and whose tables are created raises a TypeError at backend/src/services/warehouse.py:51, so no link is stored (`AddDatatablesAsWritten`).
- CreateProject: stores the given node URL. `ProjectDB` (backend/src/models/project.py) has no `node_url` column, so as written the constructor at backend/src/repos/projects.py:91-95 raises a TypeError. The model gives projects the node URL that the query service reads.
- NodeUrl: reads the stored node URL. `ProjectModel` has no `node_url` field, so as written backend/src/services/query.py:30 raises AttributeError for every project, not only a missing one.
- ConnectionUrl: writes the engine name ("postgresql", "mysql", "mongodb") before "://". In backend/src/schema/datasource.py:10-15 the `DatasourceType` values are the integers 1 to 5, so as written the URL begins with a digit and `get_tables` raises "Unsupported database URL" for every datasource. `RequestTables` and `IngestSteps` use the same URL.
- Parsed: takes the table map as (role, ids) pairs. `WarehouseCreate.datatables` and `WarehouseUpdate.datatables` are declared `List[UUID]` in backend/src/schema/warehouse.py, so as written `dts.items()` at backend/src/services/warehouse.py:30 raises an AttributeError on the create path. (On the update path the repository `UPDATE` raises first; see `WarehouseService.UpdateWarehouse`.) `ParseDatatables`, `CreateWarehouse` and `UpdateWarehouse` take the map the service code iterates.
- CreateProject/UpdateProject: the model takes `ProjectCreate` (name and node URL) and `ProjectUpdate` (optional name and node URL). backend/src/schema/project.py defines neither class, yet backend/src/repos/projects.py:9, backend/src/services/project.py:5 and backend/src/routers/projects.py:9 import both, so as written the project modules fail to import. `ProjectsRepo.CreateProject`, `ProjectsRepo.UpdateProject`, `ProjectService.CreateProject` and `ProjectService.UpdateProject` assume the classes exist.
- ConfigText: a column list is printed as Python prints a list of `{'name': …, 'type': …}` dictionaries. Python's choice of quotes and its escapes, for names that hold a quote or a backslash, are not modelled.
- WarehouseService.AddDatatables: does not state its command log. `QueryService.AddTables` and `QueryService.IngestData` state theirs.

## Findings

| source | as written | input that shows it | evidently intended | confidence | as-written member | corrected member |
|---|---|---|---|---|---|---|
| backend/src/utils/databases.py:159-162 | the client URL is cut before the FIRST occurrence of the database name anywhere in the URL | "mongodb://localhost:27017/local" gives ("mongodb:/", "local") | everything before the last "/" is the client URL | high, not executed | Databases.MongoUrlNameInHost | Databases.SplitMongoUrl |
| backend/src/utils/databases.py:141 | `table[0]` of a table name taken from a list of strings is its first character | the table "orders" is queried as "o" | the whole name is queried and reported | high, not executed | Databases.MySqlTableFirstCharacter | Databases.MySqlTable |
| backend/src/services/datasource.py:24 | the descriptor's name is read under "table_name", a key only Postgres descriptors have | any MySQL table or MongoDB collection raises KeyError("table_name") | the name is read under the key its engine uses | high, not executed | DatasourceService.MySqlDescriptorRefused | DatasourceService.ParseToDatatable |
| backend/src/services/warehouse.py:68-69 | the owner, a user record or None, is compared with the caller's id | the warehouse's own creator gets 401 "Unauthorized" | the owner is compared with the caller | high, not executed | WarehouseService.OwnerLockedOut | WarehouseService.ValidateAccess |
| backend/src/services/warehouse.py:51 | `ingest_data(tables)` leaves out the project id argument | any valid table map whose tables are created raises a TypeError, so no link is ever stored | the warehouse's project id is passed | high, not executed | WarehouseService.AddDatatablesAsWritten | WarehouseService.AddDatatables |

=== FILE: common.dfy ===
/** Vocabulary shared by every module: optional values, the exceptions a
    Python operation can raise on the paths the model keeps, status replies,
    and the sequence operations the repositories are built from. */
module Common {

  datatype Option<T> = None | Some(value: T)

  /** The exception a Python statement raises, for the failures the model keeps. */
  datatype Failure =
    | KeyError(key: string)          // a dictionary lookup of a missing key
    | IndexError                     // `xs[0]` on an empty list or string
    | ValueError(message: string)    // an enum conversion or an unsupported URL
    | AttributeError(name: string)   // the attribute `name` read on `None`
    | NoAttribute(typeName: string, name: string)  // the attribute `name` read on a value of another type
    | ValidationError(model: string, field: string)  // a pydantic model given `None` for a required field
    | TypeError(message: string)     // a call with a missing argument
    | Remote(message: string)        // raised by a database driver or the cluster

  datatype Result<T> = Ok(value: T) | Err(failure: Failure)

  /** `str(e)` for a caught exception: a key error shows the quoted key. */
  function ErrorText(f: Failure): string
  {
    match f
    case KeyError(key) => "'" + key + "'"
    case IndexError => "list index out of range"
    case ValueError(message) => message
    case AttributeError(name) => "'NoneType' object has no attribute '" + name + "'"
    case NoAttribute(typeName, name) => "'" + typeName + "' object has no attribute '" + name + "'"
    case ValidationError(model, field) =>
      "1 validation error for " + model + "\n" + field + "\n  none is not an allowed value (type=type_error.none.not_allowed)"
    case TypeError(message) => message
    case Remote(message) => message
  }

  /** A `(status_code, message)` pair as the services return it. */
  datatype Reply = Reply(code: int, detail: string)

  /** A `(status_code, str | Model)` pair: a message, or a 200 carrying a model. */
  datatype Answer<T> = Message(code: int, detail: string) | Found(value: T)

  /** `acc` followed by the list in `r`, or the failure of `r`. */
  function Prepend<T>(acc: seq<T>, r: Result<seq<T>>): Result<seq<T>>
  {
    match r
    case Ok(v) => Ok(acc + v)
    case Err(f) => Err(f)
  }

  lemma PrependNil<T>(r: Result<seq<T>>)
    ensures Prepend([], r) == r
  {
    if r.Ok? {
      assert [] + r.value == r.value;
    }
  }

  lemma PrependAssoc<T>(a: seq<T>, b: seq<T>, r: Result<seq<T>>)
    ensures Prepend(a, Prepend(b, r)) == Prepend(a + b, r)
  {
    if r.Ok? {
      assert a + (b + r.value) == (a + b) + r.value;
    }
  }

  /** The elements of `s` that satisfy `p`, in their order in `s`. */
  function Filter<T>(s: seq<T>, p: T -> bool): (r: seq<T>)
    ensures |r| <= |s|
    ensures forall i :: 0 <= i < |r| ==> r[i] in s && p(r[i])
    ensures forall i :: 0 <= i < |s| && p(s[i]) ==> s[i] in r
  {
    if s == [] then []
    else (if p(s[0]) then [s[0]] else []) + Filter(s[1..], p)
  }

  lemma {:induction false} FilterAppend<T>(a: seq<T>, b: seq<T>, p: T -> bool)
    ensures Filter(a + b, p) == Filter(a, p) + Filter(b, p)
  {
    if a == [] {
      assert a + b == b;
    } else {
      assert (a + b)[1..] == a[1..] + b;
      FilterAppend(a[1..], b, p);
    }
  }

  /** The indices from `i` on of the elements of `s` that satisfy `p`, in
      increasing order. */
  function Positions<T>(s: seq<T>, p: T -> bool, i: nat): (idx: seq<nat>)
    requires i <= |s|
    ensures forall k :: 0 <= k < |idx| ==> i <= idx[k] < |s| && p(s[idx[k]])
    ensures forall k, l :: 0 <= k < l < |idx| ==> idx[k] < idx[l]
    ensures forall j :: i <= j < |s| && p(s[j]) ==> j in idx
    decreases |s| - i
  {
    if i == |s| then []
    else
      var rest := Positions(s, p, i + 1);
      if p(s[i]) then
        assert forall k :: 0 <= k < |[i] + rest| ==> ([i] + rest)[k] == if k == 0 then i else rest[k - 1];
        [i] + rest
      else rest
  }

  /** `Filter` keeps order: its result is `s` read at the positions of the
      elements that satisfy `p`, so kept elements appear in the order they
      had in `s`. */
  lemma {:induction false} FilterAtPositions<T>(s: seq<T>, p: T -> bool, i: nat)
    requires i <= |s|
    ensures |Filter(s[i..], p)| == |Positions(s, p, i)|
    ensures forall k :: 0 <= k < |Filter(s[i..], p)| ==> Filter(s[i..], p)[k] == s[Positions(s, p, i)[k]]
    decreases |s| - i
  {
    if i < |s| {
      FilterAtPositions(s, p, i + 1);
      var tail, later := Filter(s[i + 1..], p), Positions(s, p, i + 1);
      var head: seq<T> := if p(s[i]) then [s[i]] else [];
      var first: seq<nat> := if p(s[i]) then [i] else [];
      assert Filter(s[i..], p) == head + tail by {
        assert s[i..][0] == s[i] && s[i..][1..] == s[i + 1..];
      }
      assert Positions(s, p, i) == first + later;
      SpliceAt(s, head, tail, first, later);
    }
  }

  /** Reading `s` at `first + later` gives `head + tail` when each half does. */
  lemma SpliceAt<T>(s: seq<T>, head: seq<T>, tail: seq<T>, first: seq<nat>, later: seq<nat>)
    requires |head| == |first| && |tail| == |later|
    requires forall k :: 0 <= k < |first| ==> first[k] < |s| && head[k] == s[first[k]]
    requires forall k :: 0 <= k < |later| ==> later[k] < |s| && tail[k] == s[later[k]]
    ensures forall k :: 0 <= k < |head + tail| ==> (first + later)[k] < |s| && (head + tail)[k] == s[(first + later)[k]]
  {
    forall k | 0 <= k < |head + tail|
      ensures (first + later)[k] < |s| && (head + tail)[k] == s[(first + later)[k]]
    {
      if k >= |head| {
        assert (head + tail)[k] == tail[k - |head|] && (first + later)[k] == later[k - |head|];
      }
    }
  }

  /** The first element of `s` that satisfies `p` (SQLAlchemy's `.scalar()`). */
  function Find<T(==)>(s: seq<T>, p: T -> bool): (r: Option<T>)
    ensures r.Some? ==> r.value in s && p(r.value)
    ensures r.None? <==> forall i :: 0 <= i < |s| ==> !p(s[i])
    ensures r.Some? ==> exists i :: 0 <= i < |s| && s[i] == r.value && forall j :: 0 <= j < i ==> !p(s[j])
  {
    if s == [] then None
    else if p(s[0]) then Some(s[0])
    else
      var r := Find(s[1..], p);
      if r.Some? then
        var i :| 0 <= i < |s[1..]| && s[1..][i] == r.value && forall j :: 0 <= j < i ==> !p(s[1..][j]);
        assert s[i + 1] == r.value && forall j :: 0 <= j < i + 1 ==> !p(s[j]);
        r
      else r
  }

  /** `s` with `f` applied to every element. */
  function MapSeq<T, U>(s: seq<T>, f: T -> U): (r: seq<U>)
    ensures |r| == |s|
    ensures forall i :: 0 <= i < |s| ==> r[i] == f(s[i])
  {
    seq(|s|, i requires 0 <= i < |s| => f(s[i]))
  }

  lemma MapSeqAppend<T, U>(a: seq<T>, b: seq<T>, f: T -> U)
    ensures MapSeq(a + b, f) == MapSeq(a, f) + MapSeq(b, f)
  {
  }

  /** The window `OFFSET offset LIMIT limit` of a query result; no limit when `limit` is None. */
  function Page<T>(s: seq<T>, offset: nat, limit: Option<nat>): (r: seq<T>)
    ensures limit.Some? ==> |r| <= limit.value
    ensures offset + |r| <= |s| || r == []
    ensures forall i :: 0 <= i < |r| ==> offset + i < |s| && r[i] == s[offset + i]
    ensures offset <= |s| && (limit.None? || offset + limit.value >= |s|) ==> r == s[offset..]
    ensures limit.Some? && offset + limit.value <= |s| ==> |r| == limit.value
    ensures offset >= |s| ==> r == []
  {
    var rest := if offset <= |s| then s[offset..] else [];
    if limit.Some? && limit.value < |rest| then rest[..limit.value] else rest
  }
}

=== FILE: databases.dfy ===
/** Schema discovery for external databases: folding each engine's column
    type names into `int`/`float`/`str`, splitting MongoDB URLs, choosing an
    engine by URL prefix, and turning driver result rows into table
    descriptors. The drivers themselves are a `Driver` value: what a
    connection attempt, a column query or a `find_one` would return. */
module Databases {
  import opened Common
  import opened Strings

  /** The type names every mapping folds into. */
  const BaseTypes: set<string> := {"int", "float", "str"}

  const MongoTypes: map<string, string> := map[
    "int" := "int", "long" := "int",
    "double" := "float", "float" := "float", "decimal" := "float",
    "string" := "str"]

  const MySqlTypes: map<string, string> := map[
    "int" := "int", "tinyint" := "int", "smallint" := "int", "mediumint" := "int", "bigint" := "int",
    "float" := "float", "double" := "float", "decimal" := "float",
    "char" := "str", "varchar" := "str", "text" := "str"]

  const PostgresTypes: map<string, string> := map[
    "integer" := "int", "bigint" := "int", "smallint" := "int",
    "decimal" := "float", "numeric" := "float", "real" := "float", "double precision" := "float",
    "character" := "str", "character varying" := "str", "text" := "str"]

  /** `mapping[key]`: a missing key raises a key error. */
  function Lookup(m: map<string, string>, key: string): Result<string>
  {
    if key in m then Ok(m[key]) else Err(KeyError(key))
  }

  /** `parse_data_type_mongodb`. */
  function ParseMongoType(dataType: string): (r: Result<string>)
    ensures r.Ok? <==> Lower(dataType) in MongoTypes
    ensures r.Ok? ==> r.value in BaseTypes
    ensures r.Err? ==> r.failure == KeyError(Lower(dataType))
  {
    Lookup(MongoTypes, Lower(dataType))
  }

  /** `parse_data_type_mysql`: the length or precision in parentheses is dropped first. */
  function ParseMySqlType(dataType: string): (r: Result<string>)
    ensures r.Ok? <==> Lower(Split(dataType, '(')[0]) in MySqlTypes
    ensures r.Ok? ==> r.value in BaseTypes
    ensures r.Err? ==> r.failure == KeyError(Lower(Split(dataType, '(')[0]))
  {
    Lookup(MySqlTypes, Lower(Split(dataType, '(')[0]))
  }

  /** `parse_data_type_postgres`. */
  function ParsePostgresType(dataType: string): (r: Result<string>)
    ensures r.Ok? <==> Lower(dataType) in PostgresTypes
    ensures r.Ok? ==> r.value in BaseTypes
    ensures r.Err? ==> r.failure == KeyError(Lower(dataType))
  {
    Lookup(PostgresTypes, Lower(dataType))
  }

  /** The three mappings ignore the case of the type name. */
  lemma TypeMappingsIgnoreCase(dataType: string)
    ensures ParseMongoType(Lower(dataType)) == ParseMongoType(dataType)
    ensures ParsePostgresType(Lower(dataType)) == ParsePostgresType(dataType)
    ensures ParseMySqlType(Lower(dataType)) == ParseMySqlType(dataType)
  {
    LowerIdempotent(dataType);
    LowerSplit(dataType, '(');
    LowerIdempotent(Split(dataType, '(')[0]);
  }

  lemma MySqlVarcharWithLength()
    ensures ParseMySqlType("VARCHAR(255)") == Ok("str")
  {
    assert "VARCHAR(255)" == "VARCHAR" + ['('] + "255)";
    SplitFirstPiece("VARCHAR", '(', "255)");
    LowerVarchar();
    VarcharListed();
  }

  lemma LowerVarchar()
    ensures Lower("VARCHAR") == "varchar"
  {
  }

  lemma VarcharListed()
    ensures Lookup(MySqlTypes, "varchar") == Ok("str")
  {
  }

  /** None of the mappings has a default: an unlisted name is a key error. */
  lemma UnlistedTypeIsKeyError()
    ensures ParsePostgresType("boolean") == Err(KeyError("boolean"))
    ensures ParseMongoType("boolean") == Err(KeyError("boolean"))
    ensures ParseMySqlType("boolean") == Err(KeyError("boolean"))
  {
    LowerBoolean();
    BooleanUnlisted();
    SplitWithoutSep("boolean", '(');
  }

  lemma LowerBoolean()
    ensures Lower("boolean") == "boolean"
  {
  }

  lemma BooleanUnlisted()
    ensures "boolean" !in PostgresTypes && "boolean" !in MongoTypes && "boolean" !in MySqlTypes
  {
  }

  /** `parse_mongodb_url` as written: the database name is the text after the
      last "/"; the client URL is the text before the FIRST occurrence of that
      name, without its last character. An empty name is an empty separator. */
  function ParseMongoUrl(url: string): (r: Result<(string, string)>)
    ensures r.Err? <==> AfterLast(url, '/') == []
    ensures r.Ok? ==> r.value.1 == AfterLast(url, '/') && '/' !in r.value.1
  {
    var db := AfterLast(url, '/');
    if db == [] then Err(ValueError("empty separator"))
    else
      LastPiece(url, '/');
      Ok((DropLast(PrefixBefore(url, db)), db))
  }

  /** When the database name does not occur earlier in the URL, the client
      URL, "/" and the name give the URL back. */
  lemma MongoUrlRoundTrip(url: string)
    requires '/' in url && AfterLast(url, '/') != []
    requires forall k :: 0 <= k <= |BeforeLast(url, '/')| && k <= |url| ==> !StartsWith(url[k..], AfterLast(url, '/'))
    ensures ParseMongoUrl(url).Ok?
    ensures ParseMongoUrl(url).value.0 + "/" + ParseMongoUrl(url).value.1 == url
  {
    var base, db := BeforeLast(url, '/'), AfterLast(url, '/');
    AroundLast(url, '/');
    assert url == (base + ['/']) + db + [];
    PrefixBeforeAt(base + ['/'], db, []);
    assert DropLast(base + ['/']) == base;
  }

  /** When the database name first occurs right after `head`, the client
      URL is `head` without its last character, whatever follows. */
  lemma MongoUrlCutAtFirstOccurrence(head: string, db: string, mid: string)
    requires db != [] && '/' !in db
    requires forall k :: 0 <= k < |head| ==> !StartsWith((head + db + (mid + ['/'] + db))[k..], db)
    ensures ParseMongoUrl(head + db + mid + ['/'] + db) == Ok((DropLast(head), db))
  {
    var url := head + db + mid + ['/'] + db;
    assert url == (head + db + mid) + ['/'] + db;
    LastSepSplit(head + db + mid, '/', db);
    assert url == head + db + (mid + ['/'] + db);
    PrefixBeforeAt(head, db, mid + ['/'] + db);
  }

  /** A name that starts with a letter the scheme does not contain cannot
      start inside the scheme. */
  lemma NameNotInScheme(head: string, db: string, tail: string)
    requires db != [] && db[0] !in head
    ensures forall k :: 0 <= k < |head| ==> !StartsWith((head + db + tail)[k..], db)
  {
    forall k | 0 <= k < |head|
      ensures !StartsWith((head + db + tail)[k..], db)
    {
      assert (head + db + tail)[k..][0] == head[k];
    }
  }

  /** The database "local" occurs in the host name "localhost", so the
      client URL is cut at the host. */
  lemma MongoUrlNameInHost()
    ensures ParseMongoUrl("mongodb://localhost:27017/local") == Ok(("mongodb:/", "local"))
  {
    var head, db, mid := "mongodb://", "local", "host:27017";
    assert db[0] !in head;
    NameNotInScheme(head, db, mid + ['/'] + db);
    MongoUrlCutAtFirstOccurrence(head, db, mid);
    ExampleMongoUrl();
    assert DropLast(head) == "mongodb:/";
  }

  lemma ExampleMongoUrl()
    ensures "mongodb://" + "local" + "host:27017" + ['/'] + "local" == "mongodb://localhost:27017/local"
  {
  }

  /** The evidently intended split: everything before the last "/" is the
      client URL. The empty-name error is kept. */
  function SplitMongoUrl(url: string): (r: Result<(string, string)>)
    ensures r.Err? <==> AfterLast(url, '/') == []
    ensures r.Ok? ==> r.value.1 == AfterLast(url, '/') && '/' !in r.value.1
    ensures r.Ok? && '/' in url ==> r.value.0 + "/" + r.value.1 == url
  {
    var db := AfterLast(url, '/');
    if db == [] then Err(ValueError("empty separator"))
    else
      LastPiece(url, '/');
      Ok((BeforeLast(url, '/'), db))
  }

  /** The two splits agree whenever the name does not occur earlier. */
  lemma SplitMongoUrlAgrees(url: string)
    requires '/' in url && AfterLast(url, '/') != []
    requires forall k :: 0 <= k <= |BeforeLast(url, '/')| && k <= |url| ==> !StartsWith(url[k..], AfterLast(url, '/'))
    ensures SplitMongoUrl(url) == ParseMongoUrl(url)
  {
    MongoUrlRoundTrip(url);
    var r := ParseMongoUrl(url).value;
    var s := SplitMongoUrl(url).value;
    assert s.1 == r.1;
    assert |s.0| == |r.0|;
    assert s.0 == url[..|s.0|] == r.0;
  }

  /** A row of an information-schema or `SHOW COLUMNS` query. */
  datatype ColumnRow = ColumnRow(name: string, dataType: string)

  /** A top-level field of a MongoDB document with its runtime type name. */
  datatype Field = Field(key: string, typeName: string)

  datatype ColumnInfo = ColumnInfo(name: string, columnType: string)

  /** A table descriptor: a dictionary whose name entry is under `nameKey`. */
  datatype TableInfo = TableInfo(nameKey: string, name: string, columns: seq<ColumnInfo>)

  /** What the drivers answer: the error of a connection attempt to a URL,
      the rows of the column query for a (URL, table), and the first document
      of a (client URL, database, collection) or the server's error. */
  datatype Driver = Driver(
    connect: string -> Option<string>,
    columns: (string, string) -> Result<seq<ColumnRow>>,
    firstDocument: (string, string, string) -> Result<Option<seq<Field>>>)

  /** The column comprehension: every row's type is parsed, in result order;
      the first unparseable type aborts with its error. */
  function ParseColumns(rows: seq<ColumnRow>, parse: string -> Result<string>): (r: Result<seq<ColumnInfo>>)
    ensures r.Ok? <==> forall i :: 0 <= i < |rows| ==> parse(rows[i].dataType).Ok?
    ensures r.Ok? ==> |r.value| == |rows|
    ensures r.Ok? ==> forall i :: 0 <= i < |rows| ==>
      r.value[i] == ColumnInfo(rows[i].name, parse(rows[i].dataType).value)
    ensures r.Err? ==> exists i :: 0 <= i < |rows| && parse(rows[i].dataType) == Err(r.failure)
  {
    if rows == [] then Ok([])
    else
      match parse(rows[0].dataType)
      case Err(f) => Err(f)
      case Ok(t) =>
        var rest := ParseColumns(rows[1..], parse);
        assert forall i :: 1 <= i < |rows| ==> rows[i] == rows[1..][i - 1];
        Prepend([ColumnInfo(rows[0].name, t)], rest)
  }

  /** Every table of `names` described in turn; the first failure aborts. */
  function Each(names: seq<string>, describe: string -> Result<TableInfo>): (r: Result<seq<TableInfo>>)
    ensures r.Ok? <==> forall i :: 0 <= i < |names| ==> describe(names[i]).Ok?
    ensures r.Ok? ==> |r.value| == |names|
    ensures r.Ok? ==> forall i :: 0 <= i < |names| ==> r.value[i] == describe(names[i]).value
    ensures r.Err? ==> exists i :: 0 <= i < |names| && describe(names[i]) == Err(r.failure)
  {
    if names == [] then Ok([])
    else
      match describe(names[0])
      case Err(f) => Err(f)
      case Ok(t) =>
        var rest := Each(names[1..], describe);
        assert forall i :: 1 <= i < |names| ==> names[i] == names[1..][i - 1];
        Prepend([t], rest)
  }

  /** One table of a SQL engine: its column query, then the type mapping. */
  function Describe(d: Driver, url: string, nameKey: string, table: string, parse: string -> Result<string>): Result<TableInfo>
  {
    match d.columns(url, table)
    case Err(f) => Err(f)
    case Ok(rows) =>
      match ParseColumns(rows, parse)
      case Err(f) => Err(f)
      case Ok(cols) => Ok(TableInfo(nameKey, table, cols))
  }

  /** `get_postgres_tables_info`: connect first, then one descriptor per
      requested table under "table_name". */
  function PostgresInfo(d: Driver, url: string, tables: seq<string>): (r: Result<seq<TableInfo>>)
    ensures d.connect(url).Some? ==> r == Err(Remote(d.connect(url).value))
    ensures r.Ok? ==> |r.value| == |tables| && forall i :: 0 <= i < |tables| ==> r.value[i].name == tables[i] && r.value[i].nameKey == "table_name"
  {
    match d.connect(url)
    case Some(m) => Err(Remote(m))
    case None => Each(tables, t => Describe(d, url, "table_name", t, ParsePostgresType))
  }

  /** `get_mysql_tables_info` as written: `table[0]` of a table name is its
      first character, and an empty name has none. */
  function MySqlTableAsWritten(d: Driver, url: string, table: string): (r: Result<TableInfo>)
    ensures table == [] ==> r == Err(IndexError)
    ensures r.Ok? ==> |table| > 0 && r.value.name == [table[0]]
  {
    if table == [] then Err(IndexError)
    else Describe(d, url, "name", [table[0]], ParseMySqlType)
  }

  /** The table "orders" is looked up, and reported, as "o". */
  lemma MySqlTableFirstCharacter(d: Driver, url: string)
    ensures MySqlTableAsWritten(d, url, "orders") == Describe(d, url, "name", "o", ParseMySqlType)
    ensures MySqlTableAsWritten(d, url, "orders").Ok? ==> MySqlTableAsWritten(d, url, "orders").value.name == "o"
  {
  }

  /** The evidently intended MySQL table: the whole name is queried. */
  function MySqlTable(d: Driver, url: string, table: string): (r: Result<TableInfo>)
    ensures r.Ok? ==> r.value.name == table && r.value.nameKey == "name"
    ensures r.Ok? ==> d.columns(url, table).Ok? && |r.value.columns| == |d.columns(url, table).value|
  {
    Describe(d, url, "name", table, ParseMySqlType)
  }

  /** `get_mysql_tables_info`: connect first, then one descriptor per table under "name". */
  function MySqlInfo(d: Driver, url: string, tables: seq<string>): (r: Result<seq<TableInfo>>)
    ensures d.connect(url).Some? ==> r == Err(Remote(d.connect(url).value))
    ensures r.Ok? ==> |r.value| == |tables| && forall i :: 0 <= i < |tables| ==> r.value[i].name == tables[i] && r.value[i].nameKey == "name"
  {
    match d.connect(url)
    case Some(m) => Err(Remote(m))
    case None => Each(tables, t => MySqlTable(d, url, t))
  }

  function FieldColumn(f: Field): ColumnInfo
  {
    ColumnInfo(f.key, f.typeName)
  }

  predicate NotId(f: Field)
  {
    f.key != "_id"
  }

  /** The columns of a MongoDB document: its fields other than `_id`, in
      document order, with their runtime type names unmapped. */
  function MongoColumnsOf(fields: seq<Field>): seq<ColumnInfo>
  {
    MapSeq(Filter(fields, NotId), FieldColumn)
  }

  /** The inner loop of `get_mongodb_tables_info`, skipping `_id`. */
  method MongoFieldColumns(fields: seq<Field>) returns (cols: seq<ColumnInfo>)
    ensures cols == MongoColumnsOf(fields)
  {
    cols := [];
    for i := 0 to |fields|
      invariant cols == MongoColumnsOf(fields[..i])
    {
      assert fields[..i + 1] == fields[..i] + [fields[i]];
      FilterAppend(fields[..i], [fields[i]], NotId);
      assert [fields[i]][1..] == [];
      assert Filter([fields[i]], NotId) == if NotId(fields[i]) then [fields[i]] else [];
      MapSeqAppend(Filter(fields[..i], NotId), Filter([fields[i]], NotId), FieldColumn);
      if fields[i].key == "_id" {
        continue;
      }
      cols := cols + [ColumnInfo(fields[i].key, fields[i].typeName)];
    }
    assert fields[..|fields|] == fields;
  }

  /** No column is named `_id`; every other field is a column, with its own type name. */
  lemma MongoColumnsSkipId(fields: seq<Field>)
    ensures forall i :: 0 <= i < |MongoColumnsOf(fields)| ==> MongoColumnsOf(fields)[i].name != "_id"
    ensures forall i :: 0 <= i < |fields| && fields[i].key != "_id" ==>
      ColumnInfo(fields[i].key, fields[i].typeName) in MongoColumnsOf(fields)
  {
    var kept := Filter(fields, NotId);
    forall i | 0 <= i < |fields| && fields[i].key != "_id"
      ensures ColumnInfo(fields[i].key, fields[i].typeName) in MongoColumnsOf(fields)
    {
      var j :| 0 <= j < |kept| && kept[j] == fields[i];
      assert MongoColumnsOf(fields)[j] == FieldColumn(kept[j]);
    }
  }

  /** One collection: its first document's fields; an empty collection has no
      document, and reading its items fails. */
  function MongoTable(d: Driver, base: string, db: string, coll: string): (r: Result<TableInfo>)
    ensures d.firstDocument(base, db, coll) == Ok(None) ==> r == Err(AttributeError("items"))
    ensures r.Ok? ==> r.value.name == coll && r.value.nameKey == "name"
  {
    match d.firstDocument(base, db, coll)
    case Err(f) => Err(f)
    case Ok(None) => Err(AttributeError("items"))
    case Ok(Some(fields)) => Ok(TableInfo("name", coll, MongoColumnsOf(fields)))
  }

  /** `get_mongodb_tables_info`: the URL is split first; the client connects
      lazily, at the first document read. */
  function MongoInfo(d: Driver, url: string, colls: seq<string>): (r: Result<seq<TableInfo>>)
    ensures SplitMongoUrl(url).Err? ==> r == Err(SplitMongoUrl(url).failure)
    ensures r.Ok? ==> |r.value| == |colls| && forall i :: 0 <= i < |colls| ==> r.value[i].name == colls[i]
  {
    match SplitMongoUrl(url)
    case Err(f) => Err(f)
    case Ok(parts) => Each(colls, c => MongoTable(d, parts.0, parts.1, c))
  }

  /** A MongoDB request for no collections never reaches the server, unlike
      the SQL engines, which connect before looking at the list. */
  lemma ConnectionTiming(d: Driver, url: string)
    requires AfterLast(url, '/') != []
    ensures MongoInfo(d, url, []) == Ok([])
    ensures d.connect(url).Some? ==> PostgresInfo(d, url, []).Err? && MySqlInfo(d, url, []).Err?
  {
  }

  /** The per-table loop shared by the two SQL engines. */
  method DescribeEach(names: seq<string>, describe: string -> Result<TableInfo>) returns (r: Result<seq<TableInfo>>)
    ensures r == Each(names, describe)
  {
    var info: seq<TableInfo> := [];
    assert names[0..] == names;
    PrependNil(Each(names, describe));
    for i := 0 to |names|
      invariant Prepend(info, Each(names[i..], describe)) == Each(names, describe)
    {
      assert names[i..][1..] == names[i + 1..];
      var t := describe(names[i]);
      if t.Err? {
        return Err(t.failure);
      }
      PrependAssoc(info, [t.value], Each(names[i + 1..], describe));
      info := info + [t.value];
    }
    assert info + [] == info;
    return Ok(info);
  }

  method PostgresTablesInfo(d: Driver, url: string, tables: seq<string>) returns (r: Result<seq<TableInfo>>)
    ensures r == PostgresInfo(d, url, tables)
  {
    var refusal := d.connect(url);
    if refusal.Some? {
      return Err(Remote(refusal.value));
    }
    r := DescribeEach(tables, t => Describe(d, url, "table_name", t, ParsePostgresType));
  }

  method MySqlTablesInfo(d: Driver, url: string, tables: seq<string>) returns (r: Result<seq<TableInfo>>)
    ensures r == MySqlInfo(d, url, tables)
  {
    var refusal := d.connect(url);
    if refusal.Some? {
      return Err(Remote(refusal.value));
    }
    r := DescribeEach(tables, t => MySqlTable(d, url, t));
  }

  method MongoTablesInfo(d: Driver, url: string, colls: seq<string>) returns (r: Result<seq<TableInfo>>)
    ensures r == MongoInfo(d, url, colls)
  {
    var parts := SplitMongoUrl(url);
    if parts.Err? {
      return Err(parts.failure);
    }
    var base, db := parts.value.0, parts.value.1;
    ghost var describe := c => MongoTable(d, base, db, c);
    var info: seq<TableInfo> := [];
    assert colls[0..] == colls;
    PrependNil(Each(colls, describe));
    for i := 0 to |colls|
      invariant Prepend(info, Each(colls[i..], describe)) == Each(colls, describe)
    {
      assert colls[i..][1..] == colls[i + 1..];
      var document := d.firstDocument(base, db, colls[i]);
      if document.Err? {
        return Err(document.failure);
      }
      if document.value.None? {
        return Err(AttributeError("items"));
      }
      var cols := MongoFieldColumns(document.value.value);
      PrependAssoc(info, [TableInfo("name", colls[i], cols)], Each(colls[i + 1..], describe));
      info := info + [TableInfo("name", colls[i], cols)];
    }
    assert info + [] == info;
    return Ok(info);
  }

  /** The Postgres transform keeps the request: one descriptor per requested
      table, in request order, under "table_name", its columns in result order. */
  lemma PostgresInfoShape(d: Driver, url: string, tables: seq<string>)
    requires PostgresInfo(d, url, tables).Ok?
    ensures |PostgresInfo(d, url, tables).value| == |tables|
    ensures forall i :: 0 <= i < |tables| ==>
      var t := PostgresInfo(d, url, tables).value[i];
      && t.nameKey == "table_name" && t.name == tables[i]
      && d.columns(url, tables[i]).Ok?
      && |t.columns| == |d.columns(url, tables[i]).value|
      && forall j :: 0 <= j < |t.columns| ==> t.columns[j].name == d.columns(url, tables[i]).value[j].name
  {
  }

  datatype Backend = Postgres | MySql | MongoDb

  /** The dispatch table, in its declaration order. */
  const Dispatch: seq<(string, Backend)> := [
    ("postgres://", Postgres), ("postgresql://", Postgres),
    ("mysql://", MySql), ("mongodb://", MongoDb)]

  function FirstMatch(url: string, entries: seq<(string, Backend)>): (b: Option<Backend>)
    ensures b.None? <==> forall i :: 0 <= i < |entries| ==> !StartsWith(url, entries[i].0)
  {
    if entries == [] then None
    else if StartsWith(url, entries[0].0) then Some(entries[0].1)
    else
      assert forall i :: 1 <= i < |entries| ==> entries[i] == entries[1..][i - 1];
      FirstMatch(url, entries[1..])
  }

  function BackendFor(url: string): Option<Backend>
  {
    FirstMatch(url, Dispatch)
  }

  function TablesInfo(d: Driver, b: Backend, url: string, tables: seq<string>): Result<seq<TableInfo>>
  {
    match b
    case Postgres => PostgresInfo(d, url, tables)
    case MySql => MySqlInfo(d, url, tables)
    case MongoDb => MongoInfo(d, url, tables)
  }

  /** `get_tables`: the engine of the first matching prefix describes the
      caller's table list; no prefix is an unsupported URL. */
  function GetTablesSpec(d: Driver, url: string, tables: seq<string>): (r: Result<seq<TableInfo>>)
    ensures (forall i :: 0 <= i < |Dispatch| ==> !StartsWith(url, Dispatch[i].0)) ==> r == Err(ValueError("Unsupported database URL"))
  {
    match BackendFor(url)
    case None => Err(ValueError("Unsupported database URL"))
    case Some(b) => TablesInfo(d, b, url, tables)
  }

  method GetTables(d: Driver, url: string, tables: seq<string>) returns (r: Result<seq<TableInfo>>)
    ensures r == GetTablesSpec(d, url, tables)
  {
    for i := 0 to |Dispatch|
      invariant FirstMatch(url, Dispatch[i..]) == BackendFor(url)
    {
      assert Dispatch[i..][1..] == Dispatch[i + 1..];
      assert Dispatch[i..][0] == Dispatch[i];
      var prefix, backend := Dispatch[i].0, Dispatch[i].1;
      if StartsWith(url, prefix) {
        match backend {
          case Postgres => r := PostgresTablesInfo(d, url, tables);
          case MySql => r := MySqlTablesInfo(d, url, tables);
          case MongoDb => r := MongoTablesInfo(d, url, tables);
        }
        return;
      }
    }
    return Err(ValueError("Unsupported database URL"));
  }

  lemma DifferAt(url: string, p: string, q: string, k: nat)
    requires k < |p| && k < |q| && p[k] != q[k]
    ensures !(StartsWith(url, p) && StartsWith(url, q))
  {
  }

  /** No URL starts with two of the four prefixes, so the declaration order
      of the table never decides the engine. */
  lemma DispatchExclusive(url: string)
    ensures forall i, j :: 0 <= i < j < |Dispatch| ==>
      !(StartsWith(url, Dispatch[i].0) && StartsWith(url, Dispatch[j].0))
  {
    DifferAt(url, "postgres://", "postgresql://", 8);
    DifferAt(url, "postgres://", "mysql://", 0);
    DifferAt(url, "postgres://", "mongodb://", 0);
    DifferAt(url, "postgresql://", "mysql://", 0);
    DifferAt(url, "postgresql://", "mongodb://", 0);
    DifferAt(url, "mysql://", "mongodb://", 1);
  }

  lemma {:induction false} FirstMatchUnique(url: string, entries: seq<(string, Backend)>, i: nat)
    requires i < |entries| && StartsWith(url, entries[i].0)
    requires forall j :: 0 <= j < i ==> !StartsWith(url, entries[j].0)
    ensures FirstMatch(url, entries) == Some(entries[i].1)
    decreases i
  {
    if i > 0 {
      assert !StartsWith(url, entries[0].0);
      assert entries[1..][i - 1] == entries[i];
      FirstMatchUnique(url, entries[1..], i - 1);
    }
  }

  /** The engine is the one whose prefix the URL carries. */
  lemma BackendForMatches(url: string, i: nat)
    requires i < |Dispatch| && StartsWith(url, Dispatch[i].0)
    ensures BackendFor(url) == Some(Dispatch[i].1)
  {
    DispatchExclusive(url);
    FirstMatchUnique(url, Dispatch, i);
  }

  /** For every driver and table list: a URL without a listed prefix is
      unsupported, and a URL with one is described by that prefix's engine. */
  lemma DispatchByPrefix(d: Driver, url: string, tables: seq<string>)
    ensures (forall i :: 0 <= i < |Dispatch| ==> !StartsWith(url, Dispatch[i].0)) ==>
      GetTablesSpec(d, url, tables) == Err(ValueError("Unsupported database URL"))
    ensures forall i :: 0 <= i < |Dispatch| && StartsWith(url, Dispatch[i].0) ==>
      GetTablesSpec(d, url, tables) == TablesInfo(d, Dispatch[i].1, url, tables)
  {
    forall i | 0 <= i < |Dispatch| && StartsWith(url, Dispatch[i].0)
      ensures GetTablesSpec(d, url, tables) == TablesInfo(d, Dispatch[i].1, url, tables)
    {
      BackendForMatches(url, i);
    }
  }

  /** With a driver that describes nothing and no tables, the unsupported
      error comes exactly from a URL without a listed prefix. */
  lemma UnsupportedUrl(url: string)
    ensures GetTablesSpec(Driver(_ => None, (_, _) => Ok([]), (_, _, _) => Ok(None)), url, []) == Err(ValueError("Unsupported database URL"))
        <==> forall i :: 0 <= i < |Dispatch| ==> !StartsWith(url, Dispatch[i].0)
  {
    var d := Driver(_ => None, (_, _) => Ok([]), (_, _, _) => Ok(None));
    if BackendFor(url).Some? {
      match BackendFor(url).value
      case Postgres => assert PostgresInfo(d, url, []) == Ok([]);
      case MySql => assert MySqlInfo(d, url, []) == Ok([]);
      case MongoDb =>
        if AfterLast(url, '/') == [] {
          assert MongoInfo(d, url, []).failure == ValueError("empty separator");
        }
    }
  }

  /** Dispatch describes exactly the caller's table list, in its order. */
  lemma DispatchUsesGivenTables(d: Driver, url: string, tables: seq<string>)
    requires GetTablesSpec(d, url, tables).Ok?
    ensures |GetTablesSpec(d, url, tables).value| == |tables|
    ensures forall i :: 0 <= i < |tables| ==> GetTablesSpec(d, url, tables).value[i].name == tables[i]
  {
  }
}

=== FILE: repo_datasources.dfy ===
/** The datasource repository over the `Datasources` table. */
module DatasourcesRepo {
  import opened Common
  import opened Store

  /** The project `projectId` exists and was created by `userId`. */
  predicate OwnedBy(projects: seq<Project>, projectId: nat, userId: nat)
  {
    exists i :: 0 <= i < |projects| && projects[i].id == projectId && projects[i].createdBy == userId
  }

  /** Every datasource joined to a project the user created, in stored order. */
  function AllOwned(db: Database, userId: nat): (r: seq<Datasource>)
    reads db`datasources, db`projects
    ensures forall d :: d in r <==> d in db.datasources && OwnedBy(db.projects, d.projectId, userId)
  {
    var projects := db.projects;
    Filter(db.datasources, (d: Datasource) => OwnedBy(projects, d.projectId, userId))
  }

  /** `get_user_datasources`: the datasources joined to a project the user
      created, in stored order, one page of them. */
  function UserDatasources(db: Database, userId: nat, offset: nat := 0, limit: Option<nat> := Some(25)): (r: seq<Datasource>)
    reads db
    ensures r == Page(AllOwned(db, userId), offset, limit)
    ensures limit.Some? ==> |r| <= limit.value
    ensures forall i :: 0 <= i < |r| ==> r[i] in db.datasources && OwnedBy(db.projects, r[i].projectId, userId)
    ensures offset == 0 && limit.None? ==>
      forall i :: 0 <= i < |db.datasources| && OwnedBy(db.projects, db.datasources[i].projectId, userId) ==> db.datasources[i] in r
  {
    var owned := AllOwned(db, userId);
    assert owned[0..] == owned;
    Page(owned, offset, limit)
  }

  /** `get_datasource_by_id`: the first datasource with that id, or None. */
  function GetDatasource(db: Database, id: nat): (r: Option<Datasource>)
    reads db
    ensures r.Some? ==> r.value in db.datasources && r.value.id == id
    ensures r.None? <==> forall i :: 0 <= i < |db.datasources| ==> db.datasources[i].id != id
  {
    ById(db.datasources, DatasourceId, id)
  }

  /** `get_datasource_owner`: the user who created the datasource's project. */
  function DatasourceOwner(db: Database, id: nat): (r: Option<User>)
    reads db
    ensures r.Some? ==>
      && r.value in db.users && GetDatasource(db, id).Some?
      && OwnedBy(db.projects, GetDatasource(db, id).value.projectId, r.value.id)
    ensures GetDatasource(db, id).None? ==> r.None?
  {
    match GetDatasource(db, id)
    case None => None
    case Some(d) =>
      match ById(db.projects, ProjectId, d.projectId)
      case None => None
      case Some(p) =>
        var u := ById(db.users, UserId, p.createdBy);
        if u.Some? then
          assert exists i :: 0 <= i < |db.projects| && db.projects[i] == p;
          u
        else None
  }

  /** With unique keys, the owner found is the user who created the
      datasource's project. */
  lemma OwnerIsCreator(db: Database, id: nat, u: User)
    requires Unique(db.projects, ProjectId) && Unique(db.users, UserId) && u in db.users
    requires GetDatasource(db, id).Some? && OwnedBy(db.projects, GetDatasource(db, id).value.projectId, u.id)
    ensures DatasourceOwner(db, id) == Some(u)
  {
    var ds := GetDatasource(db, id).value;
    var i :| 0 <= i < |db.projects| && db.projects[i].id == ds.projectId && db.projects[i].createdBy == u.id;
    var p := ById(db.projects, ProjectId, ds.projectId);
    var j :| 0 <= j < |db.projects| && db.projects[j] == p.value;
    var k :| 0 <= k < |db.users| && db.users[k] == u;
    var found := ById(db.users, UserId, u.id);
    var m :| 0 <= m < |db.users| && db.users[m] == found.value;
  }

  datatype DatasourceCreate = DatasourceCreate(name: string, projectId: nat, dsType: DsType, config: map<string, ConfigValue>)

  /** `create_datasource`: the row is stored with a fresh id and the fields as given. */
  method CreateDatasource(db: Database, c: DatasourceCreate) returns (d: Datasource)
    modifies db`datasources, db`nextId
    ensures d == Datasource(old(db.nextId), c.name, c.projectId, c.dsType, c.config)
    ensures db.datasources == old(db.datasources) + [d]
    ensures db.nextId == old(db.nextId) + 1
  {
    d := Datasource(db.nextId, c.name, c.projectId, c.dsType, c.config);
    db.datasources := db.datasources + [d];
    db.nextId := db.nextId + 1;
  }

  /** A partial update: a None field is left as it is. */
  datatype DatasourceUpdate = DatasourceUpdate(
    name: Option<string>, projectId: Option<nat>, dsType: Option<DsType>, config: Option<map<string, ConfigValue>>)

  /** The row after `UPDATE ... SET` with the fields supplied as non-None. */
  function ApplyUpdate(d: Datasource, u: DatasourceUpdate): Datasource
  {
    Datasource(d.id, Pick(u.name, d.name), Pick(u.projectId, d.projectId), Pick(u.dsType, d.dsType), Pick(u.config, d.config))
  }

  /** A partial update keeps the id, sets each supplied field, keeps every
      other one, and an update supplying nothing changes nothing. */
  lemma ApplyUpdateChangesOnlySupplied(d: Datasource, u: DatasourceUpdate)
    ensures var e := ApplyUpdate(d, u);
      && e.id == d.id
      && (if u.name.Some? then e.name == u.name.value else e.name == d.name)
      && (if u.projectId.Some? then e.projectId == u.projectId.value else e.projectId == d.projectId)
      && (if u.dsType.Some? then e.dsType == u.dsType.value else e.dsType == d.dsType)
      && (if u.config.Some? then e.config == u.config.value else e.config == d.config)
    ensures u == DatasourceUpdate(None, None, None, None) ==> ApplyUpdate(d, u) == d
  {
  }

  /** `update_datasource`: every row with the id is updated, and the first of
      them is returned; None when no row has the id. */
  method UpdateDatasource(db: Database, id: nat, u: DatasourceUpdate) returns (r: Option<Datasource>)
    modifies db`datasources
    ensures db.datasources == UpdateById(old(db.datasources), DatasourceId, id, d => ApplyUpdate(d, u))
    ensures r.None? <==> forall i :: 0 <= i < |old(db.datasources)| ==> old(db.datasources)[i].id != id
    ensures r.Some? ==> r.value in db.datasources && r.value == ApplyUpdate(old(GetDatasource(db, id)).value, u)
  {
    var found := GetDatasource(db, id);
    db.datasources := UpdateById(db.datasources, DatasourceId, id, d => ApplyUpdate(d, u));
    if found.None? {
      return None;
    }
    ghost var i :| 0 <= i < |old(db.datasources)| && old(db.datasources)[i] == found.value;
    assert db.datasources[i] == ApplyUpdate(found.value, u);
    return Some(ApplyUpdate(found.value, u));
  }

  /** The ids of the tables of datasource `id`. */
  function TablesOf(tables: seq<DataTable>, id: nat): set<nat>
  {
    set t | t in tables && t.datasourceId == id :: t.id
  }

  /** The rows left by deleting datasource `id`. The foreign keys cascade:
      the datasource's tables go, and with them every warehouse link to
      those tables. */
  function DeleteDatasourceRows(s: Snapshot, id: nat): Snapshot
  {
    var gone := TablesOf(s.datatables, id);
    s.(datasources := DeleteById(s.datasources, DatasourceId, id),
       datatables := Filter(s.datatables, (t: DataTable) => t.datasourceId != id),
       links := Filter(s.links, (l: Link) => l.datatableId !in gone))
  }

  /** `delete_datasource_by_id`: true exactly when a row had the id. */
  method DeleteDatasource(db: Database, id: nat) returns (deleted: bool)
    modifies db`datasources, db`datatables, db`links
    ensures deleted <==> exists i :: 0 <= i < |old(db.datasources)| && old(db.datasources)[i].id == id
    ensures db.Rows() == DeleteDatasourceRows(old(db.Rows()), id)
  {
    var before := |db.datasources|;
    DeleteByIdRemovesExactly(db.datasources, DatasourceId, id);
    var after := DeleteDatasourceRows(db.Rows(), id);
    db.datasources, db.datatables, db.links := after.datasources, after.datatables, after.links;
    deleted := |db.datasources| < before;
  }

  /** After deleting a datasource no table belongs to it and no link points
      to one of its tables; projects, warehouses, users and the tables of
      other datasources are kept. */
  lemma DeleteDatasourceLeavesNoTables(s: Snapshot, id: nat)
    ensures var t := DeleteDatasourceRows(s, id);
      && t.users == s.users && t.projects == s.projects && t.warehouses == s.warehouses
      && (forall d :: d in t.datasources ==> d.id != id)
      && (forall x :: x in t.datatables ==> x.datasourceId != id)
      && (forall x :: x in s.datatables && x.datasourceId != id ==> x in t.datatables)
      && (forall l :: l in t.links ==> forall x :: x in s.datatables && x.datasourceId == id ==> l.datatableId != x.id)
  {
    var t := DeleteDatasourceRows(s, id);
    DeleteByIdRemovesExactly(s.datasources, DatasourceId, id);
    forall d | d in t.datasources
      ensures d.id != id
    {
      var i :| 0 <= i < |t.datasources| && t.datasources[i] == d;
    }
    forall x | x in t.datatables
      ensures x.datasourceId != id
    {
      var i :| 0 <= i < |t.datatables| && t.datatables[i] == x;
    }
    forall x | x in s.datatables && x.datasourceId != id
      ensures x in t.datatables
    {
      var i :| 0 <= i < |s.datatables| && s.datatables[i] == x;
    }
    forall l | l in t.links
      ensures forall x :: x in s.datatables && x.datasourceId == id ==> l.datatableId != x.id
    {
      var i :| 0 <= i < |t.links| && t.links[i] == l;
    }
  }

  /** `get_datasource_tables` is a stub: it lists no table for any datasource. */
  function DatasourceTables(db: Database, id: nat): (r: seq<DataTable>)
    ensures |r| == 0
  {
    []
  }
}

=== FILE: repo_datatables.dfy ===
/** The data-table repository: a batch insert, and the create-or-update
    reconciliation of one datasource's tables by name. */
module DatatablesRepo {
  import opened Common
  import opened Databases
  import opened Store

  /** The rows a batch insert stores: ids from `n` on, all under `ds`. */
  function NewRows(n: nat, ds: nat, tables: seq<DataTableCreate>): (rows: seq<DataTable>)
    ensures |rows| == |tables|
    ensures forall i :: 0 <= i < |tables| ==> rows[i] == DataTable(n + i, tables[i].name, ds, tables[i].columns)
  {
    seq(|tables|, i requires 0 <= i < |tables| => DataTable(n + i, tables[i].name, ds, tables[i].columns))
  }

  /** `create_tables`: every table is stored under the FIRST table's
      datasource; an empty list fails at `tables[0]` before anything is stored. */
  method CreateTables(db: Database, tables: seq<DataTableCreate>) returns (r: Result<seq<DataTable>>)
    modifies db`datatables, db`nextId
    ensures tables == [] ==> r == Err(IndexError) && unchanged(db)
    ensures tables != [] ==>
      && r == Ok(NewRows(old(db.nextId), tables[0].datasourceId, tables))
      && db.datatables == old(db.datatables) + r.value
      && db.nextId == old(db.nextId) + |tables|
  {
    if tables == [] {
      return Err(IndexError);
    }
    var ds := tables[0].datasourceId;
    var created: seq<DataTable> := [];
    for i := 0 to |tables|
      invariant created == NewRows(old(db.nextId), ds, tables[..i])
      invariant db.datatables == old(db.datatables) + created
      invariant db.nextId == old(db.nextId) + i
    {
      var row := DataTable(db.nextId, tables[i].name, ds, tables[i].columns);
      db.datatables := db.datatables + [row];
      db.nextId := db.nextId + 1;
      created := created + [row];
    }
    assert tables[..|tables|] == tables;
    return Ok(created);
  }

  /** The names of the rows of datasource `ds`. */
  function ExistingNames(rows: seq<DataTable>, ds: nat): set<string>
  {
    set r | r in rows && r.datasourceId == ds :: r.name
  }

  /** The bulk update: every row of `ds` named `name` gets `columns`. */
  function SetColumns(rows: seq<DataTable>, ds: nat, name: string, columns: seq<ColumnInfo>): (r: seq<DataTable>)
    ensures |r| == |rows|
    ensures forall i :: 0 <= i < |rows| ==>
      r[i] == if rows[i].datasourceId == ds && rows[i].name == name then rows[i].(columns := columns) else rows[i]
  {
    seq(|rows|, i requires 0 <= i < |rows| =>
      if rows[i].datasourceId == ds && rows[i].name == name then rows[i].(columns := columns) else rows[i])
  }

  /** The stored table and the id counter. */
  datatype Tables = Tables(rows: seq<DataTable>, nextId: nat)

  /** One table of `update_tables`: a name among the existing ones updates
      the rows of that name in place, any other name inserts a row. */
  function Step(s: Tables, existing: set<string>, ds: nat, t: DataTableCreate): Tables
  {
    if t.name in existing then Tables(SetColumns(s.rows, ds, t.name, t.columns), s.nextId)
    else Tables(s.rows + [DataTable(s.nextId, t.name, ds, t.columns)], s.nextId + 1)
  }

  /** The tables handled in input order, against one snapshot of the existing names. */
  function Reconcile(s: Tables, existing: set<string>, ds: nat, tables: seq<DataTableCreate>): (r: Tables)
    ensures r.nextId >= s.nextId && |r.rows| == |s.rows| + (r.nextId - s.nextId)
    ensures r.nextId - s.nextId <= |tables|
    decreases |tables|
  {
    if tables == [] then s
    else Reconcile(Step(s, existing, ds, tables[0]), existing, ds, tables[1..])
  }

  function Saved(ds: nat, t: DataTableCreate): DataTableCreate
  {
    DataTableCreate(t.name, ds, t.columns)
  }

  /** `update_tables`: the existing names of the first table's datasource are
      read once, then each table updates or inserts; the result lists every
      input table, in input order, under that datasource. */
  method UpdateTables(db: Database, tables: seq<DataTableCreate>) returns (r: Result<seq<DataTableCreate>>)
    modifies db`datatables, db`nextId
    ensures tables == [] ==> r == Err(IndexError) && unchanged(db)
    ensures tables != [] ==>
      var ds := tables[0].datasourceId;
      var after := Reconcile(Tables(old(db.datatables), old(db.nextId)), ExistingNames(old(db.datatables), ds), ds, tables);
      && db.datatables == after.rows && db.nextId == after.nextId
      && r == Ok(MapSeq(tables, t => Saved(ds, t)))
  {
    if tables == [] {
      return Err(IndexError);
    }
    var ds := tables[0].datasourceId;
    var existing := ExistingNames(db.datatables, ds);
    ghost var start := Tables(db.datatables, db.nextId);
    var saved: seq<DataTableCreate> := [];
    for i := 0 to |tables|
      invariant Reconcile(Tables(db.datatables, db.nextId), existing, ds, tables[i..]) == Reconcile(start, existing, ds, tables)
      invariant saved == MapSeq(tables[..i], t => Saved(ds, t))
    {
      assert tables[i..][1..] == tables[i + 1..];
      var t := tables[i];
      if t.name in existing {
        db.datatables := SetColumns(db.datatables, ds, t.name, t.columns);
      } else {
        db.datatables := db.datatables + [DataTable(db.nextId, t.name, ds, t.columns)];
        db.nextId := db.nextId + 1;
      }
      saved := saved + [Saved(ds, t)];
    }
    assert tables[..|tables|] == tables;
    return Ok(saved);
  }

  /** The tables whose names are not among the existing ones, in input order. */
  function Fresh(existing: set<string>, tables: seq<DataTableCreate>): (r: seq<DataTableCreate>)
    ensures |r| <= |tables|
    ensures forall t :: t in r <==> t in tables && t.name !in existing
    decreases |tables|
  {
    if tables == [] then []
    else
      assert forall t :: t in tables <==> t == tables[0] || t in tables[1..];
      (if tables[0].name in existing then [] else [tables[0]]) + Fresh(existing, tables[1..])
  }

  /** The columns of the last input table named `name`, if any. */
  function FinalColumns(tables: seq<DataTableCreate>, name: string): (r: Option<seq<ColumnInfo>>)
    ensures r.None? <==> forall i :: 0 <= i < |tables| ==> tables[i].name != name
    decreases |tables|
  {
    if tables == [] then None
    else match FinalColumns(tables[1..], name)
      case Some(c) => Some(c)
      case None =>
        assert forall i :: 1 <= i < |tables| ==> tables[i] == tables[1..][i - 1];
        if tables[0].name == name then Some(tables[0].columns) else None
  }

  /** An existing row after reconciliation: a row of `ds` with an existing
      name takes the columns of the last input table of that name. */
  function Refreshed(ds: nat, existing: set<string>, tables: seq<DataTableCreate>, r: DataTable): DataTable
  {
    if r.datasourceId == ds && r.name in existing && FinalColumns(tables, r.name).Some?
    then r.(columns := FinalColumns(tables, r.name).value)
    else r
  }

  function RefreshAll(ds: nat, existing: set<string>, tables: seq<DataTableCreate>, rows: seq<DataTable>): (r: seq<DataTable>)
    ensures |r| == |rows|
    ensures forall i :: 0 <= i < |rows| ==> r[i] == Refreshed(ds, existing, tables, rows[i])
  {
    seq(|rows|, i requires 0 <= i < |rows| => Refreshed(ds, existing, tables, rows[i]))
  }

  /** Updating the rows named `t.name` and then refreshing with the later
      tables is refreshing with all of them. */
  lemma RefreshAfterUpdate(rows: seq<DataTable>, existing: set<string>, ds: nat, tables: seq<DataTableCreate>)
    requires tables != [] && tables[0].name in existing
    ensures RefreshAll(ds, existing, tables[1..], SetColumns(rows, ds, tables[0].name, tables[0].columns))
         == RefreshAll(ds, existing, tables, rows)
  {
    var t, rest := tables[0], tables[1..];
    var updated := SetColumns(rows, ds, t.name, t.columns);
    forall i | 0 <= i < |rows|
      ensures Refreshed(ds, existing, rest, updated[i]) == Refreshed(ds, existing, tables, rows[i])
    {
      if rows[i].datasourceId == ds && rows[i].name == t.name {
        assert FinalColumns(tables, t.name) == (if FinalColumns(rest, t.name).Some? then FinalColumns(rest, t.name) else Some(t.columns));
      } else if rows[i].name != t.name {
        assert FinalColumns(tables, rows[i].name) == FinalColumns(rest, rows[i].name);
      }
    }
  }

  /** A table with a new name does not change how the existing rows are refreshed. */
  lemma RefreshSkipsNewName(rows: seq<DataTable>, existing: set<string>, ds: nat, tables: seq<DataTableCreate>)
    requires tables != [] && tables[0].name !in existing
    ensures RefreshAll(ds, existing, tables[1..], rows) == RefreshAll(ds, existing, tables, rows)
  {
    forall i | 0 <= i < |rows| && rows[i].name in existing
      ensures FinalColumns(tables, rows[i].name) == FinalColumns(tables[1..], rows[i].name)
    {
    }
  }

  lemma RefreshAppendNew(rows: seq<DataTable>, row: DataTable, existing: set<string>, ds: nat, tables: seq<DataTableCreate>)
    requires row.name !in existing
    ensures RefreshAll(ds, existing, tables, rows + [row]) == RefreshAll(ds, existing, tables, rows) + [row]
  {
  }

  lemma AppendAssoc<T>(a: seq<T>, b: seq<T>, c: seq<T>)
    ensures (a + b) + c == a + (b + c)
  {
  }

  lemma NewRowsCons(n: nat, ds: nat, t: DataTableCreate, tables: seq<DataTableCreate>)
    ensures NewRows(n, ds, [t] + tables) == [DataTable(n, t.name, ds, t.columns)] + NewRows(n + 1, ds, tables)
  {
  }

  /** The closed form of reconciliation: the existing rows refreshed in
      place, then one new row per fresh table with consecutive ids. */
  predicate ClosedForm(rows: seq<DataTable>, n: nat, existing: set<string>, ds: nat, tables: seq<DataTableCreate>)
  {
    Reconcile(Tables(rows, n), existing, ds, tables)
      == Tables(RefreshAll(ds, existing, tables, rows) + NewRows(n, ds, Fresh(existing, tables)),
                n + |Fresh(existing, tables)|)
  }

  lemma UpdateStep(rows: seq<DataTable>, n: nat, existing: set<string>, ds: nat, tables: seq<DataTableCreate>)
    requires tables != [] && tables[0].name in existing
    requires ClosedForm(SetColumns(rows, ds, tables[0].name, tables[0].columns), n, existing, ds, tables[1..])
    ensures ClosedForm(rows, n, existing, ds, tables)
  {
    var t, rest := tables[0], tables[1..];
    assert Reconcile(Tables(rows, n), existing, ds, tables)
        == Reconcile(Tables(SetColumns(rows, ds, t.name, t.columns), n), existing, ds, rest);
    assert Fresh(existing, tables) == Fresh(existing, rest);
    RefreshAfterUpdate(rows, existing, ds, tables);
  }

  lemma InsertStep(rows: seq<DataTable>, n: nat, existing: set<string>, ds: nat, tables: seq<DataTableCreate>)
    requires tables != [] && tables[0].name !in existing
    requires ClosedForm(rows + [DataTable(n, tables[0].name, ds, tables[0].columns)], n + 1, existing, ds, tables[1..])
    ensures ClosedForm(rows, n, existing, ds, tables)
  {
    var t, rest := tables[0], tables[1..];
    var row := DataTable(n, t.name, ds, t.columns);
    var later := Fresh(existing, rest);
    assert Step(Tables(rows, n), existing, ds, t) == Tables(rows + [row], n + 1);
    assert Reconcile(Tables(rows, n), existing, ds, tables) == Reconcile(Tables(rows + [row], n + 1), existing, ds, rest);
    assert Fresh(existing, tables) == [t] + later;
    RefreshSkipsNewName(rows, existing, ds, tables);
    RefreshAppendNew(rows, row, existing, ds, rest);
    NewRowsCons(n, ds, t, later);
    var kept, added := RefreshAll(ds, existing, tables, rows), NewRows(n + 1, ds, later);
    assert RefreshAll(ds, existing, rest, rows + [row]) == kept + [row];
    assert NewRows(n, ds, [t] + later) == [row] + added;
    AppendAssoc(kept, [row], added);
  }

  lemma {:induction false} ReconcileClosedForm(rows: seq<DataTable>, n: nat, existing: set<string>, ds: nat, tables: seq<DataTableCreate>)
    ensures ClosedForm(rows, n, existing, ds, tables)
    decreases |tables|
  {
    if tables == [] {
      assert RefreshAll(ds, existing, tables, rows) == rows;
    } else {
      var t := tables[0];
      if t.name in existing {
        ReconcileClosedForm(SetColumns(rows, ds, t.name, t.columns), n, existing, ds, tables[1..]);
        UpdateStep(rows, n, existing, ds, tables);
      } else {
        ReconcileClosedForm(rows + [DataTable(n, t.name, ds, t.columns)], n + 1, existing, ds, tables[1..]);
        InsertStep(rows, n, existing, ds, tables);
      }
    }
  }

  /** Reconciliation never deletes: every row keeps its id, name and
      datasource, and a row of another datasource, or one whose name no input
      table carries, is left exactly as it was. */
  lemma ReconcileNeverDeletes(rows: seq<DataTable>, n: nat, existing: set<string>, ds: nat, tables: seq<DataTableCreate>)
    ensures var after := Reconcile(Tables(rows, n), existing, ds, tables).rows;
      && |after| >= |rows|
      && (forall i :: 0 <= i < |rows| ==>
            after[i].id == rows[i].id && after[i].name == rows[i].name && after[i].datasourceId == rows[i].datasourceId)
      && (forall i :: 0 <= i < |rows| && (rows[i].datasourceId != ds || forall j :: 0 <= j < |tables| ==> tables[j].name != rows[i].name) ==>
            after[i] == rows[i])
  {
    ReconcileClosedForm(rows, n, existing, ds, tables);
  }

  /** A row of the datasource whose name is among the existing ones takes the
      columns of the last input table of that name. */
  lemma ReconcileUpdatesInPlace(rows: seq<DataTable>, n: nat, ds: nat, tables: seq<DataTableCreate>, i: nat)
    requires i < |rows| && rows[i].datasourceId == ds
    requires FinalColumns(tables, rows[i].name).Some?
    ensures var after := Reconcile(Tables(rows, n), ExistingNames(rows, ds), ds, tables).rows;
      i < |after| && after[i] == rows[i].(columns := FinalColumns(tables, rows[i].name).value)
  {
    ReconcileClosedForm(rows, n, ExistingNames(rows, ds), ds, tables);
    assert rows[i].name in ExistingNames(rows, ds);
  }

  /** Every table whose name is new is appended as a row of the datasource,
      with the next ids, in input order; these are the only rows added. */
  lemma ReconcileInsertsFresh(rows: seq<DataTable>, n: nat, existing: set<string>, ds: nat, tables: seq<DataTableCreate>)
    ensures var after := Reconcile(Tables(rows, n), existing, ds, tables);
      && |rows| <= |after.rows|
      && after.rows[|rows|..] == NewRows(n, ds, Fresh(existing, tables))
      && after.nextId == n + |Fresh(existing, tables)|
  {
    ReconcileClosedForm(rows, n, existing, ds, tables);
    var after := Reconcile(Tables(rows, n), existing, ds, tables);
    assert after.rows[|rows|..] == NewRows(n, ds, Fresh(existing, tables));
  }

  /** The existing names are read once: two new tables with the same name
      are both inserted. */
  lemma SnapshotInsertsDuplicates(rows: seq<DataTable>, n: nat, ds: nat, t: DataTableCreate)
    requires t.name !in ExistingNames(rows, ds)
    ensures |Reconcile(Tables(rows, n), ExistingNames(rows, ds), ds, [t, t]).rows| == |rows| + 2
  {
    var e := ExistingNames(rows, ds);
    ReconcileClosedForm(rows, n, e, ds, [t, t]);
    assert [t, t][1..] == [t];
    assert [t][1..] == [];
    assert Fresh(e, [t, t]) == [t, t];
  }

  /** After a reconciliation every input table's name is a name of the datasource. */
  lemma ReconcileCoversNames(rows: seq<DataTable>, n: nat, ds: nat, tables: seq<DataTableCreate>)
    ensures var once := Reconcile(Tables(rows, n), ExistingNames(rows, ds), ds, tables);
      forall j :: 0 <= j < |tables| ==> tables[j].name in ExistingNames(once.rows, ds)
  {
    var e := ExistingNames(rows, ds);
    var once := Reconcile(Tables(rows, n), e, ds, tables);
    ReconcileClosedForm(rows, n, e, ds, tables);
    forall j | 0 <= j < |tables|
      ensures tables[j].name in ExistingNames(once.rows, ds)
    {
      if tables[j].name in e {
        var r :| r in rows && r.datasourceId == ds && r.name == tables[j].name;
        var k :| 0 <= k < |rows| && rows[k] == r;
        assert once.rows[k] == Refreshed(ds, e, tables, r);
      } else {
        var added := Fresh(e, tables);
        assert tables[j] in added;
        var k :| 0 <= k < |added| && added[k] == tables[j];
        assert once.rows[|rows| + k] == NewRows(n, ds, added)[k];
      }
    }
  }

  /** When every name already exists, no table is fresh. */
  lemma {:induction false} NoneFresh(existing: set<string>, tables: seq<DataTableCreate>)
    requires forall j :: 0 <= j < |tables| ==> tables[j].name in existing
    ensures Fresh(existing, tables) == []
    decreases |tables|
  {
    if tables != [] {
      NoneFresh(existing, tables[1..]);
    }
  }

  /** A second reconciliation with the same tables adds no row. */
  lemma ReconcileTwiceAddsNothing(rows: seq<DataTable>, n: nat, ds: nat, tables: seq<DataTableCreate>)
    ensures var once := Reconcile(Tables(rows, n), ExistingNames(rows, ds), ds, tables);
      var twice := Reconcile(once, ExistingNames(once.rows, ds), ds, tables);
      |twice.rows| == |once.rows| && twice.nextId == once.nextId
  {
    var once := Reconcile(Tables(rows, n), ExistingNames(rows, ds), ds, tables);
    var e2 := ExistingNames(once.rows, ds);
    ReconcileCoversNames(rows, n, ds, tables);
    NoneFresh(e2, tables);
    ReconcileClosedForm(once.rows, once.nextId, e2, ds, tables);
  }
}

=== FILE: repo_projects.dfy ===
/** The project repository over the `Projects` table. */
module ProjectsRepo {
  import opened Common
  import opened Store

  /** Every project the user created, in stored order. */
  function AllCreated(db: Database, userId: nat): (r: seq<Project>)
    reads db`projects
    ensures forall p :: p in r <==> p in db.projects && p.createdBy == userId
  {
    Filter(db.projects, (p: Project) => p.createdBy == userId)
  }

  /** `get_user_projects`: the projects the user created, in stored order, one page of them. */
  function UserProjects(db: Database, userId: nat, offset: nat := 0, limit: Option<nat> := Some(25)): (r: seq<Project>)
    reads db
    ensures r == Page(AllCreated(db, userId), offset, limit)
    ensures limit.Some? ==> |r| <= limit.value
    ensures forall i :: 0 <= i < |r| ==> r[i] in db.projects && r[i].createdBy == userId
    ensures offset == 0 && limit.None? ==>
      forall i :: 0 <= i < |db.projects| && db.projects[i].createdBy == userId ==> db.projects[i] in r
  {
    var owned := AllCreated(db, userId);
    assert owned[0..] == owned;
    Page(owned, offset, limit)
  }

  /** `get_project_by_id`. */
  function GetProject(db: Database, id: nat): (r: Option<Project>)
    reads db`projects
    ensures r.Some? ==> r.value in db.projects && r.value.id == id
    ensures r.None? <==> forall i :: 0 <= i < |db.projects| ==> db.projects[i].id != id
  {
    ById(db.projects, ProjectId, id)
  }

  /** `get_project_by_wh_id`: the first project joined to a warehouse with that id. */
  function ProjectByWarehouse(projects: seq<Project>, warehouses: seq<Warehouse>, warehouseId: nat): (r: Option<Project>)
    ensures r.Some? ==>
      && r.value in projects
      && exists w :: w in warehouses && w.id == warehouseId && w.projectId == r.value.id
    ensures r.None? <==>
      forall i, j :: 0 <= i < |projects| && 0 <= j < |warehouses| && warehouses[j].id == warehouseId
        ==> warehouses[j].projectId != projects[i].id
  {
    Find(projects, (p: Project) => exists w :: w in warehouses && w.id == warehouseId && w.projectId == p.id)
  }

  /** `get_project_owner`: the user who created the project. */
  function ProjectOwner(db: Database, id: nat): (r: Option<User>)
    reads db
    ensures r.Some? ==> r.value in db.users && GetProject(db, id).Some? && GetProject(db, id).value.createdBy == r.value.id
    ensures GetProject(db, id).None? ==> r.None?
  {
    match GetProject(db, id)
    case None => None
    case Some(p) => ById(db.users, UserId, p.createdBy)
  }

  /** With unique user ids, the owner found is the user who created the project. */
  lemma OwnerIsCreator(db: Database, id: nat, u: User)
    requires Unique(db.users, UserId) && u in db.users
    requires GetProject(db, id).Some? && GetProject(db, id).value.createdBy == u.id
    ensures ProjectOwner(db, id) == Some(u)
  {
    var k :| 0 <= k < |db.users| && db.users[k] == u;
    var found := ById(db.users, UserId, u.id);
    var m :| 0 <= m < |db.users| && db.users[m] == found.value;
  }

  /** What a project holds: its warehouse and its datasources. */
  datatype ProjectContent = ProjectContent(id: nat, warehouse: Warehouse, datasources: seq<Datasource>)

  /** `get_content`: None unless the project exists and the user created it;
      otherwise every datasource of the project, in stored order, and its
      first warehouse. `ProjectContent` requires a warehouse, so a project
      without one is refused by the model's validation. */
  function Content(db: Database, userId: nat, projectId: nat): (r: Result<Option<ProjectContent>>)
    reads db`projects, db`datasources, db`warehouses
    ensures r == Ok(None) <==> !exists i :: 0 <= i < |db.projects| && db.projects[i].id == projectId && db.projects[i].createdBy == userId
    ensures r.Err? <==>
      && (exists i :: 0 <= i < |db.projects| && db.projects[i].id == projectId && db.projects[i].createdBy == userId)
      && (forall i :: 0 <= i < |db.warehouses| ==> db.warehouses[i].projectId != projectId)
    ensures r.Err? ==> r.failure == ValidationError("ProjectContent", "warehouse")
    ensures r.Ok? && r.value.Some? ==>
      && r.value.value.id == projectId
      && (forall d :: d in r.value.value.datasources <==> d in db.datasources && d.projectId == projectId)
      && r.value.value.warehouse in db.warehouses && r.value.value.warehouse.projectId == projectId
  {
    var project := Find(db.projects, (p: Project) => p.createdBy == userId && p.id == projectId);
    var datasources := Filter(db.datasources, (d: Datasource) => d.projectId == projectId);
    var warehouse := Find(db.warehouses, (w: Warehouse) => w.projectId == projectId);
    if project.None? then Ok(None)
    else if warehouse.None? then Err(ValidationError("ProjectContent", "warehouse"))
    else Ok(Some(ProjectContent(project.value.id, warehouse.value, datasources)))
  }

  datatype ProjectCreate = ProjectCreate(name: string, nodeUrl: string)

  /** `create_project`: the caller becomes the project's creator. */
  method CreateProject(db: Database, c: ProjectCreate, userId: nat) returns (p: Project)
    modifies db`projects, db`nextId
    ensures p == Project(old(db.nextId), c.name, c.nodeUrl, userId)
    ensures db.projects == old(db.projects) + [p]
    ensures db.nextId == old(db.nextId) + 1
  {
    p := Project(db.nextId, c.name, c.nodeUrl, userId);
    db.projects := db.projects + [p];
    db.nextId := db.nextId + 1;
  }

  /** A partial update of a project: a None field is left as it is. */
  datatype ProjectUpdate = ProjectUpdate(name: Option<string>, nodeUrl: Option<string>)

  function ApplyUpdate(p: Project, u: ProjectUpdate): Project
  {
    p.(name := Pick(u.name, p.name), nodeUrl := Pick(u.nodeUrl, p.nodeUrl))
  }

  /** An update keeps the id and the creator, sets each supplied field and
      keeps the others; one supplying nothing changes nothing. */
  lemma ApplyUpdateChangesOnlySupplied(p: Project, u: ProjectUpdate)
    ensures var q := ApplyUpdate(p, u);
      && q.id == p.id && q.createdBy == p.createdBy
      && (if u.name.Some? then q.name == u.name.value else q.name == p.name)
      && (if u.nodeUrl.Some? then q.nodeUrl == u.nodeUrl.value else q.nodeUrl == p.nodeUrl)
    ensures u == ProjectUpdate(None, None) ==> ApplyUpdate(p, u) == p
  {
  }

  /** `update_project`: every row with the id is updated and the first one
      returned; None when no row has the id. */
  method UpdateProject(db: Database, id: nat, u: ProjectUpdate) returns (r: Option<Project>)
    modifies db`projects
    ensures db.projects == UpdateById(old(db.projects), ProjectId, id, p => ApplyUpdate(p, u))
    ensures r.None? <==> forall i :: 0 <= i < |old(db.projects)| ==> old(db.projects)[i].id != id
    ensures r.Some? ==> r.value in db.projects && r.value == ApplyUpdate(old(GetProject(db, id)).value, u)
  {
    var found := GetProject(db, id);
    db.projects := UpdateById(db.projects, ProjectId, id, p => ApplyUpdate(p, u));
    if found.None? {
      return None;
    }
    ghost var i :| 0 <= i < |old(db.projects)| && old(db.projects)[i] == found.value;
    assert db.projects[i] == ApplyUpdate(found.value, u);
    return Some(ApplyUpdate(found.value, u));
  }

  /** The ids of the rows whose `key` is one of `owners`. */
  function IdsWhere<T(==)>(rows: seq<T>, id: T -> nat, key: T -> nat, owners: set<nat>): set<nat>
  {
    set x | x in rows && key(x) in owners :: id(x)
  }

  function DatasourceProject(d: Datasource): nat { d.projectId }
  function WarehouseProject(w: Warehouse): nat { w.projectId }
  function TableDatasource(t: DataTable): nat { t.datasourceId }

  /** The rows left by deleting project `id`. The foreign keys cascade: the
      project's datasources and warehouse go, the tables of those
      datasources, and every link to a removed warehouse or table. */
  function DeleteProjectRows(s: Snapshot, id: nat): Snapshot
  {
    var sources := IdsWhere(s.datasources, DatasourceId, DatasourceProject, {id});
    var tables := IdsWhere(s.datatables, DataTableId, TableDatasource, sources);
    var warehouses := IdsWhere(s.warehouses, WarehouseId, WarehouseProject, {id});
    s.(projects := DeleteById(s.projects, ProjectId, id),
       datasources := DeleteById(s.datasources, DatasourceProject, id),
       warehouses := DeleteById(s.warehouses, WarehouseProject, id),
       datatables := Filter(s.datatables, (t: DataTable) => t.datasourceId !in sources),
       links := Filter(s.links, (l: Link) => l.warehouseId !in warehouses && l.datatableId !in tables))
  }

  /** `delete_project_by_id`: true exactly when a row had the id. */
  method DeleteProject(db: Database, id: nat) returns (deleted: bool)
    modifies db`projects, db`datasources, db`warehouses, db`datatables, db`links
    ensures deleted <==> exists i :: 0 <= i < |old(db.projects)| && old(db.projects)[i].id == id
    ensures db.Rows() == DeleteProjectRows(old(db.Rows()), id)
  {
    var before := |db.projects|;
    DeleteByIdRemovesExactly(db.projects, ProjectId, id);
    var after := DeleteProjectRows(db.Rows(), id);
    db.projects, db.datasources, db.warehouses := after.projects, after.datasources, after.warehouses;
    db.datatables, db.links := after.datatables, after.links;
    deleted := |db.projects| < before;
  }

  /** The project's own rows go: no project keeps its id and no datasource
      or warehouse lies under it, while those of other projects are kept. */
  lemma DeleteProjectRemovesOwnRows(s: Snapshot, id: nat)
    ensures var t := DeleteProjectRows(s, id);
      && (forall p :: p in t.projects ==> p.id != id)
      && (forall d :: d in t.datasources ==> d.projectId != id)
      && (forall w :: w in t.warehouses ==> w.projectId != id)
      && (forall d :: d in s.datasources && d.projectId != id ==> d in t.datasources)
      && (forall w :: w in s.warehouses && w.projectId != id ==> w in t.warehouses)
  {
    var t := DeleteProjectRows(s, id);
    DeleteByIdRemovesExactly(s.projects, ProjectId, id);
    DeleteByIdRemovesExactly(s.datasources, DatasourceProject, id);
    DeleteByIdRemovesExactly(s.warehouses, WarehouseProject, id);
    forall p | p in t.projects
      ensures p.id != id
    {
      var i :| 0 <= i < |t.projects| && t.projects[i] == p;
    }
    forall d | d in t.datasources
      ensures d.projectId != id
    {
      var i :| 0 <= i < |t.datasources| && t.datasources[i] == d;
    }
    forall w | w in t.warehouses
      ensures w.projectId != id
    {
      var i :| 0 <= i < |t.warehouses| && t.warehouses[i] == w;
    }
  }

  /** The cascade reaches the tables of the project's datasources and the
      links into its warehouses. */
  lemma DeleteProjectRemovesDependents(s: Snapshot, id: nat)
    ensures var t := DeleteProjectRows(s, id);
      && (forall x :: x in t.datatables ==> forall d :: d in s.datasources && d.projectId == id ==> x.datasourceId != d.id)
      && (forall l :: l in t.links ==> forall w :: w in s.warehouses && w.projectId == id ==> l.warehouseId != w.id)
  {
    var t := DeleteProjectRows(s, id);
    forall x | x in t.datatables
      ensures forall d :: d in s.datasources && d.projectId == id ==> x.datasourceId != d.id
    {
      var i :| 0 <= i < |t.datatables| && t.datatables[i] == x;
    }
    forall l | l in t.links
      ensures forall w :: w in s.warehouses && w.projectId == id ==> l.warehouseId != w.id
    {
      var i :| 0 <= i < |t.links| && t.links[i] == l;
    }
  }

  /** After deleting a project nothing refers to it: no project has its id,
      no datasource or warehouse lies under it, no table belongs to one of its
      datasources, no link points into its warehouse; the users and every row
      of another project's datasources and warehouses are kept. */
  lemma DeleteProjectLeavesNoChildren(s: Snapshot, id: nat)
    ensures var t := DeleteProjectRows(s, id);
      && t.users == s.users
      && (forall p :: p in t.projects ==> p.id != id)
      && (forall d :: d in t.datasources ==> d.projectId != id)
      && (forall w :: w in t.warehouses ==> w.projectId != id)
      && (forall x :: x in t.datatables ==> forall d :: d in s.datasources && d.projectId == id ==> x.datasourceId != d.id)
      && (forall l :: l in t.links ==> forall w :: w in s.warehouses && w.projectId == id ==> l.warehouseId != w.id)
      && (forall d :: d in s.datasources && d.projectId != id ==> d in t.datasources)
      && (forall w :: w in s.warehouses && w.projectId != id ==> w in t.warehouses)
  {
    DeleteProjectRemovesOwnRows(s, id);
    DeleteProjectRemovesDependents(s, id);
  }
}

=== FILE: repo_warehouses.dfy ===
/** The warehouse repository over the `Warehouses` table and the links
    that place data tables in a warehouse. */
module WarehousesRepo {
  import opened Common
  import opened Store
  import DatasourcesRepo

  /** A warehouse as the listing returns it: its row and, per role, the ids
      of its links of that role. */
  datatype WarehouseView = WarehouseView(id: nat, name: string, projectId: nat, datatables: RoleMap)

  /** The ids of the warehouse's links whose type is exactly `role`, in stored order. */
  function LinkIds(links: seq<Link>, warehouseId: nat, role: string): seq<nat>
  {
    var own := Filter(links, (l: Link) => l.warehouseId == warehouseId);
    MapSeq(Filter(own, (l: Link) => l.dtType == role), (l: Link) => l.id)
  }

  /** The warehouse's table map: exactly the keys "fact" and "dimension". */
  function Roles(links: seq<Link>, warehouseId: nat): RoleMap
  {
    [("fact", LinkIds(links, warehouseId, "fact")), ("dimension", LinkIds(links, warehouseId, "dimension"))]
  }

  function View(links: seq<Link>, w: Warehouse): WarehouseView
  {
    WarehouseView(w.id, w.name, w.projectId, Roles(links, w.id))
  }

  function Views(links: seq<Link>, ws: seq<Warehouse>): (r: seq<WarehouseView>)
    ensures |r| == |ws|
    ensures forall i :: 0 <= i < |ws| ==> r[i] == View(links, ws[i])
  {
    MapSeq(ws, (w: Warehouse) => View(links, w))
  }

  /** Every warehouse joined to a project the user created, in stored order. */
  function AllOwned(db: Database, userId: nat): (r: seq<Warehouse>)
    reads db`warehouses, db`projects
    ensures forall w :: w in r <==> w in db.warehouses && DatasourcesRepo.OwnedBy(db.projects, w.projectId, userId)
  {
    var projects := db.projects;
    Filter(db.warehouses, (w: Warehouse) => DatasourcesRepo.OwnedBy(projects, w.projectId, userId))
  }

  /** The warehouses joined to a project the user created, one page of them. */
  function OwnedWarehouses(db: Database, userId: nat, offset: nat := 0, limit: Option<nat> := Some(25)): (r: seq<Warehouse>)
    reads db
    ensures r == Page(AllOwned(db, userId), offset, limit)
    ensures limit.Some? ==> |r| <= limit.value
    ensures forall i :: 0 <= i < |r| ==> r[i] in db.warehouses && DatasourcesRepo.OwnedBy(db.projects, r[i].projectId, userId)
  {
    Page(AllOwned(db, userId), offset, limit)
  }

  /** `get_user_warehouses`: one model per owned warehouse of the page, in
      order, each carrying its fact and dimension link ids. */
  method UserWarehouses(db: Database, userId: nat, offset: nat := 0, limit: Option<nat> := Some(25)) returns (r: seq<WarehouseView>)
    ensures r == Views(db.links, OwnedWarehouses(db, userId, offset, limit))
  {
    var page := OwnedWarehouses(db, userId, offset, limit);
    r := [];
    for i := 0 to |page|
      invariant r == Views(db.links, page[..i])
    {
      var w := page[i];
      var fact := LinkIds(db.links, w.id, "fact");
      var dimension := LinkIds(db.links, w.id, "dimension");
      r := r + [WarehouseView(w.id, w.name, w.projectId, [("fact", fact), ("dimension", dimension)])];
    }
    assert page[..|page|] == page;
  }

  /** The role lists partition the warehouse's links by type: with distinct
      link ids, a link of the warehouse is listed under "fact" exactly when
      its type is "fact", under "dimension" exactly when it is "dimension",
      and a link of any other type or another warehouse under neither. */
  lemma RolesPartitionLinks(links: seq<Link>, warehouseId: nat, l: Link)
    requires forall i, j :: 0 <= i < |links| && 0 <= j < |links| && links[i].id == links[j].id ==> i == j
    requires l in links
    ensures l.id in LinkIds(links, warehouseId, "fact") <==> l.warehouseId == warehouseId && l.dtType == "fact"
    ensures l.id in LinkIds(links, warehouseId, "dimension") <==> l.warehouseId == warehouseId && l.dtType == "dimension"
  {
    LinkIdsExact(links, warehouseId, "fact", l);
    LinkIdsExact(links, warehouseId, "dimension", l);
  }

  lemma LinkIdsExact(links: seq<Link>, warehouseId: nat, role: string, l: Link)
    requires forall i, j :: 0 <= i < |links| && 0 <= j < |links| && links[i].id == links[j].id ==> i == j
    requires l in links
    ensures l.id in LinkIds(links, warehouseId, role) <==> l.warehouseId == warehouseId && l.dtType == role
  {
    var own := Filter(links, (x: Link) => x.warehouseId == warehouseId);
    var typed := Filter(own, (x: Link) => x.dtType == role);
    var ids := MapSeq(typed, (x: Link) => x.id);
    if l.id in ids {
      var k :| 0 <= k < |ids| && ids[k] == l.id;
      var m :| 0 <= m < |links| && links[m] == typed[k];
      var n :| 0 <= n < |links| && links[n] == l;
      assert typed[k] == l;
    }
    if l.warehouseId == warehouseId && l.dtType == role {
      var n :| 0 <= n < |links| && links[n] == l;
      assert l in own;
      var m :| 0 <= m < |own| && own[m] == l;
      assert l in typed;
      var k :| 0 <= k < |typed| && typed[k] == l;
      assert ids[k] == l.id;
    }
  }

  /** `get_warehouse_by_id`, read as the optional lookup its callers test for None. */
  function GetWarehouse(db: Database, id: nat): (r: Option<Warehouse>)
    reads db`warehouses
    ensures r.Some? ==> r.value in db.warehouses && r.value.id == id
    ensures r.None? <==> forall i :: 0 <= i < |db.warehouses| ==> db.warehouses[i].id != id
  {
    ById(db.warehouses, WarehouseId, id)
  }

  /** `get_warehouse_owner`: the user who created the warehouse's project. */
  function WarehouseOwner(db: Database, id: nat): (r: Option<User>)
    reads db
    ensures r.Some? ==>
      && r.value in db.users && GetWarehouse(db, id).Some?
      && DatasourcesRepo.OwnedBy(db.projects, GetWarehouse(db, id).value.projectId, r.value.id)
    ensures GetWarehouse(db, id).None? ==> r.None?
  {
    match GetWarehouse(db, id)
    case None => None
    case Some(w) =>
      match ById(db.projects, ProjectId, w.projectId)
      case None => None
      case Some(p) =>
        var u := ById(db.users, UserId, p.createdBy);
        if u.Some? then
          assert exists i :: 0 <= i < |db.projects| && db.projects[i] == p;
          u
        else None
  }

  /** With unique keys, the owner found is the user who created the
      warehouse's project. */
  lemma OwnerIsCreator(db: Database, id: nat, u: User)
    requires Unique(db.projects, ProjectId) && Unique(db.users, UserId) && u in db.users
    requires GetWarehouse(db, id).Some? && DatasourcesRepo.OwnedBy(db.projects, GetWarehouse(db, id).value.projectId, u.id)
    ensures WarehouseOwner(db, id) == Some(u)
  {
    var w := GetWarehouse(db, id).value;
    var i :| 0 <= i < |db.projects| && db.projects[i].id == w.projectId && db.projects[i].createdBy == u.id;
    var p := ById(db.projects, ProjectId, w.projectId);
    var j :| 0 <= j < |db.projects| && db.projects[j] == p.value;
    var k :| 0 <= k < |db.users| && db.users[k] == u;
    var found := ById(db.users, UserId, u.id);
    var m :| 0 <= m < |db.users| && db.users[m] == found.value;
  }

  datatype WarehouseCreate = WarehouseCreate(name: string, datatables: RoleMap, projectId: nat)

  /** `create_warehouse`: the row is stored with a fresh id; the returned model
      echoes the caller's table map, which the row itself does not hold. */
  method CreateWarehouse(db: Database, c: WarehouseCreate) returns (v: WarehouseView)
    modifies db`warehouses, db`nextId
    ensures v == WarehouseView(old(db.nextId), c.name, c.projectId, c.datatables)
    ensures db.warehouses == old(db.warehouses) + [Warehouse(v.id, c.name, c.projectId)]
    ensures db.nextId == old(db.nextId) + 1
  {
    var w := Warehouse(db.nextId, c.name, c.projectId);
    db.warehouses := db.warehouses + [w];
    db.nextId := db.nextId + 1;
    v := WarehouseView(w.id, w.name, w.projectId, c.datatables);
  }

  /** A partial update of a warehouse: a None field is left as it is. */
  datatype WarehouseUpdate = WarehouseUpdate(name: Option<string>, datatables: Option<RoleMap>)

  function ApplyUpdate(w: Warehouse, u: WarehouseUpdate): Warehouse
  {
    w.(name := Pick(u.name, w.name))
  }

  /** An update keeps the id and the project and sets the name only when one is supplied. */
  lemma ApplyUpdateChangesOnlySupplied(w: Warehouse, u: WarehouseUpdate)
    ensures var v := ApplyUpdate(w, u);
      && v.id == w.id && v.projectId == w.projectId
      && (if u.name.Some? then v.name == u.name.value else v.name == w.name)
    ensures u.name.None? ==> ApplyUpdate(w, u) == w
  {
  }

  /** `update_warehouse`: every row with the id is updated and the first one
      returned; None when no row has the id. */
  method UpdateWarehouse(db: Database, id: nat, u: WarehouseUpdate) returns (r: Option<Warehouse>)
    modifies db`warehouses
    ensures db.warehouses == UpdateById(old(db.warehouses), WarehouseId, id, w => ApplyUpdate(w, u))
    ensures r.None? <==> forall i :: 0 <= i < |old(db.warehouses)| ==> old(db.warehouses)[i].id != id
    ensures r.Some? ==> r.value in db.warehouses && r.value == ApplyUpdate(old(GetWarehouse(db, id)).value, u)
  {
    var found := GetWarehouse(db, id);
    db.warehouses := UpdateById(db.warehouses, WarehouseId, id, w => ApplyUpdate(w, u));
    if found.None? {
      return None;
    }
    ghost var i :| 0 <= i < |old(db.warehouses)| && old(db.warehouses)[i] == found.value;
    assert db.warehouses[i] == ApplyUpdate(found.value, u);
    return Some(ApplyUpdate(found.value, u));
  }

  function LinkWarehouse(l: Link): nat { l.warehouseId }

  /** The rows left by deleting warehouse `id`: its links go with it. */
  function DeleteWarehouseRows(s: Snapshot, id: nat): Snapshot
  {
    s.(warehouses := DeleteById(s.warehouses, WarehouseId, id), links := DeleteById(s.links, LinkWarehouse, id))
  }

  /** `delete_warehouse_by_id`: true exactly when a row had the id. */
  method DeleteWarehouse(db: Database, id: nat) returns (deleted: bool)
    modifies db`warehouses, db`links
    ensures deleted <==> exists i :: 0 <= i < |old(db.warehouses)| && old(db.warehouses)[i].id == id
    ensures db.Rows() == DeleteWarehouseRows(old(db.Rows()), id)
  {
    var before := |db.warehouses|;
    DeleteByIdRemovesExactly(db.warehouses, WarehouseId, id);
    var after := DeleteWarehouseRows(db.Rows(), id);
    db.warehouses, db.links := after.warehouses, after.links;
    deleted := |db.warehouses| < before;
  }

  /** After deleting a warehouse no link points into it, the links of other
      warehouses are kept, and the data tables themselves stay. */
  lemma DeleteWarehouseKeepsTables(s: Snapshot, id: nat)
    ensures var t := DeleteWarehouseRows(s, id);
      && t.datatables == s.datatables && t.datasources == s.datasources && t.projects == s.projects
      && (forall l :: l in t.links ==> l.warehouseId != id)
      && (forall l :: l in s.links && l.warehouseId != id ==> l in t.links)
  {
    var t := DeleteWarehouseRows(s, id);
    DeleteByIdRemovesExactly(s.links, LinkWarehouse, id);
    forall l | l in t.links
      ensures l.warehouseId != id
    {
      var i :| 0 <= i < |t.links| && t.links[i] == l;
    }
  }
}

=== FILE: service_datasource.dfy ===
/** The datasource service: access checks, and the discovery of a
    datasource's tables that runs when it is created or updated. */
module DatasourceService {
  import opened Common
  import opened Strings
  import opened Databases
  import opened Store
  import DatasourcesRepo
  import DatatablesRepo

  /** `__parse_to_datatable` as written: the descriptor's name is read under
      "table_name", the key only the Postgres descriptors use. */
  function ParseToDatatableAsWritten(dsId: nat, t: TableInfo): (r: Result<DataTableCreate>)
    ensures r.Ok? <==> t.nameKey == "table_name"
    ensures r.Err? ==> r.failure == KeyError("table_name")
  {
    if t.nameKey == "table_name" then Ok(DataTableCreate(t.name, dsId, t.columns))
    else Err(KeyError("table_name"))
  }

  /** Every table a MySQL server describes is refused, since its descriptor
      keeps the name under "name": a MySQL datasource can never be created. */
  lemma MySqlDescriptorRefused(d: Driver, url: string, table: string, dsId: nat)
    requires MySqlTable(d, url, table).Ok?
    ensures ParseToDatatableAsWritten(dsId, MySqlTable(d, url, table).value) == Err(KeyError("table_name"))
  {
  }

  /** The same for a MongoDB collection with a first document. */
  lemma MongoDescriptorRefused(d: Driver, base: string, db: string, coll: string, dsId: nat)
    requires MongoTable(d, base, db, coll).Ok?
    ensures ParseToDatatableAsWritten(dsId, MongoTable(d, base, db, coll).value) == Err(KeyError("table_name"))
  {
  }

  /** `__parse_to_datatable` as intended: the descriptor's name, whichever
      key the engine stores it under, and its columns, under the datasource. */
  function ParseToDatatable(dsId: nat, t: TableInfo): (r: DataTableCreate)
    ensures r.name == t.name && r.datasourceId == dsId && r.columns == t.columns
  {
    DataTableCreate(t.name, dsId, t.columns)
  }

  /** The intended parse agrees with the written one wherever that succeeds. */
  lemma ParseToDatatableAgrees(dsId: nat, t: TableInfo)
    ensures ParseToDatatableAsWritten(dsId, t).Ok? ==> ParseToDatatableAsWritten(dsId, t).value == ParseToDatatable(dsId, t)
    ensures t.nameKey == "table_name" ==> ParseToDatatableAsWritten(dsId, t) == Ok(ParseToDatatable(dsId, t))
  {
  }

  /** `config["tables"].split(",")`: a missing entry is a key error, and a
      column list has no `split`. */
  function TableNames(config: map<string, ConfigValue>): (r: Result<seq<string>>)
    ensures r.Ok? <==> "tables" in config && config["tables"].Text?
    ensures r.Ok? ==> r.value == Split(config["tables"].text, ',') && Join(r.value, ",") == config["tables"].text
    ensures "tables" !in config ==> r == Err(KeyError("tables"))
    ensures "tables" in config && config["tables"].ColumnList? ==> r == Err(NoAttribute("list", "split"))
  {
    if "tables" !in config then Err(KeyError("tables"))
    else match config["tables"]
      case Text(s) => JoinSplit(s, ','); Ok(Split(s, ','))
      case ColumnList(_) => Err(NoAttribute("list", "split"))
  }

  /** `__request_tables_from_ds`: an inline table is the datasource itself,
      with the columns of its configuration; any other kind is described by
      its server, one table per comma-separated name of `config["tables"]`. */
  function RequestTables(d: Driver, ds: Datasource): (r: Result<seq<DataTableCreate>>)
    ensures r.Ok? ==> |r.value| >= 1 && forall i :: 0 <= i < |r.value| ==> r.value[i].datasourceId == ds.id
    ensures ds.dsType == Datatable ==>
      (r.Ok? <==> "columns" in ds.config && ds.config["columns"].ColumnList?)
      && (r.Ok? ==> r.value == [DataTableCreate(ds.name, ds.id, ds.config["columns"].columns)])
    ensures ds.dsType != Datatable && ConnectionUrl(ds).Err? ==> r == Err(ConnectionUrl(ds).failure)
    ensures ds.dsType != Datatable && ConnectionUrl(ds).Ok? && TableNames(ds.config).Err? ==> r == Err(TableNames(ds.config).failure)
    ensures ds.dsType != Datatable && ConnectionUrl(ds).Ok? && TableNames(ds.config).Ok? ==>
      var described := GetTablesSpec(d, ConnectionUrl(ds).value, TableNames(ds.config).value);
      && (r.Ok? <==> described.Ok?)
      && (described.Err? ==> r == Err(described.failure))
      && (r.Ok? ==> |r.value| == |described.value| && forall i :: 0 <= i < |r.value| ==> r.value[i] == ParseToDatatable(ds.id, described.value[i]))
    ensures ds.dsType != Datatable && r.Ok? ==>
      var names := TableNames(ds.config).value;
      |r.value| == |names| && forall i :: 0 <= i < |names| ==> r.value[i].name == names[i]
  {
    if ds.dsType == Datatable then
      if "columns" !in ds.config then Err(KeyError("columns"))
      else match ds.config["columns"]
        case ColumnList(columns) => Ok([DataTableCreate(ds.name, ds.id, columns)])
        case Text(_) => Err(ValueError("columns is not a list"))
    else
      match ConnectionUrl(ds)
      case Err(f) => Err(f)
      case Ok(url) =>
        match TableNames(ds.config)
        case Err(f) => Err(f)
        case Ok(names) =>
          match GetTablesSpec(d, url, names)
          case Err(f) => Err(f)
          case Ok(infos) =>
            DispatchUsesGivenTables(d, url, names);
            Ok(MapSeq(infos, (t: TableInfo) => ParseToDatatable(ds.id, t)))
  }

  /** `validate_user_access`: 404 when no datasource has the id, 401 unless
      its owner is the user, 200 otherwise. */
  function ValidateAccess(db: Database, user: User, dsId: nat): (r: Reply)
    reads db
    ensures r.code == 404 <==> DatasourcesRepo.GetDatasource(db, dsId).None?
    ensures r.code == 200 ==> DatasourcesRepo.OwnedBy(db.projects, DatasourcesRepo.GetDatasource(db, dsId).value.projectId, user.id)
    ensures r == Reply(404, "Not found") || r == Reply(401, "Unauthorized") || r == Reply(200, "OK")
  {
    if DatasourcesRepo.GetDatasource(db, dsId).None? then Reply(404, "Not found")
    else if DatasourcesRepo.DatasourceOwner(db, dsId) != Some(user) then Reply(401, "Unauthorized")
    else Reply(200, "OK")
  }

  /** With unique keys, the user who created the datasource's project is let in. */
  lemma OwnerIsAdmitted(db: Database, user: User, dsId: nat)
    requires Unique(db.projects, ProjectId) && Unique(db.users, UserId) && user in db.users
    requires DatasourcesRepo.GetDatasource(db, dsId).Some?
    requires DatasourcesRepo.OwnedBy(db.projects, DatasourcesRepo.GetDatasource(db, dsId).value.projectId, user.id)
    ensures ValidateAccess(db, user, dsId) == Reply(200, "OK")
  {
    DatasourcesRepo.OwnerIsCreator(db, dsId, user);
  }

  /** `get_user_datasources`: every datasource of a project the user created. */
  function UserDatasources(db: Database, user: User): (r: seq<Datasource>)
    reads db
    ensures forall d :: d in r <==> d in db.datasources && DatasourcesRepo.OwnedBy(db.projects, d.projectId, user.id)
  {
    var r := DatasourcesRepo.UserDatasources(db, user.id, 0, None);
    assert forall d :: d in r ==> d in db.datasources && DatasourcesRepo.OwnedBy(db.projects, d.projectId, user.id) by {
      forall d | d in r
        ensures d in db.datasources && DatasourcesRepo.OwnedBy(db.projects, d.projectId, user.id)
      {
        var i :| 0 <= i < |r| && r[i] == d;
      }
    }
    r
  }

  /** `get_datasource_by_id`: 400 when no datasource has the id. */
  function GetDatasourceById(db: Database, dsId: nat): (r: Answer<Datasource>)
    reads db
    ensures r.Message? <==> forall i :: 0 <= i < |db.datasources| ==> db.datasources[i].id != dsId
    ensures r.Message? ==> r == Message(400, "Bad request")
    ensures r.Found? ==> r.value in db.datasources && r.value.id == dsId
  {
    match DatasourcesRepo.GetDatasource(db, dsId)
    case None => Message(400, "Bad request")
    case Some(ds) => Found(ds)
  }

  /** `create_datasource`: the row is stored first and stays even when the
      discovery raises; otherwise the discovered tables are stored under it. */
  method CreateDatasource(db: Database, d: Driver, c: DatasourcesRepo.DatasourceCreate) returns (r: Result<Reply>)
    modifies db`datasources, db`datatables, db`nextId
    ensures var ds := Datasource(old(db.nextId), c.name, c.projectId, c.dsType, c.config);
      && db.datasources == old(db.datasources) + [ds]
      && (RequestTables(d, ds).Err? ==>
            r == Err(RequestTables(d, ds).failure) && db.datatables == old(db.datatables) && db.nextId == old(db.nextId) + 1)
      && (RequestTables(d, ds).Ok? ==>
            && r == Ok(Reply(200, Labelled("Datasource", ds.id, "created, tables added")))
            && db.datatables == old(db.datatables) + DatatablesRepo.NewRows(ds.id + 1, ds.id, RequestTables(d, ds).value)
            && db.nextId == ds.id + 1 + |RequestTables(d, ds).value|)
  {
    var ds := DatasourcesRepo.CreateDatasource(db, c);
    var tables := RequestTables(d, ds);
    if tables.Err? {
      return Err(tables.failure);
    }
    var _ := DatatablesRepo.CreateTables(db, tables.value);
    r := Ok(Reply(200, Labelled("Datasource", ds.id, "created, tables added")));
  }

  /** `update_datasource`: 400 when no datasource has the id; otherwise the
      updated datasource is described again and its tables reconciled by name. */
  method UpdateDatasource(db: Database, d: Driver, dsId: nat, u: DatasourcesRepo.DatasourceUpdate) returns (r: Result<Reply>)
    modifies db`datasources, db`datatables, db`nextId
    ensures db.datasources == UpdateById(old(db.datasources), DatasourceId, dsId, x => DatasourcesRepo.ApplyUpdate(x, u))
    ensures old(DatasourcesRepo.GetDatasource(db, dsId)).None? ==>
      r == Ok(Reply(400, "Bad request")) && db.datatables == old(db.datatables) && db.nextId == old(db.nextId)
    ensures old(DatasourcesRepo.GetDatasource(db, dsId)).Some? ==>
      var ds := DatasourcesRepo.ApplyUpdate(old(DatasourcesRepo.GetDatasource(db, dsId)).value, u);
      && (RequestTables(d, ds).Err? ==>
            r == Err(RequestTables(d, ds).failure) && db.datatables == old(db.datatables) && db.nextId == old(db.nextId))
      && (RequestTables(d, ds).Ok? ==>
            var after := DatatablesRepo.Reconcile(DatatablesRepo.Tables(old(db.datatables), old(db.nextId)),
              DatatablesRepo.ExistingNames(old(db.datatables), ds.id), ds.id, RequestTables(d, ds).value);
            && r == Ok(Reply(200, Labelled("Datasource", dsId, "columns updated")))
            && db.datatables == after.rows && db.nextId == after.nextId)
  {
    var updated := DatasourcesRepo.UpdateDatasource(db, dsId, u);
    if updated.None? {
      return Ok(Reply(400, "Bad request"));
    }
    var tables := RequestTables(d, updated.value);
    if tables.Err? {
      return Err(tables.failure);
    }
    var _ := DatatablesRepo.UpdateTables(db, tables.value);
    r := Ok(Reply(200, Labelled("Datasource", dsId, "columns updated")));
  }

  /** `delete_datasource`: 400 when no datasource has the id, else the cascade and 200. */
  method DeleteDatasource(db: Database, dsId: nat) returns (r: Reply)
    modifies db`datasources, db`datatables, db`links
    ensures db.Rows() == DatasourcesRepo.DeleteDatasourceRows(old(db.Rows()), dsId)
    ensures r.code == 400 <==> forall i :: 0 <= i < |old(db.datasources)| ==> old(db.datasources)[i].id != dsId
    ensures r.code == 400 ==> r.detail == "Bad request"
    ensures r.code != 400 ==> r == Reply(200, Labelled("Datasource", dsId, "deleted"))
  {
    var deleted := DatasourcesRepo.DeleteDatasource(db, dsId);
    if !deleted {
      return Reply(400, "Bad request");
    }
    r := Reply(200, Labelled("Datasource", dsId, "deleted"));
  }
}

=== FILE: service_project.dfy ===
/** The project service: the status replies the project endpoints send for
    the signed-in user, on top of the project repository. */
module ProjectService {
  import opened Common
  import opened Strings
  import opened Store
  import ProjectsRepo

  /** `validate_user_access`: 404 when no project has the id, 401 when its
      creator is another user, 200 otherwise. */
  function ValidateAccess(db: Database, user: User, projectId: nat): (r: Reply)
    reads db
    ensures r.code == 404 <==> forall i :: 0 <= i < |db.projects| ==> db.projects[i].id != projectId
    ensures r.code == 200 ==> exists i :: 0 <= i < |db.projects| && db.projects[i].id == projectId && db.projects[i].createdBy == user.id
    ensures r.code in {200, 401, 404}
    ensures r == Reply(404, "Not found") || r == Reply(401, "Unauthorized") || r == Reply(200, "OK")
  {
    match ProjectsRepo.GetProject(db, projectId)
    case None => Reply(404, "Not found")
    case Some(p) =>
      if p.createdBy != user.id then Reply(401, "Unauthorized")
      else
        assert exists i :: 0 <= i < |db.projects| && db.projects[i] == p;
        Reply(200, "OK")
  }

  /** With unique ids, access is granted exactly when the content query finds
      the project for the user: the check and the query agree. */
  lemma AccessMatchesContent(db: Database, user: User, projectId: nat)
    requires Unique(db.projects, ProjectId)
    ensures ValidateAccess(db, user, projectId).code == 200 <==> ProjectsRepo.Content(db, user.id, projectId) != Ok(None)
  {
    var content := ProjectsRepo.Content(db, user.id, projectId);
    if content != Ok(None) {
      var i :| 0 <= i < |db.projects| && db.projects[i].id == projectId && db.projects[i].createdBy == user.id;
      var p := ProjectsRepo.GetProject(db, projectId);
      var j :| 0 <= j < |db.projects| && db.projects[j] == p.value;
    }
  }

  /** `get_user_projects`: every project the user created, and nothing else. */
  function UserProjects(db: Database, user: User): (r: seq<Project>)
    reads db
    ensures forall p :: p in r <==> p in db.projects && p.createdBy == user.id
  {
    var r := ProjectsRepo.UserProjects(db, user.id, 0, None);
    assert forall p :: p in r ==> p in db.projects && p.createdBy == user.id by {
      forall p | p in r
        ensures p in db.projects && p.createdBy == user.id
      {
        var i :| 0 <= i < |r| && r[i] == p;
      }
    }
    r
  }

  /** `get_project_content`: 404 unless the user's project exists, otherwise
      its content; building the content of a project without a warehouse raises. */
  function GetProjectContent(db: Database, user: User, projectId: nat): (r: Result<Answer<ProjectsRepo.ProjectContent>>)
    reads db`projects, db`datasources, db`warehouses
    ensures r == Ok(Message(404, "Not found")) <==> !exists i :: 0 <= i < |db.projects| && db.projects[i].id == projectId && db.projects[i].createdBy == user.id
    ensures r.Ok? && r.value.Message? ==> r.value == Message(404, "Not found")
    ensures r.Err? <==>
      && (exists i :: 0 <= i < |db.projects| && db.projects[i].id == projectId && db.projects[i].createdBy == user.id)
      && (forall i :: 0 <= i < |db.warehouses| ==> db.warehouses[i].projectId != projectId)
    ensures r.Err? ==> r.failure == ValidationError("ProjectContent", "warehouse")
    ensures r.Ok? && r.value.Found? ==>
      && r.value.value.id == projectId
      && (forall d :: d in r.value.value.datasources <==> d in db.datasources && d.projectId == projectId)
      && r.value.value.warehouse in db.warehouses && r.value.value.warehouse.projectId == projectId
  {
    match ProjectsRepo.Content(db, user.id, projectId)
    case Err(f) => Err(f)
    case Ok(None) => Ok(Message(404, "Not found"))
    case Ok(Some(c)) => Ok(Found(c))
  }

  /** `create_project`: the user's project is stored and the reply is always 200. */
  method CreateProject(db: Database, user: User, c: ProjectsRepo.ProjectCreate) returns (r: Reply)
    modifies db`projects, db`nextId
    ensures r == Reply(200, "Project created")
    ensures db.projects == old(db.projects) + [Project(old(db.nextId), c.name, c.nodeUrl, user.id)]
    ensures db.nextId == old(db.nextId) + 1
  {
    var _ := ProjectsRepo.CreateProject(db, c, user.id);
    r := Reply(200, "Project created");
  }

  /** `update_project`: 400 when no project has the id, else 200 naming it. */
  method UpdateProject(db: Database, projectId: nat, u: ProjectsRepo.ProjectUpdate) returns (r: Reply)
    modifies db`projects
    ensures db.projects == UpdateById(old(db.projects), ProjectId, projectId, p => ProjectsRepo.ApplyUpdate(p, u))
    ensures r.code == 400 <==> forall i :: 0 <= i < |old(db.projects)| ==> old(db.projects)[i].id != projectId
    ensures r.code == 400 ==> r.detail == "Bad request"
    ensures r.code != 400 ==> r == Reply(200, Labelled("Project", projectId, "updated"))
  {
    var updated := ProjectsRepo.UpdateProject(db, projectId, u);
    if updated.None? {
      return Reply(400, "Bad request");
    }
    r := Reply(200, Labelled("Project", projectId, "updated"));
  }

  /** `delete_project`: 400 when no project has the id, else the cascade and 200. */
  method DeleteProject(db: Database, projectId: nat) returns (r: Reply)
    modifies db`projects, db`datasources, db`warehouses, db`datatables, db`links
    ensures db.Rows() == ProjectsRepo.DeleteProjectRows(old(db.Rows()), projectId)
    ensures r.code == 400 <==> forall i :: 0 <= i < |old(db.projects)| ==> old(db.projects)[i].id != projectId
    ensures r.code == 400 ==> r.detail == "Bad request"
    ensures r.code != 400 ==> r == Reply(200, Labelled("Project", projectId, "deleted"))
  {
    var deleted := ProjectsRepo.DeleteProject(db, projectId);
    if !deleted {
      return Reply(400, "Bad request");
    }
    r := Reply(200, Labelled("Project", projectId, "deleted"));
  }
}

=== FILE: service_query.dfy ===
/** The query service: the Spark sessions opened on a project's node to
    check and run queries, create a warehouse's tables, and load data into
    them, from the tables' own datasources or from an uploaded file. */
module QueryService {
  import opened Common
  import opened Strings
  import opened Store
  import opened SparkHelpers
  import ProjectsRepo
  import DatasourcesRepo
  import ProjectService

  /** The tables grouped by datasource: the datasource ids in order of first
      appearance, and the tables of each, in input order. */
  datatype Grouping = Grouping(keys: seq<nat>, groups: map<nat, seq<DataTable>>)

  /** `__group_tables_by_ds` on the tables, taken one at a time from the left. */
  function Grouped(tables: seq<DataTable>): (g: Grouping)
    ensures |g.keys| <= |tables|
    ensures forall k :: k in g.groups ==> g.groups[k] != []
    decreases |tables|
  {
    if tables == [] then Grouping([], map[])
    else
      var g := Grouped(tables[..|tables| - 1]);
      var t := tables[|tables| - 1];
      if t.datasourceId in g.groups then Grouping(g.keys, g.groups[t.datasourceId := g.groups[t.datasourceId] + [t]])
      else Grouping(g.keys + [t.datasourceId], g.groups[t.datasourceId := [t]])
  }

  predicate Distinct(keys: seq<nat>)
  {
    forall i, j :: 0 <= i < |keys| && 0 <= j < |keys| && keys[i] == keys[j] ==> i == j
  }

  /** The tables of datasource `k`, in input order. */
  function OfDatasource(tables: seq<DataTable>, k: nat): seq<DataTable>
  {
    Filter(tables, (t: DataTable) => t.datasourceId == k)
  }

  lemma OfDatasourceSnoc(init: seq<DataTable>, t: DataTable, k: nat)
    ensures OfDatasource(init + [t], k) == OfDatasource(init, k) + (if t.datasourceId == k then [t] else [])
  {
    FilterAppend(init, [t], (x: DataTable) => x.datasourceId == k);
    assert [t][1..] == [];
  }

  /** Each datasource id is a key once, and the keys are the map's domain. */
  lemma {:induction false} GroupedKeysDistinct(tables: seq<DataTable>)
    ensures Distinct(Grouped(tables).keys)
    ensures forall k :: k in Grouped(tables).groups <==> k in Grouped(tables).keys
    decreases |tables|
  {
    if tables != [] {
      GroupedKeysDistinct(tables[..|tables| - 1]);
    }
  }

  /** The keys are exactly the datasources that have a table. */
  lemma {:induction false} GroupedKeysPresent(tables: seq<DataTable>)
    ensures forall k :: k in Grouped(tables).keys <==> exists i :: 0 <= i < |tables| && tables[i].datasourceId == k
    decreases |tables|
  {
    if tables != [] {
      var n := |tables| - 1;
      var init := tables[..n];
      GroupedKeysPresent(init);
      GroupedKeysDistinct(init);
      var g0, g := Grouped(init), Grouped(tables);
      forall k
        ensures k in g.keys <==> exists i :: 0 <= i < |tables| && tables[i].datasourceId == k
      {
        if exists i :: 0 <= i < |tables| && tables[i].datasourceId == k {
          var i :| 0 <= i < |tables| && tables[i].datasourceId == k;
          if i < n {
            assert init[i] == tables[i];
          }
        }
        if k in g0.keys {
          var i :| 0 <= i < |init| && init[i].datasourceId == k;
          assert tables[i] == init[i];
        }
      }
    }
  }

  /** Under each key lie exactly that datasource's tables, in input order. */
  lemma {:induction false} GroupedGroups(tables: seq<DataTable>)
    ensures forall k :: k in Grouped(tables).groups ==> Grouped(tables).groups[k] == OfDatasource(tables, k)
    decreases |tables|
  {
    if tables != [] {
      var n := |tables| - 1;
      var init, t := tables[..n], tables[n];
      assert tables == init + [t];
      GroupedGroups(init);
      GroupedKeysDistinct(init);
      GroupedKeysPresent(init);
      var g0, g := Grouped(init), Grouped(tables);
      forall k | k in g.groups
        ensures g.groups[k] == OfDatasource(tables, k)
      {
        OfDatasourceSnoc(init, t, k);
        if k !in g0.groups {
          assert k == t.datasourceId;
          assert k !in g0.keys;
          assert forall i :: 0 <= i < |init| ==> init[i].datasourceId != k;
          OfDatasourceNone(init, k);
        }
      }
    }
  }

  lemma {:induction false} OfDatasourceNone(tables: seq<DataTable>, k: nat)
    requires forall i :: 0 <= i < |tables| ==> tables[i].datasourceId != k
    ensures OfDatasource(tables, k) == []
    decreases |tables|
  {
    if tables != [] {
      assert forall i :: 0 <= i < |tables[1..]| ==> tables[1..][i] == tables[i + 1];
      OfDatasourceNone(tables[1..], k);
    }
  }

  /** The number of tables held under the keys. */
  function GroupSizes(keys: seq<nat>, groups: map<nat, seq<DataTable>>): nat
    decreases |keys|
  {
    if keys == [] then 0
    else
      var k := keys[|keys| - 1];
      GroupSizes(keys[..|keys| - 1], groups) + (if k in groups then |groups[k]| else 0)
  }

  lemma {:induction false} GroupSizesIgnore(keys: seq<nat>, groups: map<nat, seq<DataTable>>, k: nat, v: seq<DataTable>)
    requires k !in keys
    ensures GroupSizes(keys, groups[k := v]) == GroupSizes(keys, groups)
    decreases |keys|
  {
    if keys != [] {
      GroupSizesIgnore(keys[..|keys| - 1], groups, k, v);
    }
  }

  lemma {:induction false} GroupSizesUpdate(keys: seq<nat>, groups: map<nat, seq<DataTable>>, k: nat, v: seq<DataTable>)
    requires Distinct(keys) && k in keys && k in groups
    ensures GroupSizes(keys, groups[k := v]) + |groups[k]| == GroupSizes(keys, groups) + |v|
    decreases |keys|
  {
    var n := |keys| - 1;
    var init := keys[..n];
    assert Distinct(init) by {
      forall i, j | 0 <= i < |init| && 0 <= j < |init| && init[i] == init[j]
        ensures i == j
      {
        assert keys[i] == init[i] && keys[j] == init[j];
      }
    }
    if keys[n] == k {
      assert k !in init by {
        forall i | 0 <= i < |init|
          ensures init[i] != k
        {
          assert keys[i] == init[i];
        }
      }
      GroupSizesIgnore(init, groups, k, v);
    } else {
      var i :| 0 <= i < |keys| && keys[i] == k;
      assert init[i] == k;
      GroupSizesUpdate(init, groups, k, v);
    }
  }

  /** Grouping neither loses nor duplicates a table: the groups hold as many
      tables as the input. */
  lemma {:induction false} GroupedCountPreserved(tables: seq<DataTable>)
    ensures GroupSizes(Grouped(tables).keys, Grouped(tables).groups) == |tables|
    decreases |tables|
  {
    if tables != [] {
      var n := |tables| - 1;
      var init, t := tables[..n], tables[n];
      GroupedCountPreserved(init);
      GroupedKeysDistinct(init);
      var g0 := Grouped(init);
      var k := t.datasourceId;
      if k in g0.groups {
        GroupSizesUpdate(g0.keys, g0.groups, k, g0.groups[k] + [t]);
      } else {
        GroupSizesIgnore(g0.keys, g0.groups, k, [t]);
        assert (g0.keys + [k])[..|g0.keys|] == g0.keys;
      }
    }
  }

  /** `__group_tables_by_ds`. */
  method GroupByDatasource(tables: seq<DataTable>) returns (g: Grouping)
    ensures g == Grouped(tables)
  {
    g := Grouping([], map[]);
    for i := 0 to |tables|
      invariant g == Grouped(tables[..i])
    {
      ghost var prefix := tables[..i + 1];
      assert prefix[..i] == tables[..i] && prefix[i] == tables[i];
      var k := tables[i].datasourceId;
      if k !in g.groups {
        g := Grouping(g.keys + [k], g.groups[k := []]);
        assert [] + [tables[i]] == [tables[i]];
      }
      g := g.(groups := g.groups[k := g.groups[k] + [tables[i]]]);
      assert g == Grouped(prefix);
    }
    assert tables[..|tables|] == tables;
  }

  /** `__add_datasource`: each datasource with its group of tables, in the
      order of the datasources; a datasource without a group is a key error. */
  function Paired(groups: map<nat, seq<DataTable>>, datasources: seq<Datasource>): (r: Result<seq<(Datasource, seq<DataTable>)>>)
    ensures r.Ok? <==> forall i :: 0 <= i < |datasources| ==> datasources[i].id in groups
    ensures r.Ok? ==> |r.value| == |datasources|
    ensures r.Ok? ==> forall i :: 0 <= i < |datasources| ==> r.value[i] == (datasources[i], groups[datasources[i].id])
    ensures r.Err? ==> exists i :: 0 <= i < |datasources| && datasources[i].id !in groups && r.failure == KeyError(NatToString(datasources[i].id))
    decreases |datasources|
  {
    if datasources == [] then Ok([])
    else
      var ds := datasources[0];
      assert forall i :: 1 <= i < |datasources| ==> datasources[i] == datasources[1..][i - 1];
      if ds.id !in groups then Err(KeyError(NatToString(ds.id)))
      else Prepend([(ds, groups[ds.id])], Paired(groups, datasources[1..]))
  }

  method PairWithTables(groups: map<nat, seq<DataTable>>, datasources: seq<Datasource>) returns (r: Result<seq<(Datasource, seq<DataTable>)>>)
    ensures r == Paired(groups, datasources)
  {
    var pairs: seq<(Datasource, seq<DataTable>)> := [];
    assert datasources[0..] == datasources;
    PrependNil(Paired(groups, datasources));
    for i := 0 to |datasources|
      invariant Prepend(pairs, Paired(groups, datasources[i..])) == Paired(groups, datasources)
    {
      assert datasources[i..][1..] == datasources[i + 1..];
      var ds := datasources[i];
      if ds.id !in groups {
        return Err(KeyError(NatToString(ds.id)));
      }
      PrependAssoc(pairs, [(ds, groups[ds.id])], Paired(groups, datasources[i + 1..]));
      pairs := pairs + [(ds, groups[ds.id])];
    }
    assert pairs + [] == pairs;
    return Ok(pairs);
  }

  /** `get_datasources_by_id`: the datasources whose id is listed, in stored order. */
  function DatasourcesById(rows: seq<Datasource>, ids: seq<nat>): (r: seq<Datasource>)
    ensures forall i :: 0 <= i < |r| ==> r[i] in rows && r[i].id in ids
    ensures forall d :: d in r <==> d in rows && d.id in ids
  {
    Filter(rows, (d: Datasource) => d.id in ids)
  }

  /** Pairing the grouped tables with the datasources fetched by the group
      keys cannot raise: every fetched datasource has a group. */
  lemma PairingNeverFails(rows: seq<Datasource>, tables: seq<DataTable>)
    ensures Paired(Grouped(tables).groups, DatasourcesById(rows, Grouped(tables).keys)).Ok?
  {
    GroupedKeysDistinct(tables);
  }

  /** `get_table_by_id`. */
  function TableById(db: Database, id: nat): (r: Option<DataTable>)
    reads db`datatables
    ensures r.Some? ==> r.value in db.datatables && r.value.id == id
    ensures r.None? <==> forall i :: 0 <= i < |db.datatables| ==> db.datatables[i].id != id
  {
    ById(db.datatables, DataTableId, id)
  }

  /** The table of every link, or the attribute error that reading
      `datasource_id` off a missing one raises. */
  function LinkedTables(rows: seq<DataTable>, links: seq<LinkCreate>): (r: Result<seq<DataTable>>)
    ensures r.Ok? <==> forall i :: 0 <= i < |links| ==> ById(rows, DataTableId, links[i].datatableId).Some?
    ensures r.Err? ==> r.failure == AttributeError("datasource_id")
    ensures r.Ok? ==> |r.value| == |links| && forall i :: 0 <= i < |links| ==> r.value[i] == ById(rows, DataTableId, links[i].datatableId).value
    decreases |links|
  {
    if links == [] then Ok([])
    else
      match ById(rows, DataTableId, links[0].datatableId)
      case None => Err(AttributeError("datasource_id"))
      case Some(t) =>
        var rest := LinkedTables(rows, links[1..]);
        assert forall i :: 1 <= i < |links| ==> links[i] == links[1..][i - 1];
        if rest.Err? then Err(rest.failure) else Ok([t] + rest.value)
  }

  /** The node URL of a project; reading it off a missing project raises. */
  function NodeUrl(projects: seq<Project>, projectId: nat): (r: Result<string>)
    ensures r.Ok? <==> exists i :: 0 <= i < |projects| && projects[i].id == projectId
    ensures r.Ok? ==> exists i :: 0 <= i < |projects| && projects[i].id == projectId && projects[i].nodeUrl == r.value
    ensures r.Err? ==> r.failure == AttributeError("node_url")
  {
    match ById(projects, ProjectId, projectId)
    case None => Err(AttributeError("node_url"))
    case Some(p) => Ok(p.nodeUrl)
  }

  /** The `(bool, str)` pair a cluster job returns. */
  datatype Status = Status(ok: bool, message: string)

  /** Success with `message`, or the text of the exception caught. */
  function Outcome(failure: Option<Failure>, message: string): (r: Status)
    ensures r.ok <==> failure.None?
    ensures r.message == if failure.None? then message else ErrorText(failure.value)
  {
    match failure
    case None => Status(true, message)
    case Some(f) => Status(false, ErrorText(f))
  }

  /** A session on the node carrying one command; it is stopped whatever the answer. */
  method Session(cluster: Cluster, url: string, c: Command) returns (res: Result<seq<string>>)
    modifies cluster
    ensures cluster.live == old(cluster.live)
    ensures cluster.log == old(cluster.log) + [Connect(url), c]
    ensures res == cluster.respond(c)
  {
    cluster.Open(url);
    res := cluster.Send(c);
    cluster.Stop();
  }

  /** `validate_file`: only a `.csv` or `.json` extension, in lower case, is accepted. */
  function ValidateFile(filename: string): (r: Reply)
    ensures r.code == 200 <==> FileFormat(filename) == "csv" || FileFormat(filename) == "json"
    ensures r == Reply(200, "OK") || r == Reply(400, "Invalid file format. Only CSV and JSON formats are available.")
  {
    if FileFormat(filename) !in ["csv", "json"] then Reply(400, "Invalid file format. Only CSV and JSON formats are available.")
    else Reply(200, "OK")
  }

  /** A file is accepted exactly when its last extension is csv or json. */
  lemma ValidateFileByExtension(stem: string, ext: string)
    requires '.' !in ext
    ensures ValidateFile(stem + "." + ext).code == 200 <==> ext == "csv" || ext == "json"
  {
    FileFormatOf(stem, ext);
  }

  /** `validate_query`: an unauthorised or missing project is a 400 carrying
      the access message, with no session; otherwise the query is explained
      on the project's node and the cluster's error, if any, is the reply. */
  method ValidateQuery(db: Database, cluster: Cluster, user: User, projectId: nat, query: string) returns (r: Reply)
    modifies cluster
    ensures cluster.live == old(cluster.live)
    ensures var access := ProjectService.ValidateAccess(db, user, projectId);
      access.code != 200 ==> r == Reply(400, access.detail) && cluster.log == old(cluster.log)
    ensures var access := ProjectService.ValidateAccess(db, user, projectId);
      access.code == 200 ==>
        var c := Sql("EXPLAIN " + query);
        && NodeUrl(db.projects, projectId).Ok?
        && cluster.log == old(cluster.log) + [Connect(NodeUrl(db.projects, projectId).value), c]
        && r == if cluster.respond(c).Ok? then Reply(200, "OK") else Reply(400, ErrorText(cluster.respond(c).failure))
  {
    var access := ProjectService.ValidateAccess(db, user, projectId);
    if access.code != 200 {
      return Reply(400, access.detail);
    }
    var url := NodeUrl(db.projects, projectId);
    var res := Session(cluster, url.value, Sql("EXPLAIN " + query));
    r := if res.Ok? then Reply(200, "OK") else Reply(400, ErrorText(res.failure));
  }

  /** What `run_query` returns: the rows as JSON text, or the error's text. */
  datatype QueryResult = Rows(rows: seq<string>) | Failed(message: string)

  /** `run_query`: a missing project raises before any session; otherwise
      the query runs on the node. */
  method RunQuery(db: Database, cluster: Cluster, projectId: nat, query: string) returns (r: Result<QueryResult>)
    modifies cluster
    ensures cluster.live == old(cluster.live)
    ensures NodeUrl(db.projects, projectId).Err? ==> r == Err(AttributeError("node_url")) && cluster.log == old(cluster.log)
    ensures NodeUrl(db.projects, projectId).Ok? ==>
      && cluster.log == old(cluster.log) + [Connect(NodeUrl(db.projects, projectId).value), Sql(query)]
      && r == Ok(if cluster.respond(Sql(query)).Ok? then Rows(cluster.respond(Sql(query)).value)
                 else Failed(ErrorText(cluster.respond(Sql(query)).failure)))
  {
    var url := NodeUrl(db.projects, projectId);
    if url.Err? {
      return Err(url.failure);
    }
    var res := Session(cluster, url.value, Sql(query));
    r := Ok(if res.Ok? then Rows(res.value) else Failed(ErrorText(res.failure)));
  }

  /** `read_data`: as `run_query`, with the rows as a 200 and an error as a 400. */
  method ReadData(db: Database, cluster: Cluster, projectId: nat, query: string) returns (r: Result<Answer<seq<string>>>)
    modifies cluster
    ensures cluster.live == old(cluster.live)
    ensures NodeUrl(db.projects, projectId).Err? ==> r == Err(AttributeError("node_url")) && cluster.log == old(cluster.log)
    ensures NodeUrl(db.projects, projectId).Ok? ==>
      && cluster.log == old(cluster.log) + [Connect(NodeUrl(db.projects, projectId).value), Sql(query)]
      && r == Ok(if cluster.respond(Sql(query)).Ok? then Found(cluster.respond(Sql(query)).value)
                 else Message(400, ErrorText(cluster.respond(Sql(query)).failure)))
  {
    var url := NodeUrl(db.projects, projectId);
    if url.Err? {
      return Err(url.failure);
    }
    var res := Session(cluster, url.value, Sql(query));
    r := Ok(if res.Ok? then Found(res.value) else Message(400, ErrorText(res.failure)));
  }

  /** `create_table` for the table of a link: reading `name` off a missing table raises. */
  function TableStep(t: Option<DataTable>): Result<Command>
  {
    match t
    case None => Err(AttributeError("name"))
    case Some(x) => Ok(CreateTable(x.name, Schema(x.columns)))
  }

  /** The tables `add_tables` creates, one per link, in link order. */
  function CreateSteps(rows: seq<DataTable>, links: seq<LinkCreate>): (steps: seq<Result<Command>>)
    ensures |steps| == |links|
    ensures forall i :: 0 <= i < |links| ==>
      && (steps[i].Ok? <==> ById(rows, DataTableId, links[i].datatableId).Some?)
      && (steps[i].Ok? ==>
            var t := ById(rows, DataTableId, links[i].datatableId).value;
            steps[i].value == CreateTable(t.name, Schema(t.columns)))
  {
    MapSeq(links, (l: LinkCreate) => TableStep(ById(rows, DataTableId, l.datatableId)))
  }

  /** `add_tables`: the node is the one of the first link's warehouse's
      project; an empty list or a warehouse without a project raises before
      any session; otherwise each link's table is created in turn until one fails. */
  method AddTables(db: Database, cluster: Cluster, links: seq<LinkCreate>) returns (r: Result<Status>)
    modifies cluster
    ensures cluster.live == old(cluster.live)
    ensures links == [] ==> r == Err(IndexError) && cluster.log == old(cluster.log)
    ensures links != [] && ProjectsRepo.ProjectByWarehouse(db.projects, db.warehouses, links[0].warehouseId).None? ==>
      r == Err(AttributeError("node_url")) && cluster.log == old(cluster.log)
    ensures links != [] && ProjectsRepo.ProjectByWarehouse(db.projects, db.warehouses, links[0].warehouseId).Some? ==>
      var run := Run(cluster.respond, CreateSteps(db.datatables, links));
      && cluster.log == old(cluster.log) + [Connect(ProjectsRepo.ProjectByWarehouse(db.projects, db.warehouses, links[0].warehouseId).value.nodeUrl)] + run.0
      && r == Ok(Outcome(run.1, "Tables created"))
  {
    if links == [] {
      return Err(IndexError);
    }
    var project := ProjectsRepo.ProjectByWarehouse(db.projects, db.warehouses, links[0].warehouseId);
    if project.None? {
      return Err(AttributeError("node_url"));
    }
    var steps := CreateSteps(db.datatables, links);
    cluster.Open(project.value.nodeUrl);
    var failure := cluster.SendAll(steps);
    cluster.Stop();
    r := Ok(Outcome(failure, "Tables created"));
  }

  /** When `add_tables` succeeds, every link's table exists and was created,
      in link order, with its own schema. */
  lemma AddTablesCreatesEveryTable(respond: Command -> Result<seq<string>>, rows: seq<DataTable>, links: seq<LinkCreate>)
    requires Run(respond, CreateSteps(rows, links)).1.None?
    ensures |Run(respond, CreateSteps(rows, links)).0| == |links|
    ensures forall i :: 0 <= i < |links| ==>
      && ById(rows, DataTableId, links[i].datatableId).Some?
      && Run(respond, CreateSteps(rows, links)).0[i] == CreateTable(ById(rows, DataTableId, links[i].datatableId).value.name,
                                                                   Schema(ById(rows, DataTableId, links[i].datatableId).value.columns))
  {
    var steps := CreateSteps(rows, links);
    forall i | 0 <= i < |links|
      ensures ById(rows, DataTableId, links[i].datatableId).Some?
    {
      assert steps[i] == Ok(Run(respond, steps).0[i]);
    }
  }

  /** The ingestion of every pair, in order; inline tables are skipped. */
  function PairSteps(extract: (string, string) -> Result<string>, pairs: seq<(Datasource, seq<DataTable>)>): (steps: seq<Result<Command>>)
    ensures (forall j :: 0 <= j < |pairs| ==> pairs[j].0.dsType == Datatable) ==> steps == []
    decreases |pairs|
  {
    if pairs == [] then []
    else
      (if pairs[0].0.dsType == Datatable then [] else IngestSteps(extract, pairs[0].0, pairs[0].1))
      + PairSteps(extract, pairs[1..])
  }

  /** The steps of two runs of pairs are the steps of their concatenation. */
  lemma {:induction false} PairStepsAppend(extract: (string, string) -> Result<string>, a: seq<(Datasource, seq<DataTable>)>, b: seq<(Datasource, seq<DataTable>)>)
    ensures PairSteps(extract, a + b) == PairSteps(extract, a) + PairSteps(extract, b)
    decreases |a|
  {
    if a != [] {
      assert (a + b)[1..] == a[1..] + b;
      PairStepsAppend(extract, a[1..], b);
    } else {
      assert a + b == b;
    }
  }

  /** Every datasource that is not an inline table gets its extract steps,
      in the order of the pairs: they sit in the plan right after the steps
      of the pairs before it. */
  lemma IngestCoversServerTables(extract: (string, string) -> Result<string>, pairs: seq<(Datasource, seq<DataTable>)>, j: nat)
    requires j < |pairs| && pairs[j].0.dsType != Datatable
    ensures var before := |PairSteps(extract, pairs[..j])|;
      var own := IngestSteps(extract, pairs[j].0, pairs[j].1);
      before + |own| <= |PairSteps(extract, pairs)| &&
      PairSteps(extract, pairs)[before..before + |own|] == own
  {
    var front, back := pairs[..j], pairs[j..];
    assert pairs == front + back;
    PairStepsAppend(extract, front, back);
    assert back[0] == pairs[j];
    var own := IngestSteps(extract, pairs[j].0, pairs[j].1);
    assert PairSteps(extract, back) == own + PairSteps(extract, back[1..]);
    MiddleSlice(PairSteps(extract, front), own, PairSteps(extract, back[1..]));
  }

  /** The middle part of a three-part concatenation is the slice after the first. */
  lemma MiddleSlice<T>(a: seq<T>, b: seq<T>, c: seq<T>)
    ensures |a| + |b| <= |a + (b + c)| && (a + (b + c))[|a|..|a| + |b|] == b
  {
    assert forall i :: 0 <= i < |b| ==> (a + (b + c))[|a| + i] == b[i];
  }

  /** A table of a datasource that is not an inline table. */
  predicate FromServer(pairs: seq<(Datasource, seq<DataTable>)>, name: string)
  {
    exists j, k :: 0 <= j < |pairs| && 0 <= k < |pairs[j].1| && pairs[j].0.dsType != Datatable && pairs[j].1[k].name == name
  }

  /** Ingestion only loads extracts, and only into tables of a datasource that
      lives on a server: an inline table is never touched. */
  lemma {:induction false} IngestSkipsInlineTables(extract: (string, string) -> Result<string>, pairs: seq<(Datasource, seq<DataTable>)>)
    ensures forall i :: 0 <= i < |PairSteps(extract, pairs)| && PairSteps(extract, pairs)[i].Ok? ==>
      PairSteps(extract, pairs)[i].value.Ingest? && FromServer(pairs, PairSteps(extract, pairs)[i].value.table)
    decreases |pairs|
  {
    if pairs != [] {
      IngestSkipsInlineTables(extract, pairs[1..]);
      var head: seq<Result<Command>> := if pairs[0].0.dsType == Datatable then [] else IngestSteps(extract, pairs[0].0, pairs[0].1);
      var tail := PairSteps(extract, pairs[1..]);
      forall i | 0 <= i < |head + tail| && (head + tail)[i].Ok?
        ensures (head + tail)[i].value.Ingest? && FromServer(pairs, (head + tail)[i].value.table)
      {
        if i < |head| {
          assert head[i] == (head + tail)[i];
          assert pairs[0].0.dsType != Datatable;
          assert ConnectionUrl(pairs[0].0).Ok?;
          assert pairs[0].1[i].name == head[i].value.table;
        } else {
          assert tail[i - |head|] == (head + tail)[i];
          var name := tail[i - |head|].value.table;
          var j, k :| 0 <= j < |pairs[1..]| && 0 <= k < |pairs[1..][j].1| && pairs[1..][j].0.dsType != Datatable && pairs[1..][j].1[k].name == name;
          assert pairs[j + 1] == pairs[1..][j];
        }
      }
    }
  }

  /** The commands `ingest_data` sends: the tables of every link are looked
      up, grouped by datasource, paired with their datasources, and ingested. */
  function IngestPlan(rows: seq<DataTable>, datasources: seq<Datasource>, extract: (string, string) -> Result<string>, links: seq<LinkCreate>): (r: Result<seq<Result<Command>>>)
    ensures r.Ok? ==> forall i :: 0 <= i < |links| ==> ById(rows, DataTableId, links[i].datatableId).Some?
  {
    match LinkedTables(rows, links)
    case Err(f) => Err(f)
    case Ok(tables) =>
      var g := Grouped(tables);
      match Paired(g.groups, DatasourcesById(datasources, g.keys))
      case Err(f) => Err(f)
      case Ok(pairs) => Ok(PairSteps(extract, pairs))
  }

  /** A lookup of the links' tables is the only way the plan can fail. */
  lemma IngestPlanFailsOnlyOnMissingTables(rows: seq<DataTable>, datasources: seq<Datasource>, extract: (string, string) -> Result<string>, links: seq<LinkCreate>)
    ensures IngestPlan(rows, datasources, extract, links).Err? <==>
      exists i :: 0 <= i < |links| && ById(rows, DataTableId, links[i].datatableId).None?
  {
    if LinkedTables(rows, links).Ok? {
      PairingNeverFails(datasources, LinkedTables(rows, links).value);
    }
  }

  /** The planning half of `ingest_data`: the links' tables are looked up,
      grouped by datasource and paired with their datasources. */
  method PlanIngest(rows: seq<DataTable>, datasources: seq<Datasource>, extract: (string, string) -> Result<string>, links: seq<LinkCreate>)
    returns (r: Result<seq<Result<Command>>>)
    ensures r == IngestPlan(rows, datasources, extract, links)
  {
    var found := LinkedTables(rows, links);
    if found.Err? {
      return Err(found.failure);
    }
    var g := GroupByDatasource(found.value);
    var pairs := PairWithTables(g.groups, DatasourcesById(datasources, g.keys));
    if pairs.Err? {
      return Err(pairs.failure);
    }
    return Ok(PairSteps(extract, pairs.value));
  }

  /** `ingest_data`: a missing project or table raises before any session;
      otherwise the extracts are loaded until one step fails. */
  method IngestData(db: Database, cluster: Cluster, extract: (string, string) -> Result<string>, projectId: nat, links: seq<LinkCreate>)
    returns (r: Result<Status>)
    modifies cluster
    ensures cluster.live == old(cluster.live)
    ensures NodeUrl(db.projects, projectId).Err? ==> r == Err(AttributeError("node_url")) && cluster.log == old(cluster.log)
    ensures NodeUrl(db.projects, projectId).Ok? && IngestPlan(db.datatables, db.datasources, extract, links).Err? ==>
      r == Err(IngestPlan(db.datatables, db.datasources, extract, links).failure) && cluster.log == old(cluster.log)
    ensures NodeUrl(db.projects, projectId).Ok? && IngestPlan(db.datatables, db.datasources, extract, links).Ok? ==>
      var run := Run(cluster.respond, IngestPlan(db.datatables, db.datasources, extract, links).value);
      && cluster.log == old(cluster.log) + [Connect(NodeUrl(db.projects, projectId).value)] + run.0
      && r == Ok(Outcome(run.1, "Data from tables ingested"))
  {
    var url := NodeUrl(db.projects, projectId);
    if url.Err? {
      return Err(url.failure);
    }
    var plan := PlanIngest(db.datatables, db.datasources, extract, links);
    if plan.Err? {
      return Err(plan.failure);
    }
    cluster.Open(url.value);
    var failure := cluster.SendAll(plan.value);
    cluster.Stop();
    r := Ok(Outcome(failure, "Data from tables ingested"));
  }

  /** An uploaded file: its name and its contents. */
  datatype Upload = Upload(filename: string, content: string)

  /** `write_data` reads a file as JSON when its extension is "json" in any
      case, and as CSV otherwise. */
  function UploadKind(filename: string): (k: FileKind)
    ensures k == Json <==> Lower(FileFormat(filename)) == "json"
  {
    if Lower(FileFormat(filename)) == "json" then Json else Csv
  }

  /** The upload check is case-sensitive while the reader is not: a ".JSON"
      file is refused by `validate_file` but read as JSON by `write_data`. */
  lemma UploadCaseDiffers()
    ensures ValidateFile("data.JSON").code == 400
    ensures UploadKind("data.JSON") == Json
  {
    assert "data.JSON" == "data" + "." + "JSON";
    FileFormatOf("data", "JSON");
    assert Lower("JSON") == "json";
  }

  /** What `write_data` sends for a table: the uploaded frame, or, without a
      file, the ingestion of the table from its datasource. */
  function WriteSteps(db: Database, extract: (string, string) -> Result<string>, table: DataTable, file: Option<Upload>): (steps: seq<Result<Command>>)
    reads db
    ensures file.Some? ==> steps == [Ok(WriteFrame(table.name, table.columns, Frame(UploadKind(file.value.filename), file.value.content)))]
    ensures file.None? && DatasourcesRepo.GetDatasource(db, table.datasourceId).None? ==> steps == [Err(AttributeError("ds_type"))]
    ensures file.None? && DatasourcesRepo.GetDatasource(db, table.datasourceId).Some? ==>
      steps == IngestSteps(extract, DatasourcesRepo.GetDatasource(db, table.datasourceId).value, [table])
  {
    match file
    case Some(u) => [Ok(WriteFrame(table.name, table.columns, Frame(UploadKind(u.filename), u.content)))]
    case None =>
      match DatasourcesRepo.GetDatasource(db, table.datasourceId)
      case None => [Err(AttributeError("ds_type"))]
      case Some(ds) => IngestSteps(extract, ds, [table])
  }

  /** `write_data`: a missing project raises and a missing table is a 404,
      both before any session; otherwise the table is written and the
      cluster's error, if any, is a 400. */
  method WriteData(db: Database, cluster: Cluster, extract: (string, string) -> Result<string>, projectId: nat, datatableId: nat, file: Option<Upload>)
    returns (r: Result<Reply>)
    modifies cluster
    ensures cluster.live == old(cluster.live)
    ensures NodeUrl(db.projects, projectId).Err? ==> r == Err(AttributeError("node_url")) && cluster.log == old(cluster.log)
    ensures NodeUrl(db.projects, projectId).Ok? && TableById(db, datatableId).None? ==>
      r == Ok(Reply(404, "Not found")) && cluster.log == old(cluster.log)
    ensures NodeUrl(db.projects, projectId).Ok? && TableById(db, datatableId).Some? ==>
      var run := Run(cluster.respond, WriteSteps(db, extract, TableById(db, datatableId).value, file));
      && cluster.log == old(cluster.log) + [Connect(NodeUrl(db.projects, projectId).value)] + run.0
      && r == Ok(if run.1.None? then Reply(200, "Data is written") else Reply(400, ErrorText(run.1.value)))
  {
    var url := NodeUrl(db.projects, projectId);
    if url.Err? {
      return Err(url.failure);
    }
    var table := TableById(db, datatableId);
    if table.None? {
      return Ok(Reply(404, "Not found"));
    }
    var steps := WriteSteps(db, extract, table.value, file);
    cluster.Open(url.value);
    var failure := cluster.SendAll(steps);
    cluster.Stop();
    r := Ok(if failure.None? then Reply(200, "Data is written") else Reply(400, ErrorText(failure.value)));
  }
}

=== FILE: service_warehouse.dfy ===
/** The warehouse service: a warehouse's table map becomes link records,
    its tables are created and filled on the project's cluster, and the
    links are stored. */
module WarehouseService {
  import opened Common
  import opened Strings
  import opened Store
  import opened SparkHelpers
  import WarehousesRepo
  import DatasourcesRepo
  import ProjectsRepo
  import QueryService

  /** The values of `DatatableType`. */
  predicate ValidRole(role: string)
  {
    role == "fact" || role == "dimension"
  }

  /** The link records of one role's ids, in order. */
  function RoleLinks(whId: nat, role: string, ids: seq<nat>): (r: seq<LinkCreate>)
    ensures |r| == |ids|
    ensures forall i :: 0 <= i < |ids| ==> r[i] == LinkCreate(whId, ids[i], role)
  {
    seq(|ids|, i requires 0 <= i < |ids| => LinkCreate(whId, ids[i], role))
  }

  /** The number of ids in a table map. */
  function CountIds(dts: RoleMap): nat
    decreases |dts|
  {
    if dts == [] then 0 else |dts[0].1| + CountIds(dts[1..])
  }

  /** `__parse_datatables`: one record per id, role by role in map order; the
      role is converted at its first id, so an unknown role fails only when it
      has ids. */
  function Parsed(whId: nat, dts: RoleMap): (r: Result<seq<LinkCreate>>)
    ensures r.Ok? <==> forall i :: 0 <= i < |dts| && dts[i].1 != [] ==> ValidRole(dts[i].0)
    ensures r.Err? ==> exists i :: 0 <= i < |dts| && dts[i].1 != [] && !ValidRole(dts[i].0)
                                    && r.failure == ValueError("'" + dts[i].0 + "' is not a valid DatatableType")
    ensures r.Ok? ==> |r.value| == CountIds(dts)
    ensures r.Ok? ==> forall l :: l in r.value ==> l.warehouseId == whId && ValidRole(l.dtType)
    ensures r.Ok? ==> forall i, k :: 0 <= i < |dts| && 0 <= k < |dts[i].1| ==> LinkCreate(whId, dts[i].1[k], dts[i].0) in r.value
    decreases |dts|
  {
    if dts == [] then Ok([])
    else
      var role, ids := dts[0].0, dts[0].1;
      var rest := Parsed(whId, dts[1..]);
      assert forall i :: 1 <= i < |dts| ==> dts[i] == dts[1..][i - 1];
      if ids != [] && !ValidRole(role) then Err(ValueError("'" + role + "' is not a valid DatatableType"))
      else
        var r := Prepend(RoleLinks(whId, role, ids), rest);
        assert r.Ok? ==> forall k :: 0 <= k < |ids| ==> r.value[k] == LinkCreate(whId, ids[k], role);
        assert r.Ok? ==> forall l :: l in r.value ==> l in RoleLinks(whId, role, ids) || l in rest.value;
        assert r.Ok? ==> forall i, k :: 1 <= i < |dts| && 0 <= k < |dts[i].1| ==> LinkCreate(whId, dts[i].1[k], dts[i].0) in rest.value by {
          if r.Ok? {
            forall i, k | 1 <= i < |dts| && 0 <= k < |dts[i].1|
              ensures LinkCreate(whId, dts[i].1[k], dts[i].0) in rest.value
            {
              assert dts[1..][i - 1] == dts[i];
            }
          }
        }
        r
  }

  /** One step of `Parsed`: the head role's records before the rest, or its failure. */
  lemma ParsedStep(whId: nat, dts: RoleMap)
    requires dts != []
    ensures Parsed(whId, dts) ==
      if dts[0].1 != [] && !ValidRole(dts[0].0) then Err(ValueError("'" + dts[0].0 + "' is not a valid DatatableType"))
      else Prepend(RoleLinks(whId, dts[0].0, dts[0].1), Parsed(whId, dts[1..]))
  {
  }

  /** The role a failed parse names is the first, in map order, that has ids
      and is not a `DatatableType`. */
  lemma {:induction false} ParsedFailsAtFirstInvalid(whId: nat, dts: RoleMap, i: nat)
    requires i < |dts| && dts[i].1 != [] && !ValidRole(dts[i].0)
    requires forall j :: 0 <= j < i ==> dts[j].1 == [] || ValidRole(dts[j].0)
    ensures Parsed(whId, dts) == Err(ValueError("'" + dts[i].0 + "' is not a valid DatatableType"))
    decreases i
  {
    ParsedStep(whId, dts);
    if i > 0 {
      assert dts[1..][i - 1] == dts[i];
      assert forall j :: 0 <= j < i - 1 ==> dts[1..][j] == dts[j + 1];
      ParsedFailsAtFirstInvalid(whId, dts[1..], i - 1);
    }
  }

  /** The inner loop of `__parse_datatables`: one role's ids appended to `tables`. */
  method AppendRole(tables: seq<LinkCreate>, whId: nat, role: string, ids: seq<nat>) returns (r: Result<seq<LinkCreate>>)
    ensures ids != [] && !ValidRole(role) ==> r == Err(ValueError("'" + role + "' is not a valid DatatableType"))
    ensures !(ids != [] && !ValidRole(role)) ==> r == Ok(tables + RoleLinks(whId, role, ids))
  {
    var out := tables;
    for k := 0 to |ids|
      invariant out == tables + RoleLinks(whId, role, ids[..k])
      invariant 0 < k ==> ValidRole(role)
    {
      if !ValidRole(role) {
        return Err(ValueError("'" + role + "' is not a valid DatatableType"));
      }
      assert RoleLinks(whId, role, ids[..k + 1]) == RoleLinks(whId, role, ids[..k]) + [LinkCreate(whId, ids[k], role)];
      out := out + [LinkCreate(whId, ids[k], role)];
    }
    assert ids[..|ids|] == ids;
    return Ok(out);
  }

  /** `__parse_datatables`, the outer loop over the roles. */
  method ParseDatatables(whId: nat, dts: RoleMap) returns (r: Result<seq<LinkCreate>>)
    ensures r == Parsed(whId, dts)
  {
    var tables: seq<LinkCreate> := [];
    assert dts[0..] == dts;
    PrependNil(Parsed(whId, dts));
    for i := 0 to |dts|
      invariant Prepend(tables, Parsed(whId, dts[i..])) == Parsed(whId, dts)
    {
      assert dts[i..][1..] == dts[i + 1..];
      ParsedStep(whId, dts[i..]);
      var next := AppendRole(tables, whId, dts[i].0, dts[i].1);
      if next.Err? {
        return next;
      }
      PrependAssoc(tables, RoleLinks(whId, dts[i].0, dts[i].1), Parsed(whId, dts[i + 1..]));
      tables := next.value;
    }
    assert tables + [] == tables;
    return Ok(tables);
  }

  /** The link rows `create_warehouse_tables` stores: ids from `n` on. */
  function NewLinks(n: nat, tables: seq<LinkCreate>): (rows: seq<Link>)
    ensures |rows| == |tables|
    ensures forall i :: 0 <= i < |tables| ==>
      rows[i] == Link(n + i, tables[i].warehouseId, tables[i].datatableId, tables[i].dtType)
  {
    seq(|tables|, i requires 0 <= i < |tables| => Link(n + i, tables[i].warehouseId, tables[i].datatableId, tables[i].dtType))
  }

  /** `create_warehouse_tables`: the records are stored as links with fresh ids. */
  method CreateLinks(db: Database, tables: seq<LinkCreate>) returns (rows: seq<Link>)
    modifies db`links, db`nextId
    ensures rows == NewLinks(old(db.nextId), tables)
    ensures db.links == old(db.links) + rows
    ensures db.nextId == old(db.nextId) + |tables|
  {
    rows := NewLinks(db.nextId, tables);
    db.links := db.links + rows;
    db.nextId := db.nextId + |tables|;
  }

  /** What `__add_datatables` returns when it does not raise: the message of
      a failed cluster job, or the stored links. */
  datatype Added = Refused(message: string) | Linked(rows: seq<Link>)

  /** `__add_datatables` as written: the call `ingest_data(tables)` leaves out
      the project id, so once the tables are created the call itself raises
      (the error text is the one Python 3.10 and later print). */
  method AddDatatablesAsWritten(db: Database, cluster: Cluster, wh: Warehouse, dts: RoleMap) returns (r: Result<Added>)
    modifies cluster
    ensures cluster.live == old(cluster.live)
    ensures !(r.Ok? && r.value.Linked?)
    ensures Parsed(wh.id, dts).Ok? && r.Ok? ==> r.value.Refused?
  {
    var tables := ParseDatatables(wh.id, dts);
    if tables.Err? {
      return Err(tables.failure);
    }
    var created := QueryService.AddTables(db, cluster, tables.value);
    if created.Err? {
      return Err(created.failure);
    }
    if !created.value.ok {
      return Ok(Refused(created.value.message));
    }
    return Err(TypeError("QueryService.ingest_data() missing 1 required positional argument: 'tables'"));
  }

  /** The tables of the parsed map were created and filled without error,
      against the stored projects, warehouses, tables and datasources. */
  predicate JobsSucceed(projects: seq<Project>, warehouses: seq<Warehouse>, rows: seq<DataTable>, datasources: seq<Datasource>,
                        respond: Command -> Result<seq<string>>, extract: (string, string) -> Result<string>, wh: Warehouse, tables: seq<LinkCreate>)
    ensures JobsSucceed(projects, warehouses, rows, datasources, respond, extract, wh, tables) ==>
      FailedJob(projects, rows, datasources, respond, extract, wh, tables).None?
  {
    && tables != []
    && ProjectsRepo.ProjectByWarehouse(projects, warehouses, tables[0].warehouseId).Some?
    && Run(respond, QueryService.CreateSteps(rows, tables)).1.None?
    && QueryService.NodeUrl(projects, wh.projectId).Ok?
    && QueryService.IngestPlan(rows, datasources, extract, tables).Ok?
    && Run(respond, QueryService.IngestPlan(rows, datasources, extract, tables).value).1.None?
  }

  /** The failure of the first cluster job that did not succeed: the table
      creation, else the ingestion; None when neither failed. */
  function FailedJob(projects: seq<Project>, rows: seq<DataTable>, datasources: seq<Datasource>,
                     respond: Command -> Result<seq<string>>, extract: (string, string) -> Result<string>, wh: Warehouse, tables: seq<LinkCreate>): Option<Failure>
  {
    var created := Run(respond, QueryService.CreateSteps(rows, tables)).1;
    if created.Some? then created
    else if QueryService.NodeUrl(projects, wh.projectId).Ok? && QueryService.IngestPlan(rows, datasources, extract, tables).Ok? then
      Run(respond, QueryService.IngestPlan(rows, datasources, extract, tables).value).1
    else None
  }

  /** The two cluster jobs of `__add_datatables`: the tables are created,
      then their data is ingested from the warehouse's project; a job that
      raises is the failure, a job that reports an error is its status. */
  method RunJobs(db: Database, cluster: Cluster, extract: (string, string) -> Result<string>, wh: Warehouse, tables: seq<LinkCreate>)
    returns (r: Result<QueryService.Status>)
    modifies cluster
    ensures cluster.live == old(cluster.live)
    ensures r.Ok? && r.value.ok <==> JobsSucceed(db.projects, db.warehouses, db.datatables, db.datasources, cluster.respond, extract, wh, tables)
    ensures r.Ok? && !r.value.ok ==>
      && FailedJob(db.projects, db.datatables, db.datasources, cluster.respond, extract, wh, tables).Some?
      && r.value.message == ErrorText(FailedJob(db.projects, db.datatables, db.datasources, cluster.respond, extract, wh, tables).value)
  {
    var created := QueryService.AddTables(db, cluster, tables);
    if created.Err? || !created.value.ok {
      return created;
    }
    r := QueryService.IngestData(db, cluster, extract, wh.projectId, tables);
  }

  /** The tail of `__add_datatables` for parsed records: the cluster jobs
      run, and the links are stored only when both succeed. */
  method LinkAfterJobs(db: Database, cluster: Cluster, extract: (string, string) -> Result<string>, wh: Warehouse, tables: seq<LinkCreate>)
    returns (r: Result<Added>)
    modifies db`links, db`nextId, cluster
    ensures cluster.live == old(cluster.live)
    ensures r.Ok? && r.value.Linked? <==> JobsSucceed(db.projects, db.warehouses, db.datatables, db.datasources, cluster.respond, extract, wh, tables)
    ensures r.Ok? && r.value.Linked? ==>
      && r.value.rows == NewLinks(old(db.nextId), tables)
      && db.links == old(db.links) + r.value.rows
      && db.nextId == old(db.nextId) + |r.value.rows|
    ensures !(r.Ok? && r.value.Linked?) ==> db.links == old(db.links) && db.nextId == old(db.nextId)
    ensures r.Ok? && r.value.Refused? ==>
      && FailedJob(db.projects, db.datatables, db.datasources, cluster.respond, extract, wh, tables).Some?
      && r.value.message == ErrorText(FailedJob(db.projects, db.datatables, db.datasources, cluster.respond, extract, wh, tables).value)
  {
    var jobs := RunJobs(db, cluster, extract, wh, tables);
    if jobs.Err? {
      return Err(jobs.failure);
    }
    if !jobs.value.ok {
      return Ok(Refused(jobs.value.message));
    }
    var rows := CreateLinks(db, tables);
    return Ok(Linked(rows));
  }

  /** `__add_datatables` as intended: parse the map, create the tables on the
      cluster, ingest their data from the warehouse's project, and only then
      store the links. */
  method AddDatatables(db: Database, cluster: Cluster, extract: (string, string) -> Result<string>, wh: Warehouse, dts: RoleMap)
    returns (r: Result<Added>)
    modifies db`links, db`nextId, cluster
    ensures cluster.live == old(cluster.live)
    ensures Parsed(wh.id, dts).Err? ==> r == Err(Parsed(wh.id, dts).failure)
    ensures r.Ok? && r.value.Linked? <==>
      Parsed(wh.id, dts).Ok? && JobsSucceed(db.projects, db.warehouses, db.datatables, db.datasources, cluster.respond, extract, wh, Parsed(wh.id, dts).value)
    ensures r.Ok? && r.value.Linked? ==>
      && r.value.rows == NewLinks(old(db.nextId), Parsed(wh.id, dts).value)
      && db.links == old(db.links) + r.value.rows
      && db.nextId == old(db.nextId) + |r.value.rows|
    ensures !(r.Ok? && r.value.Linked?) ==> db.links == old(db.links) && db.nextId == old(db.nextId)
    ensures r.Ok? && r.value.Refused? ==>
      && Parsed(wh.id, dts).Ok?
      && FailedJob(db.projects, db.datatables, db.datasources, cluster.respond, extract, wh, Parsed(wh.id, dts).value).Some?
      && r.value.message == ErrorText(FailedJob(db.projects, db.datatables, db.datasources, cluster.respond, extract, wh, Parsed(wh.id, dts).value).value)
  {
    var tables := ParseDatatables(wh.id, dts);
    if tables.Err? {
      return Err(tables.failure);
    }
    r := LinkAfterJobs(db, cluster, extract, wh, tables.value);
  }

  /** `validate_user_access` as written: 404 when no warehouse has the id,
      else 401 unless the owner equals `user.id`. The owner is a user record
      or None and the id is a plain value, so Python's `==` between them is
      never true and the 200 branch cannot be reached. */
  function ValidateAccessAsWritten(db: Database, user: User, whId: nat): (r: Reply)
    reads db
    ensures r.code == 404 <==> WarehousesRepo.GetWarehouse(db, whId).None?
    ensures r.code != 404 ==> r == Reply(401, "Unauthorized")
  {
    if WarehousesRepo.GetWarehouse(db, whId).None? then Reply(404, "Not found")
    else Reply(401, "Unauthorized")
  }

  /** As written, the warehouse's own owner is turned away. */
  lemma OwnerLockedOut(db: Database, user: User, whId: nat)
    requires WarehousesRepo.WarehouseOwner(db, whId) == Some(user)
    ensures ValidateAccessAsWritten(db, user, whId) == Reply(401, "Unauthorized")
  {
  }

  /** `validate_user_access` as intended: 404 when no warehouse has the id,
      401 unless its owner is the user, 200 otherwise. */
  function ValidateAccess(db: Database, user: User, whId: nat): (r: Reply)
    reads db
    ensures r.code == 404 <==> WarehousesRepo.GetWarehouse(db, whId).None?
    ensures r.code == 200 <==> WarehousesRepo.WarehouseOwner(db, whId) == Some(user)
    ensures r.code == 200 ==>
      DatasourcesRepo.OwnedBy(db.projects, WarehousesRepo.GetWarehouse(db, whId).value.projectId, user.id)
    ensures r == Reply(404, "Not found") || r == Reply(401, "Unauthorized") || r == Reply(200, "OK")
  {
    if WarehousesRepo.GetWarehouse(db, whId).None? then Reply(404, "Not found")
    else if WarehousesRepo.WarehouseOwner(db, whId) != Some(user) then Reply(401, "Unauthorized")
    else Reply(200, "OK")
  }

  /** With unique keys, the user who created the warehouse's project is let in. */
  lemma OwnerIsAdmitted(db: Database, user: User, whId: nat)
    requires Unique(db.projects, ProjectId) && Unique(db.users, UserId) && user in db.users
    requires WarehousesRepo.GetWarehouse(db, whId).Some?
    requires DatasourcesRepo.OwnedBy(db.projects, WarehousesRepo.GetWarehouse(db, whId).value.projectId, user.id)
    ensures ValidateAccess(db, user, whId) == Reply(200, "OK")
  {
    WarehousesRepo.OwnerIsCreator(db, whId, user);
  }

  /** `get_warehouse`: 400 when no warehouse has the id. */
  function GetWarehouse(db: Database, whId: nat): (r: Answer<Warehouse>)
    reads db
    ensures r.Message? <==> forall i :: 0 <= i < |db.warehouses| ==> db.warehouses[i].id != whId
    ensures r.Message? ==> r == Message(400, "Bad request")
    ensures r.Found? ==> r.value in db.warehouses && r.value.id == whId
  {
    match WarehousesRepo.GetWarehouse(db, whId)
    case None => Message(400, "Bad request")
    case Some(w) => Found(w)
  }

  /** `create_warehouse`: the row is stored first and stays whatever
      follows; a failed cluster job is a 400 with its message. */
  method CreateWarehouse(db: Database, cluster: Cluster, extract: (string, string) -> Result<string>, c: WarehousesRepo.WarehouseCreate)
    returns (r: Result<Reply>)
    modifies db`warehouses, db`links, db`nextId, cluster
    ensures cluster.live == old(cluster.live)
    ensures db.warehouses == old(db.warehouses) + [Warehouse(old(db.nextId), c.name, c.projectId)]
    ensures Parsed(old(db.nextId), c.datatables).Err? ==> r == Err(Parsed(old(db.nextId), c.datatables).failure)
    ensures r.Ok? && r.value.code == 200 ==>
      && r.value == Reply(200, Labelled("Warehouse", old(db.nextId), "created"))
      && db.links == old(db.links) + NewLinks(old(db.nextId) + 1, Parsed(old(db.nextId), c.datatables).value)
    ensures r.Ok? ==> r.value.code == 200 || r.value.code == 400
    ensures !(r.Ok? && r.value.code == 200) ==> db.links == old(db.links)
    ensures var wh, parsed := Warehouse(old(db.nextId), c.name, c.projectId), Parsed(old(db.nextId), c.datatables);
      r == Ok(Reply(200, Labelled("Warehouse", old(db.nextId), "created"))) <==>
        parsed.Ok? && JobsSucceed(db.projects, db.warehouses, db.datatables, db.datasources, cluster.respond, extract, wh, parsed.value)
    ensures var wh, parsed := Warehouse(old(db.nextId), c.name, c.projectId), Parsed(old(db.nextId), c.datatables);
      r.Ok? && r.value.code == 400 ==>
        && parsed.Ok? && FailedJob(db.projects, db.datatables, db.datasources, cluster.respond, extract, wh, parsed.value).Some?
        && r.value.detail == ErrorText(FailedJob(db.projects, db.datatables, db.datasources, cluster.respond, extract, wh, parsed.value).value)
  {
    ghost var rows := db.warehouses + [Warehouse(db.nextId, c.name, c.projectId)];
    ghost var links := db.links;
    var view := WarehousesRepo.CreateWarehouse(db, c);
    var wh := Warehouse(view.id, view.name, view.projectId);
    assert db.warehouses == rows && db.links == links;
    var added := AddDatatables(db, cluster, extract, wh, c.datatables);
    assert db.warehouses == rows;
    if added.Err? {
      return Err(added.failure);
    }
    match added.value {
      case Refused(message) =>
        return Ok(Reply(400, message));
      case Linked(_) =>
        return Ok(Reply(200, Labelled("Warehouse", wh.id, "created")));
    }
  }

  /** One record of `update_warehouse_tables` applied: the links of its
      warehouse and table take its role. */
  function Retype(links: seq<Link>, t: LinkCreate): (r: seq<Link>)
    ensures |r| == |links|
    ensures forall i :: 0 <= i < |links| ==>
      r[i] == if links[i].warehouseId == t.warehouseId && links[i].datatableId == t.datatableId
              then links[i].(dtType := t.dtType) else links[i]
  {
    MapSeq(links, (l: Link) => if l.warehouseId == t.warehouseId && l.datatableId == t.datatableId then l.(dtType := t.dtType) else l)
  }

  /** `update_warehouse_tables`: the records applied in order. */
  function RetypeAll(links: seq<Link>, tables: seq<LinkCreate>): (r: seq<Link>)
    ensures |r| == |links|
    ensures forall i :: 0 <= i < |links| ==> r[i].id == links[i].id && r[i].warehouseId == links[i].warehouseId
    decreases |tables|
  {
    if tables == [] then links else RetypeAll(Retype(links, tables[0]), tables[1..])
  }

  /** Retyping keeps every link where it is, with its id, warehouse and
      table; a link's role changes only to the role of a record naming its
      warehouse and table. */
  lemma {:induction false} RetypeAllKeepsLinks(links: seq<Link>, tables: seq<LinkCreate>)
    ensures |RetypeAll(links, tables)| == |links|
    ensures forall i :: 0 <= i < |links| ==>
      var l := RetypeAll(links, tables)[i];
      && l.id == links[i].id && l.warehouseId == links[i].warehouseId && l.datatableId == links[i].datatableId
      && (l.dtType == links[i].dtType
          || exists k :: 0 <= k < |tables| && tables[k] == LinkCreate(l.warehouseId, l.datatableId, l.dtType))
    decreases |tables|
  {
    if tables != [] {
      var once := Retype(links, tables[0]);
      RetypeAllKeepsLinks(once, tables[1..]);
      forall i | 0 <= i < |links|
        ensures var l := RetypeAll(links, tables)[i];
          l.dtType == links[i].dtType
          || exists k :: 0 <= k < |tables| && tables[k] == LinkCreate(l.warehouseId, l.datatableId, l.dtType)
      {
        var l := RetypeAll(links, tables)[i];
        if l.dtType != once[i].dtType {
          var k :| 0 <= k < |tables[1..]| && tables[1..][k] == LinkCreate(l.warehouseId, l.datatableId, l.dtType);
          assert tables[k + 1] == tables[1..][k];
        } else if once[i].dtType != links[i].dtType {
          assert tables[0] == LinkCreate(l.warehouseId, l.datatableId, l.dtType);
        }
      }
    }
  }

  /** `update_warehouse`: 400 when no warehouse has the id; otherwise the
      name is updated and, when a table map is supplied, the roles of the
      warehouse's links are set from it. */
  method UpdateWarehouse(db: Database, whId: nat, u: WarehousesRepo.WarehouseUpdate) returns (r: Result<Reply>)
    modifies db`warehouses, db`links
    ensures db.warehouses == UpdateById(old(db.warehouses), WarehouseId, whId, w => WarehousesRepo.ApplyUpdate(w, u))
    ensures old(WarehousesRepo.GetWarehouse(db, whId)).None? ==> r == Ok(Reply(400, "Bad request")) && db.links == old(db.links)
    ensures old(WarehousesRepo.GetWarehouse(db, whId)).Some? && u.datatables.None? ==>
      r == Ok(Reply(200, Labelled("Warehouse", whId, "updated, data table types changed"))) && db.links == old(db.links)
    ensures old(WarehousesRepo.GetWarehouse(db, whId)).Some? && u.datatables.Some? ==>
      var parsed := Parsed(whId, u.datatables.value);
      && (parsed.Err? ==> r == Err(parsed.failure) && db.links == old(db.links))
      && (parsed.Ok? ==>
            r == Ok(Reply(200, Labelled("Warehouse", whId, "updated, data table types changed")))
            && db.links == RetypeAll(old(db.links), parsed.value))
  {
    var updated := WarehousesRepo.UpdateWarehouse(db, whId, u);
    if updated.None? {
      return Ok(Reply(400, "Bad request"));
    }
    if u.datatables.Some? {
      var tables := ParseDatatables(updated.value.id, u.datatables.value);
      if tables.Err? {
        return Err(tables.failure);
      }
      db.links := RetypeAll(db.links, tables.value);
    }
    r := Ok(Reply(200, Labelled("Warehouse", whId, "updated, data table types changed")));
  }

  /** `delete_warehouse`: 400 when no warehouse has the id, else the row and its links go. */
  method DeleteWarehouse(db: Database, whId: nat) returns (r: Reply)
    modifies db`warehouses, db`links
    ensures db.Rows() == WarehousesRepo.DeleteWarehouseRows(old(db.Rows()), whId)
    ensures r.code == 400 <==> forall i :: 0 <= i < |old(db.warehouses)| ==> old(db.warehouses)[i].id != whId
    ensures r.code == 400 ==> r.detail == "Bad request"
    ensures r.code != 400 ==> r == Reply(200, Labelled("Warehouse", whId, "deleted"))
  {
    var deleted := WarehousesRepo.DeleteWarehouse(db, whId);
    if !deleted {
      return Reply(400, "Bad request");
    }
    r := Reply(200, Labelled("Warehouse", whId, "deleted"));
  }
}

=== FILE: spark_helpers.dfy ===
/** The Spark helpers: column typing, table schemas, the file format of an
    ingested extract, and the remote cluster, seen only through the sessions
    opened on it and the commands sent over them. */
module SparkHelpers {
  import opened Common
  import opened Strings
  import opened Databases
  import opened Store

  datatype SparkType = IntegerType | StringType | FloatType

  /** `get_column_type`: total; every name other than "int" and "float" is a string column. */
  function GetColumnType(columnType: string): (r: SparkType)
    ensures r == IntegerType <==> columnType == "int"
    ensures r == FloatType <==> columnType == "float"
    ensures r == StringType <==> columnType != "int" && columnType != "float"
  {
    if columnType == "int" then IntegerType
    else if columnType == "str" then StringType
    else if columnType == "float" then FloatType
    else StringType
  }

  /** Every base type of a descriptor gets its own Spark type. */
  lemma BaseTypesKeepTheirKind()
    ensures GetColumnType("int") == IntegerType
    ensures GetColumnType("str") == StringType
    ensures GetColumnType("float") == FloatType
    ensures forall t :: t in BaseTypes ==> (GetColumnType(t) == StringType <==> t == "str")
  {
  }

  datatype StructField = StructField(name: string, dataType: SparkType, nullable: bool)

  /** The schema `create_table` builds: one nullable field per column, in
      column order, named after it and typed through `GetColumnType`. */
  function Schema(columns: seq<ColumnInfo>): (schema: seq<StructField>)
    ensures |schema| == |columns|
    ensures forall i :: 0 <= i < |columns| ==>
      schema[i].name == columns[i].name && schema[i].dataType == GetColumnType(columns[i].columnType) && schema[i].nullable
  {
    MapSeq(columns, (c: ColumnInfo) => StructField(c.name, GetColumnType(c.columnType), true))
  }

  /** The schema of a concatenation is the concatenation of the schemas. */
  lemma SchemaAppend(a: seq<ColumnInfo>, b: seq<ColumnInfo>)
    ensures Schema(a + b) == Schema(a) + Schema(b)
  {
    MapSeqAppend(a, b, (c: ColumnInfo) => StructField(c.name, GetColumnType(c.columnType), true));
  }

  /** `filepath.split(".")[-1]`: the text after the last dot, or the whole path. */
  function FileFormat(path: string): string
  {
    AfterLast(path, '.')
  }

  /** The format never holds a dot; a path with a dot is its stem, a dot and
      the format, and a path without one is its own format. */
  lemma FileFormatIsExtension(path: string)
    ensures '.' !in FileFormat(path)
    ensures '.' in path ==> path == BeforeLast(path, '.') + "." + FileFormat(path)
    ensures '.' !in path ==> FileFormat(path) == path
  {
    LastPiece(path, '.');
    if '.' !in path {
      AfterLastWithoutSep(path, '.');
    }
  }

  lemma FileFormatOf(stem: string, ext: string)
    requires '.' !in ext
    ensures FileFormat(stem + "." + ext) == ext
  {
    AfterLastAppend(stem, '.', ext);
  }

  datatype FileKind = Json | Csv

  /** An uploaded file after parsing: its kind and its text. */
  datatype Frame = Frame(kind: FileKind, content: string)

  /** What a session asks of the cluster. */
  datatype Command =
    | Connect(url: string)                                            // open a session on the node
    | Sql(text: string)                                               // `spark.sql`
    | CreateTable(name: string, schema: seq<StructField>)             // an empty Delta table, overwritten
    | Ingest(format: string, path: string, table: string)             // load an extract and append it
    | WriteFrame(table: string, columns: seq<ColumnInfo>, frame: Frame)  // append an uploaded file

  /** The commands sent, up to and including the first that fails, and that
      failure; a step that is already a failure is raised before anything is sent. */
  function Run(respond: Command -> Result<seq<string>>, steps: seq<Result<Command>>): (r: (seq<Command>, Option<Failure>))
    ensures |r.0| <= |steps|
    ensures r.1.None? ==>
      |r.0| == |steps| && forall i :: 0 <= i < |steps| ==> steps[i] == Ok(r.0[i]) && respond(r.0[i]).Ok?
    decreases |steps|
  {
    if steps == [] then ([], None)
    else match steps[0]
      case Err(f) => ([], Some(f))
      case Ok(c) =>
        if respond(c).Err? then ([c], Some(respond(c).failure))
        else
          var rest := Run(respond, steps[1..]);
          assert forall i :: 1 <= i < |steps| ==> steps[i] == steps[1..][i - 1];
          ([c] + rest.0, rest.1)
  }

  /** The failure reported is the first one among the steps: every step
      before it was sent and succeeded, and exactly those were sent, plus the
      failing command when the failure came from the cluster. */
  lemma {:induction false} RunStopsAtFirstFailure(respond: Command -> Result<seq<string>>, steps: seq<Result<Command>>)
    requires Run(respond, steps).1.Some?
    ensures exists k :: (0 <= k < |steps|
      && (forall j :: 0 <= j < k ==> steps[j].Ok? && respond(steps[j].value).Ok?)
      && (if steps[k].Ok?
          then respond(steps[k].value).Err? && Run(respond, steps).1 == Some(respond(steps[k].value).failure) && |Run(respond, steps).0| == k + 1
          else Run(respond, steps).1 == Some(steps[k].failure) && |Run(respond, steps).0| == k))
    decreases |steps|
  {
    if steps[0].Ok? && respond(steps[0].value).Ok? {
      RunStopsAtFirstFailure(respond, steps[1..]);
      var k :| 0 <= k < |steps[1..]|
        && (forall j :: 0 <= j < k ==> steps[1..][j].Ok? && respond(steps[1..][j].value).Ok?)
        && (if steps[1..][k].Ok?
            then respond(steps[1..][k].value).Err? && Run(respond, steps[1..]).1 == Some(respond(steps[1..][k].value).failure) && |Run(respond, steps[1..]).0| == k + 1
            else Run(respond, steps[1..]).1 == Some(steps[1..][k].failure) && |Run(respond, steps[1..]).0| == k);
      assert forall j :: 0 <= j < k + 1 ==> steps[j].Ok? && respond(steps[j].value).Ok? by {
        forall j | 0 <= j < k + 1
          ensures steps[j].Ok? && respond(steps[j].value).Ok?
        {
          if j > 0 {
            assert steps[j] == steps[1..][j - 1];
          }
        }
      }
      assert steps[k + 1] == steps[1..][k];
    }
  }

  /** `ingest_data`: the datasource's URL is formatted first; then, table by
      table, `read_from_db` leaves an extract of the table in a file (here the
      `extract` parameter) and the file is loaded into the table in the
      format its extension names. */
  function IngestSteps(extract: (string, string) -> Result<string>, ds: Datasource, tables: seq<DataTable>): (steps: seq<Result<Command>>)
    ensures ConnectionUrl(ds).Err? ==> steps == [Err(ConnectionUrl(ds).failure)]
    ensures ConnectionUrl(ds).Ok? ==>
      var url := ConnectionUrl(ds).value;
      && |steps| == |tables|
      && forall i :: 0 <= i < |tables| ==>
        && (steps[i].Ok? <==> extract(url, tables[i].name).Ok?)
        && (steps[i].Err? ==> steps[i].failure == extract(url, tables[i].name).failure)
        && (steps[i].Ok? ==>
              && steps[i].value.Ingest?
              && steps[i].value.path == extract(url, tables[i].name).value
              && steps[i].value.table == tables[i].name
              && steps[i].value.format == FileFormat(steps[i].value.path)
              && '.' !in steps[i].value.format)
  {
    match ConnectionUrl(ds)
    case Err(f) => [Err(f)]
    case Ok(url) =>
      assert forall path :: '.' !in FileFormat(path) by {
        forall path: string
          ensures '.' !in FileFormat(path)
        {
          FileFormatIsExtension(path);
        }
      }
      MapSeq(tables, (t: DataTable) =>
        match extract(url, t.name)
        case Err(f) => Err(f)
        case Ok(path) => Ok(Ingest(FileFormat(path), path, t.name)))
  }

  /** The Spark cluster of a project's node. */
  class Cluster {
    /** How the cluster answers each command: rows as JSON text, or the error it raises. */
    const respond: Command -> Result<seq<string>>
    /** Sessions opened and not yet stopped. */
    var live: nat
    /** Every session opened and every command sent, in order. */
    var log: seq<Command>

    constructor (respond: Command -> Result<seq<string>>)
      ensures this.respond == respond && live == 0 && log == []
    {
      this.respond := respond;
      live, log := 0, [];
    }

    /** `setup_connection`: a new session on the node. */
    method Open(url: string)
      modifies `live, `log
      ensures live == old(live) + 1
      ensures log == old(log) + [Connect(url)]
    {
      live := live + 1;
      log := log + [Connect(url)];
    }

    /** One command over an open session, and the cluster's answer. */
    method Send(c: Command) returns (r: Result<seq<string>>)
      requires live > 0
      modifies `log
      ensures log == old(log) + [c]
      ensures r == respond(c)
    {
      log := log + [c];
      r := respond(c);
    }

    /** `spark_session.stop()`. */
    method Stop()
      requires live > 0
      modifies `live
      ensures live == old(live) - 1
    {
      live := live - 1;
    }

    /** The steps in order over an open session, stopping at the first
      failure, which is returned; None when every command succeeded. */
    method SendAll(steps: seq<Result<Command>>) returns (failure: Option<Failure>)
      requires live > 0
      modifies `log
      ensures log == old(log) + Run(respond, steps).0
      ensures failure == Run(respond, steps).1
    {
      ghost var sent: seq<Command> := [];
      assert steps[0..] == steps;
      assert [] + Run(respond, steps).0 == Run(respond, steps).0;
      var i := 0;
      while i < |steps|
        invariant 0 <= i <= |steps|
        invariant log == old(log) + sent
        invariant Run(respond, steps) == (sent + Run(respond, steps[i..]).0, Run(respond, steps[i..]).1)
      {
        assert steps[i..][1..] == steps[i + 1..];
        match steps[i] {
          case Err(f) =>
            assert sent + [] == sent;
            return Some(f);
          case Ok(c) =>
            var r := Send(c);
            if r.Err? {
              assert Run(respond, steps[i..]) == ([c], Some(r.failure));
              sent := sent + [c];
              return Some(r.failure);
            }
            ghost var rest := Run(respond, steps[i + 1..]);
            assert Run(respond, steps[i..]) == ([c] + rest.0, rest.1);
            assert sent + ([c] + rest.0) == (sent + [c]) + rest.0;
            sent := sent + [c];
            i := i + 1;
        }
      }
      assert sent + [] == sent;
      return None;
    }
  }
}

=== FILE: store.dfy ===
/** The application database: one sequence of rows per table, in insertion
    order, held by a `Database` object that the repositories update in place.
    Primary keys are natural numbers handed out by a counter, standing for
    the UUIDs and auto-increment ids the tables generate on insert. */
module Store {
  import opened Common
  import opened Databases
  import opened Strings

  datatype User = User(id: nat, username: string, email: string)

  datatype Project = Project(id: nat, name: string, nodeUrl: string, createdBy: nat)

  /** The kinds of datasource; `Datatable` is a table whose columns are given inline. */
  datatype DsType = Mysql | Postgresql | Mongodb | File | Api | Datatable
  {
    /** The enum's string value, which also names the URL scheme. */
    function Value(): string
    {
      match this
      case Mysql => "mysql"
      case Postgresql => "postgresql"
      case Mongodb => "mongodb"
      case File => "file"
      case Api => "api"
      case Datatable => "datatable"
    }
  }

  /** A configuration entry: text, or the column list of an inline table. */
  datatype ConfigValue = Text(text: string) | ColumnList(columns: seq<ColumnInfo>)

  datatype Datasource = Datasource(id: nat, name: string, projectId: nat, dsType: DsType, config: map<string, ConfigValue>)

  datatype DataTable = DataTable(id: nat, name: string, datasourceId: nat, columns: seq<ColumnInfo>)

  /** A table to be stored, before it has an id. */
  datatype DataTableCreate = DataTableCreate(name: string, datasourceId: nat, columns: seq<ColumnInfo>)

  datatype Warehouse = Warehouse(id: nat, name: string, projectId: nat)

  /** A row linking a data table into a warehouse under a role ("fact" or "dimension"). */
  datatype Link = Link(id: nat, warehouseId: nat, datatableId: nat, dtType: string)

  /** A link to be stored, before it has an id. */
  datatype LinkCreate = LinkCreate(warehouseId: nat, datatableId: nat, dtType: string)

  /** An ordered dictionary from a role to a list of ids. */
  type RoleMap = seq<(string, seq<nat>)>

  /** The rows of every table at one moment. */
  datatype Snapshot = Snapshot(
    users: seq<User>, projects: seq<Project>, datasources: seq<Datasource>,
    datatables: seq<DataTable>, warehouses: seq<Warehouse>, links: seq<Link>)

  class Database {
    var users: seq<User>
    var projects: seq<Project>
    var datasources: seq<Datasource>
    var datatables: seq<DataTable>
    var warehouses: seq<Warehouse>
    var links: seq<Link>
    /** The next primary key to hand out. */
    var nextId: nat

    constructor (users: seq<User>)
      ensures this.users == users
      ensures projects == [] && datasources == [] && datatables == []
      ensures warehouses == [] && links == [] && nextId == 0
    {
      this.users := users;
      projects, datasources, datatables := [], [], [];
      warehouses, links, nextId := [], [], 0;
    }

    function Rows(): Snapshot
      reads this
    {
      Snapshot(users, projects, datasources, datatables, warehouses, links)
    }
  }

  /** `str()` of one column of an inline table, a dictionary with the keys
      "name" and "type". */
  function ColumnText(c: ColumnInfo): string
  {
    "{'name': '" + c.name + "', 'type': '" + c.columnType + "'}"
  }

  /** What an f-string prints for a configuration entry: text as it is, a
      column list as Python prints a list of dictionaries. */
  function Formatted(v: ConfigValue): (r: string)
    ensures v.Text? ==> r == v.text
    ensures v.ColumnList? ==> |r| >= 2 && r[0] == '[' && r[|r| - 1] == ']'
  {
    match v
    case Text(s) => s
    case ColumnList(columns) => "[" + Join(MapSeq(columns, ColumnText), ", ") + "]"
  }

  /** `config[key]` inside an f-string: a missing key is a key error, and any
      present entry is printed. */
  function ConfigText(config: map<string, ConfigValue>, key: string): (r: Result<string>)
    ensures r.Ok? <==> key in config
    ensures r.Ok? ==> r.value == Formatted(config[key])
    ensures key !in config ==> r == Err(KeyError(key))
  {
    if key !in config then Err(KeyError(key)) else Ok(Formatted(config[key]))
  }

  /** `<type value>://<username>:<password>@<host>`, the entries read in that order. */
  function ConnectionUrl(ds: Datasource): (r: Result<string>)
    ensures r.Ok? <==> "username" in ds.config && "password" in ds.config && "host" in ds.config
    ensures r.Ok? ==> r.value == ds.dsType.Value() + "://" + Formatted(ds.config["username"])
                                 + ":" + Formatted(ds.config["password"]) + "@" + Formatted(ds.config["host"])
    ensures "username" !in ds.config ==> r == Err(KeyError("username"))
    ensures "username" in ds.config && "password" !in ds.config ==> r == Err(KeyError("password"))
    ensures "username" in ds.config && "password" in ds.config && "host" !in ds.config ==> r == Err(KeyError("host"))
  {
    match ConfigText(ds.config, "username")
    case Err(f) => Err(f)
    case Ok(user) =>
      match ConfigText(ds.config, "password")
      case Err(f) => Err(f)
      case Ok(password) =>
        match ConfigText(ds.config, "host")
        case Err(f) => Err(f)
        case Ok(host) => Ok(ds.dsType.Value() + "://" + user + ":" + password + "@" + host)
  }

  /** Text credentials are joined into the URL unchanged, and a column list
      under a credential does not stop the URL: it is printed into it. */
  lemma TextCredentialsInUrl(ds: Datasource, user: string, password: string, host: string)
    requires "username" in ds.config && "password" in ds.config && "host" in ds.config
    requires ds.config["password"] == Text(password) && ds.config["host"] == Text(host)
    ensures ds.config["username"] == Text(user) ==>
      ConnectionUrl(ds) == Ok(ds.dsType.Value() + "://" + user + ":" + password + "@" + host)
    ensures ds.config["username"].ColumnList? ==>
      && ConnectionUrl(ds).Ok?
      && ConnectionUrl(ds).value[|ds.dsType.Value()| + 3] == '['
  {
    if ds.config["username"].ColumnList? {
      var u := Formatted(ds.config["username"]);
      var prefix := ds.dsType.Value() + "://";
      assert ConnectionUrl(ds).value == prefix + (u + ":" + password + "@" + host);
      assert (u + ":" + password + "@" + host)[0] == u[0];
    }
  }

  function ById<T(==)>(rows: seq<T>, id: T -> nat, key: nat): (r: Option<T>)
    ensures r.Some? ==> r.value in rows && id(r.value) == key
    ensures r.None? <==> forall i :: 0 <= i < |rows| ==> id(rows[i]) != key
  {
    Find(rows, (x: T) => id(x) == key)
  }

  function ProjectId(p: Project): nat { p.id }
  function UserId(u: User): nat { u.id }
  function DatasourceId(d: Datasource): nat { d.id }
  function DataTableId(t: DataTable): nat { t.id }
  function WarehouseId(w: Warehouse): nat { w.id }

  /** The key `id` is a primary key of `rows`: no two rows share a value. */
  predicate Unique<T>(rows: seq<T>, id: T -> nat)
  {
    forall i, j :: 0 <= i < |rows| && 0 <= j < |rows| && id(rows[i]) == id(rows[j]) ==> i == j
  }

  /** The rows left by `DELETE ... WHERE id = key`. */
  function DeleteById<T>(rows: seq<T>, id: T -> nat, key: nat): seq<T>
  {
    Filter(rows, (x: T) => id(x) != key)
  }

  /** A delete removes exactly the rows with the key: the others stay, in
      order, it shortens the table exactly when some row had the key, and a
      second delete of the same key removes nothing more. */
  lemma {:induction false} DeleteByIdRemovesExactly<T>(rows: seq<T>, id: T -> nat, key: nat)
    ensures forall i :: 0 <= i < |DeleteById(rows, id, key)| ==> id(DeleteById(rows, id, key)[i]) != key
    ensures forall x :: x in rows && id(x) != key ==> x in DeleteById(rows, id, key)
    ensures |DeleteById(rows, id, key)| < |rows| <==> exists i :: 0 <= i < |rows| && id(rows[i]) == key
    ensures DeleteById(DeleteById(rows, id, key), id, key) == DeleteById(rows, id, key)
    decreases |rows|
  {
    if rows != [] {
      DeleteByIdRemovesExactly(rows[1..], id, key);
      assert forall x :: x in rows <==> x == rows[0] || x in rows[1..];
      var kept := DeleteById(rows[1..], id, key);
      if id(rows[0]) != key {
        assert DeleteById(rows, id, key) == [rows[0]] + kept;
        assert ([rows[0]] + kept)[1..] == kept;
        assert DeleteById([rows[0]] + kept, id, key) == [rows[0]] + DeleteById(kept, id, key);
        assert (exists i :: 0 <= i < |rows| && id(rows[i]) == key)
           <==> (exists i :: 0 <= i < |rows[1..]| && id(rows[1..][i]) == key) by {
          if exists i :: 0 <= i < |rows| && id(rows[i]) == key {
            var i :| 0 <= i < |rows| && id(rows[i]) == key;
            assert id(rows[1..][i - 1]) == key;
          }
        }
      } else {
        assert DeleteById(rows, id, key) == kept;
      }
    }
  }

  /** The rows after `UPDATE ... WHERE id = key`: `f` applied to the rows with the key. */
  function UpdateById<T>(rows: seq<T>, id: T -> nat, key: nat, f: T -> T): (r: seq<T>)
    ensures |r| == |rows|
    ensures forall i :: 0 <= i < |rows| ==> r[i] == if id(rows[i]) == key then f(rows[i]) else rows[i]
  {
    MapSeq(rows, (x: T) => if id(x) == key then f(x) else x)
  }

  /** An optional field of a partial update: the given value, or the current one. */
  function Pick<T>(given: Option<T>, current: T): T
  {
    if given.Some? then given.value else current
  }
}

=== FILE: strings.dfy ===
/** Python's string operations the core relies on, over `seq<char>`:
    `split` on one character or on a substring, `join`, `startswith`,
    ASCII `lower()`, slicing off the last character, and decimal rendering
    of identifiers inside messages. */
module Strings {

  /** `s.split(sep)` for a one-character separator: never empty. */
  function Split(s: string, sep: char): (parts: seq<string>)
    ensures |parts| >= 1
    decreases |s|
  {
    if s == [] then [[]]
    else
      var rest := Split(s[1..], sep);
      if s[0] == sep then [[]] + rest
      else [[s[0]] + rest[0]] + rest[1..]
  }

  /** `sep.join(parts)`. */
  function Join(parts: seq<string>, sep: string): string
    decreases |parts|
  {
    if parts == [] then []
    else if |parts| == 1 then parts[0]
    else parts[0] + sep + Join(parts[1..], sep)
  }

  /** Joining the pieces of a split with its separator gives the string back. */
  lemma {:induction false} JoinSplit(s: string, sep: char)
    ensures Join(Split(s, sep), [sep]) == s
    decreases |s|
  {
    if s != [] {
      JoinSplit(s[1..], sep);
      var rest := Split(s[1..], sep);
      if s[0] == sep {
        assert ([[]] + rest)[1..] == rest;
        assert s == [sep] + s[1..];
      } else {
        var parts := [[s[0]] + rest[0]] + rest[1..];
        if |rest| == 1 {
          assert Join(parts, [sep]) == [s[0]] + rest[0];
          assert s == [s[0]] + s[1..];
        } else {
          assert parts[1..] == rest[1..];
          assert Join(rest, [sep]) == rest[0] + [sep] + Join(rest[1..], [sep]);
          assert s == [s[0]] + s[1..];
        }
      }
    }
  }

  /** No piece of a split contains the separator. */
  lemma {:induction false} SplitPiecesAvoidSep(s: string, sep: char)
    ensures forall i :: 0 <= i < |Split(s, sep)| ==> sep !in Split(s, sep)[i]
    decreases |s|
  {
    if s != [] {
      SplitPiecesAvoidSep(s[1..], sep);
      var rest := Split(s[1..], sep);
      if s[0] != sep {
        assert sep !in rest[0];
        assert sep !in [s[0]] + rest[0];
      }
    }
  }

  /** The first piece of a split is the text before the first separator. */
  lemma {:induction false} SplitFirstPiece(a: string, sep: char, b: string)
    requires sep !in a
    ensures Split(a + [sep] + b, sep)[0] == a
    decreases |a|
  {
    if a == [] {
      assert ([] + [sep] + b)[1..] == b;
    } else {
      assert (a + [sep] + b)[1..] == a[1..] + [sep] + b;
      SplitFirstPiece(a[1..], sep, b);
      assert [a[0]] + a[1..] == a;
    }
  }

  lemma {:induction false} JoinSnoc(parts: seq<string>, x: string, sep: string)
    requires parts != []
    ensures Join(parts + [x], sep) == Join(parts, sep) + sep + x
    decreases |parts|
  {
    if |parts| == 1 {
      assert (parts + [x])[1..] == [x];
    } else {
      assert (parts + [x])[1..] == parts[1..] + [x];
      JoinSnoc(parts[1..], x, sep);
    }
  }

  /** `s.split(sep)[-1]`: the text after the last separator, or all of `s`. */
  function AfterLast(s: string, sep: char): string
  {
    var parts := Split(s, sep);
    parts[|parts| - 1]
  }

  /** The text before the last separator. */
  function BeforeLast(s: string, sep: char): string
  {
    var parts := Split(s, sep);
    Join(parts[..|parts| - 1], [sep])
  }

  /** A split has more than one piece exactly when the separator occurs. */
  lemma {:induction false} SplitCountsSep(s: string, sep: char)
    ensures (|Split(s, sep)| == 1) <==> sep !in s
    decreases |s|
  {
    if s != [] {
      SplitCountsSep(s[1..], sep);
      assert s == [s[0]] + s[1..];
    }
  }

  /** A string without the separator splits into itself alone. */
  lemma SplitWithoutSep(s: string, sep: char)
    requires sep !in s
    ensures Split(s, sep) == [s]
  {
    SplitCountsSep(s, sep);
    JoinSplit(s, sep);
  }

  /** A string holding the separator is its text before the last separator,
      the separator, and its text after the last separator. */
  lemma AroundLast(s: string, sep: char)
    requires sep in s
    ensures s == BeforeLast(s, sep) + [sep] + AfterLast(s, sep)
    ensures sep !in AfterLast(s, sep)
  {
    var parts := Split(s, sep);
    JoinSplit(s, sep);
    SplitPiecesAvoidSep(s, sep);
    SplitCountsSep(s, sep);
    assert parts == parts[..|parts| - 1] + [parts[|parts| - 1]];
    JoinSnoc(parts[..|parts| - 1], parts[|parts| - 1], [sep]);
  }

  /** The last piece never holds the separator; when the separator occurs,
      the string is the text before it, the separator and the last piece. */
  lemma LastPiece(s: string, sep: char)
    ensures sep !in AfterLast(s, sep)
    ensures sep in s ==> s == BeforeLast(s, sep) + [sep] + AfterLast(s, sep)
  {
    SplitPiecesAvoidSep(s, sep);
    if sep in s {
      AroundLast(s, sep);
    }
  }

  /** A string without the separator is its own last piece. */
  lemma AfterLastWithoutSep(s: string, sep: char)
    requires sep !in s
    ensures AfterLast(s, sep) == s
  {
    JoinSplit(s, sep);
    SplitCountsSep(s, sep);
  }

  /** The last piece of `b + [sep] + d`, when `d` has no separator, is `d`. */
  lemma {:induction false} AfterLastAppend(b: string, sep: char, d: string)
    requires sep !in d
    ensures AfterLast(b + [sep] + d, sep) == d
    decreases |b|
  {
    var s := b + [sep] + d;
    if b == [] {
      assert s[1..] == d;
      AfterLastWithoutSep(d, sep);
      SplitCountsSep(d, sep);
    } else {
      assert s[1..] == b[1..] + [sep] + d;
      AfterLastAppend(b[1..], sep, d);
      SplitCountsSep(s[1..], sep);
      assert sep in s[1..] by { assert s[1..][|b| - 1] == sep; }
    }
  }

  /** Splitting `b + [sep] + d` at its last separator gives back `b` and `d`. */
  lemma LastSepSplit(b: string, sep: char, d: string)
    requires sep !in d
    ensures AfterLast(b + [sep] + d, sep) == d
    ensures BeforeLast(b + [sep] + d, sep) == b
  {
    var s := b + [sep] + d;
    AfterLastAppend(b, sep, d);
    assert s[|b|] == sep;
    AroundLast(s, sep);
    assert |BeforeLast(s, sep)| == |b|;
    assert BeforeLast(s, sep) == s[..|b|];
  }

  /** `s.startswith(prefix)`. */
  predicate StartsWith(s: string, prefix: string)
  {
    |prefix| <= |s| && s[..|prefix|] == prefix
  }

  /** `s.split(pat)[0]` for a non-empty `pat`: the text before the first
      occurrence of `pat`, or all of `s` when there is none. */
  function PrefixBefore(s: string, pat: string): string
    requires |pat| > 0
    decreases |s|
  {
    if StartsWith(s, pat) then []
    else if s == [] then []
    else [s[0]] + PrefixBefore(s[1..], pat)
  }

  /** When the first occurrence of `pat` in `a + pat + rest` is the one after
      `a`, the text before it is `a`. */
  lemma {:induction false} PrefixBeforeAt(a: string, pat: string, rest: string)
    requires |pat| > 0
    requires forall k :: 0 <= k < |a| ==> !StartsWith((a + pat + rest)[k..], pat)
    ensures PrefixBefore(a + pat + rest, pat) == a
    decreases |a|
  {
    var s := a + pat + rest;
    if a == [] {
      assert s[..|pat|] == pat;
    } else {
      assert s[0..] == s;
      assert !StartsWith(s, pat);
      assert s[1..] == a[1..] + pat + rest;
      forall k | 0 <= k < |a[1..]|
        ensures !StartsWith((a[1..] + pat + rest)[k..], pat)
      {
        assert (a[1..] + pat + rest)[k..] == s[k + 1..];
      }
      PrefixBeforeAt(a[1..], pat, rest);
      assert [a[0]] + a[1..] == a;
    }
  }

  /** `s[:-1]`: all but the last character; the empty string stays empty. */
  function DropLast(s: string): string
  {
    if s == [] then [] else s[..|s| - 1]
  }

  /** `c.lower()` restricted to ASCII letters. */
  function LowerChar(c: char): char
  {
    if 'A' <= c <= 'Z' then (c as int + 32) as char else c
  }

  /** `s.lower()` restricted to ASCII letters. */
  function Lower(s: string): (r: string)
    ensures |r| == |s|
  {
    seq(|s|, i requires 0 <= i < |s| => LowerChar(s[i]))
  }

  lemma LowerIdempotent(s: string)
    ensures Lower(Lower(s)) == Lower(s)
  {
    assert forall i :: 0 <= i < |s| ==> LowerChar(LowerChar(s[i])) == LowerChar(s[i]);
  }

  /** Lower-casing does not move a separator that is not a letter, so it
      commutes with splitting on it. */
  lemma LowerCons(c: char, t: string)
    ensures Lower([c] + t) == [LowerChar(c)] + Lower(t)
  {
  }

  lemma LowerUncons(s: string)
    requires s != []
    ensures Lower(s) == [LowerChar(s[0])] + Lower(s[1..])
  {
    assert s == [s[0]] + s[1..];
    LowerCons(s[0], s[1..]);
  }

  lemma MapLowerCons(x: string, xs: seq<string>)
    ensures MapLower([x] + xs) == [Lower(x)] + MapLower(xs)
  {
  }

  /** One step of `Split` on a non-empty string. */
  lemma SplitUncons(s: string, sep: char)
    requires s != []
    ensures Split(s, sep) == if s[0] == sep then [[]] + Split(s[1..], sep)
                             else [[s[0]] + Split(s[1..], sep)[0]] + Split(s[1..], sep)[1..]
  {
  }

  lemma {:induction false} LowerSplit(s: string, sep: char)
    requires !('A' <= sep <= 'Z') && !('a' <= sep <= 'z')
    ensures Split(Lower(s), sep) == MapLower(Split(s, sep))
    decreases |s|
  {
    if s != [] {
      var rest := Split(s[1..], sep);
      var c := LowerChar(s[0]);
      LowerSplit(s[1..], sep);
      LowerUncons(s);
      var l := Lower(s);
      assert l != [] && l[0] == c && l[1..] == Lower(s[1..]);
      SplitUncons(s, sep);
      SplitUncons(l, sep);
      assert (c == sep) == (s[0] == sep);
      if s[0] != sep {
        MapLowerCons(rest[0], rest[1..]);
        assert rest == [rest[0]] + rest[1..];
        LowerCons(s[0], rest[0]);
        MapLowerCons([s[0]] + rest[0], rest[1..]);
      } else {
        MapLowerCons([], rest);
      }
    }
  }

  function MapLower(parts: seq<string>): (r: seq<string>)
    ensures |r| == |parts|
  {
    seq(|parts|, i requires 0 <= i < |parts| => Lower(parts[i]))
  }

  function DigitChar(d: nat): char
    requires d < 10
  {
    "0123456789"[d]
  }

  /** The decimal text of an identifier, as an f-string renders it. */
  function NatToString(n: nat): (r: string)
    ensures |r| >= 1
    ensures forall i :: 0 <= i < |r| ==> '0' <= r[i] <= '9'
  {
    if n < 10 then [DigitChar(n)] else NatToString(n / 10) + [DigitChar(n % 10)]
  }

  /** `f"{kind}(id={id}) {what}"`, the message a service sends after a change. */
  function Labelled(kind: string, id: nat, what: string): string
  {
    kind + "(id=" + NatToString(id) + ") " + what
  }
}

=== FILE: users_router.dfy ===
/** The users router's `get_current_user`: the checks made on a bearer
    token's decoded payload before the signed-in user is looked up. */
module UsersRouter {
  import opened Common
  import opened Store

  /** The claims read from a decoded token: `exp`, as the integer `int()`
      makes of it, and `sub`, the user's e-mail address. */
  datatype Payload = Payload(exp: Option<int>, sub: Option<string>)

  /** `payload.get("exp") or 0`: a missing or zero expiry counts as 0. */
  function Expiry(p: Payload): (e: int)
    ensures p.exp.None? ==> e == 0
    ensures p.exp.Some? ==> e == p.exp.value
  {
    match p.exp
    case None => 0
    case Some(e) => e
  }

  /** `get_user_by_email`: the first user with that address, or None. */
  function UserByEmail(db: Database, email: string): (r: Option<User>)
    reads db
    ensures r.Some? ==> r.value in db.users && r.value.email == email
    ensures r.None? <==> forall i :: 0 <= i < |db.users| ==> db.users[i].email != email
    ensures r.Some? ==> exists i :: 0 <= i < |db.users| && db.users[i] == r.value
                                    && forall j :: 0 <= j < i ==> db.users[j].email != email
  {
    Find(db.users, (u: User) => u.email == email)
  }

  /** `get_current_user`, after the token is decoded (None when decoding
      fails) at the time `now`: the credentials error for a token that does
      not decode, "Token expired" unless the expiry lies after `now`, the
      credentials error again for a missing subject or an unknown address,
      and otherwise the first user with the subject's address. */
  function GetCurrentUser(db: Database, decoded: Option<Payload>, now: real): (r: Answer<User>)
    reads db
    ensures r.Message? ==> r.code == 401
    ensures decoded.None? ==> r == Message(401, "Could not validate credentials")
    ensures decoded.Some? ==> (r == Message(401, "Token expired") <==> Expiry(decoded.value) as real <= now)
    ensures r.Found? <==>
      && decoded.Some? && Expiry(decoded.value) as real > now
      && decoded.value.sub.Some?
      && exists i :: 0 <= i < |db.users| && db.users[i].email == decoded.value.sub.value
    ensures r.Found? ==> r.value in db.users && r.value.email == decoded.value.sub.value
    ensures r.Message? && r.detail != "Token expired" ==> r.detail == "Could not validate credentials"
  {
    match decoded
    case None => Message(401, "Could not validate credentials")
    case Some(p) =>
      if Expiry(p) as real <= now then Message(401, "Token expired")
      else match p.sub
        case None => Message(401, "Could not validate credentials")
        case Some(email) =>
          match UserByEmail(db, email)
          case None => Message(401, "Could not validate credentials")
          case Some(u) => Found(u)
  }

  /** The expiry is checked first: a token without `exp` is refused as
      expired at any time since the epoch, whether or not it names a
      subject. */
  lemma MissingExpiryIsExpired(db: Database, sub: Option<string>, now: real)
    requires now >= 0.0
    ensures GetCurrentUser(db, Some(Payload(None, sub)), now) == Message(401, "Token expired")
  {
  }
}

=== FILE: validation.dfy ===
/** The sign-up password policy: five composition rules, every violated one
    reported, in a fixed order. Character classes are the ASCII ones. */
module PasswordValidation {
  import opened Strings

  /** The five rules, named after what a valid password does. */
  datatype Rule = MinLength | NoSpaces | HasUppercase | HasNumber | NoSpecialCharacters

  /** The order in which violated rules are reported. */
  const RuleOrder: seq<Rule> := [MinLength, NoSpaces, HasUppercase, HasNumber, NoSpecialCharacters]

  const Prefix: string := "Password must: "
  const Accepted: string := "Password is valid"

  function Message(r: Rule): string
  {
    match r
    case MinLength => "be at least 8 characters long"
    case NoSpaces => "not contain spaces"
    case HasUppercase => "contain an uppercase letter"
    case HasNumber => "contain a number"
    case NoSpecialCharacters => "not contain any special characters (!@#$%^&*()-+?_=,<>/)"
  }

  /** Position of a rule in the report order. */
  function Rank(r: Rule): nat
  {
    match r
    case MinLength => 0
    case NoSpaces => 1
    case HasUppercase => 2
    case HasNumber => 3
    case NoSpecialCharacters => 4
  }

  /** `str.isspace()` on ASCII: tab to carriage return, the four separators, space. */
  predicate IsSpace(c: char)
  {
    c == ' ' || 9 <= c as int <= 13 || 28 <= c as int <= 31
  }

  predicate IsUpper(c: char) { 'A' <= c <= 'Z' }

  predicate IsDecimal(c: char) { '0' <= c <= '9' }

  /** Membership in `ascii_letters + digits`. */
  predicate IsAsciiLetterOrDigit(c: char)
  {
    'a' <= c <= 'z' || 'A' <= c <= 'Z' || '0' <= c <= '9'
  }

  predicate HasSpace(pwd: string) { exists i | 0 <= i < |pwd| :: IsSpace(pwd[i]) }

  predicate HasUpper(pwd: string) { exists i | 0 <= i < |pwd| :: IsUpper(pwd[i]) }

  predicate HasDecimal(pwd: string) { exists i | 0 <= i < |pwd| :: IsDecimal(pwd[i]) }

  /** The set difference with `ascii_letters + digits` is non-empty. */
  predicate HasSpecial(pwd: string) { exists i | 0 <= i < |pwd| :: !IsAsciiLetterOrDigit(pwd[i]) }

  predicate Violates(pwd: string, r: Rule)
  {
    match r
    case MinLength => |pwd| < 8
    case NoSpaces => HasSpace(pwd)
    case HasUppercase => !HasUpper(pwd)
    case HasNumber => !HasDecimal(pwd)
    case NoSpecialCharacters => HasSpecial(pwd)
  }

  /** The rules of `rules` that `pwd` violates, in the order of `rules`. */
  function ViolatedAmong(rules: seq<Rule>, pwd: string): seq<Rule>
  {
    if rules == [] then []
    else (if Violates(pwd, rules[0]) then [rules[0]] else []) + ViolatedAmong(rules[1..], pwd)
  }

  function Violations(pwd: string): seq<Rule>
  {
    ViolatedAmong(RuleOrder, pwd)
  }

  function Messages(rules: seq<Rule>): (msgs: seq<string>)
    ensures |msgs| == |rules|
  {
    seq(|rules|, i requires 0 <= i < |rules| => Message(rules[i]))
  }

  /** `validate_password`: the messages are collected one rule at a time. */
  method ValidatePassword(pwd: string) returns (valid: bool, detail: string)
    ensures valid <==> forall r :: !Violates(pwd, r)
    ensures valid ==> detail == Accepted
    ensures !valid ==> detail == Prefix + Join(Messages(Violations(pwd)), ", ")
  {
    var msgs := CollectMessages(pwd);
    ReportsEveryViolation(pwd);
    if |msgs| > 0 {
      assert Violates(pwd, Violations(pwd)[0]);
      return false, Prefix + Join(msgs, ", ");
    }
    return true, Accepted;
  }

  /** The checks of `validate_password`, in their order in the source. */
  method CollectMessages(pwd: string) returns (msgs: seq<string>)
    ensures msgs == Messages(Violations(pwd))
  {
    assert RuleOrder[..0] == [] && Messages([]) == [];
    msgs := CheckRule(pwd, 0, []);     // len(password) < 8
    msgs := CheckRule(pwd, 1, msgs);   // any whitespace
    msgs := CheckRule(pwd, 2, msgs);   // no uppercase letter
    msgs := CheckRule(pwd, 3, msgs);   // no decimal digit
    msgs := CheckRule(pwd, 4, msgs);   // outside ascii_letters + digits
    ReportPrefix(4, pwd);
  }

  /** One check of `validate_password`: the message of the `k`-th rule of
      the report order is appended exactly when the password violates it. */
  method CheckRule(pwd: string, k: nat, msgs: seq<string>) returns (msgs': seq<string>)
    requires k < |RuleOrder|
    requires msgs == Messages(ViolatedAmong(RuleOrder[..k], pwd))
    ensures msgs' == msgs + (if Violates(pwd, RuleOrder[k]) then [Message(RuleOrder[k])] else [])
    ensures msgs' == Messages(ViolatedAmong(RuleOrder[..k + 1], pwd))
  {
    ReportPrefix(k, pwd);
    var r := RuleOrder[k];
    if Violates(pwd, r) {
      MessagesSnoc(ViolatedAmong(RuleOrder[..k], pwd), r);
      msgs' := msgs + [Message(r)];
    } else {
      assert msgs + [] == msgs;
      msgs' := msgs;
    }
  }

  lemma MessagesSnoc(rules: seq<Rule>, r: Rule)
    ensures Messages(rules + [r]) == Messages(rules) + [Message(r)]
  {
  }

  /** Checking one more rule of the report order extends the report by that
      rule exactly when it is violated. */
  lemma ReportPrefix(k: nat, pwd: string)
    requires k < |RuleOrder|
    ensures ViolatedAmong(RuleOrder[..k + 1], pwd)
         == ViolatedAmong(RuleOrder[..k], pwd) + (if Violates(pwd, RuleOrder[k]) then [RuleOrder[k]] else [])
    ensures k + 1 == |RuleOrder| ==> ViolatedAmong(RuleOrder[..k + 1], pwd) == Violations(pwd)
  {
    assert RuleOrder[..k + 1] == RuleOrder[..k] + [RuleOrder[k]];
    ViolatedAmongSnoc(RuleOrder[..k], RuleOrder[k], pwd);
    assert RuleOrder[..|RuleOrder|] == RuleOrder;
  }

  lemma {:induction false} ViolatedAmongSnoc(rules: seq<Rule>, r: Rule, pwd: string)
    ensures ViolatedAmong(rules + [r], pwd)
         == ViolatedAmong(rules, pwd) + (if Violates(pwd, r) then [r] else [])
    decreases |rules|
  {
    var last := if Violates(pwd, r) then [r] else [];
    if rules == [] {
      assert ([] + [r])[1..] == [];
      assert ViolatedAmong([r], pwd) == last + ViolatedAmong([], pwd);
      assert ViolatedAmong(rules, pwd) + last == last;
    } else {
      var head := if Violates(pwd, rules[0]) then [rules[0]] else [];
      assert (rules + [r])[0] == rules[0];
      assert (rules + [r])[1..] == rules[1..] + [r];
      ViolatedAmongSnoc(rules[1..], r, pwd);
      assert ViolatedAmong(rules + [r], pwd) == head + ViolatedAmong(rules[1..] + [r], pwd);
      assert ViolatedAmong(rules[1..] + [r], pwd) == ViolatedAmong(rules[1..], pwd) + last;
      assert ViolatedAmong(rules, pwd) == head + ViolatedAmong(rules[1..], pwd);
      assert head + (ViolatedAmong(rules[1..], pwd) + last) == (head + ViolatedAmong(rules[1..], pwd)) + last;
    }
  }

  /** A rule is reported among `rules` exactly when it is one of them and is violated. */
  lemma {:induction false} ViolatedAmongMembers(rules: seq<Rule>, pwd: string, r: Rule)
    ensures r in ViolatedAmong(rules, pwd) <==> r in rules && Violates(pwd, r)
    decreases |rules|
  {
    if rules != [] {
      ViolatedAmongMembers(rules[1..], pwd, r);
      assert rules == [rules[0]] + rules[1..];
    }
  }

  /** Every violated rule is reported, not only the first, and nothing else is. */
  lemma ReportsEveryViolation(pwd: string)
    ensures forall r :: r in Violations(pwd) <==> Violates(pwd, r)
  {
    forall r ensures r in Violations(pwd) <==> Violates(pwd, r) {
      ViolatedAmongMembers(RuleOrder, pwd, r);
      assert r in RuleOrder by { assert RuleOrder[Rank(r)] == r; }
    }
  }

  predicate InReportOrder(rules: seq<Rule>)
  {
    forall i, j :: 0 <= i < j < |rules| ==> Rank(rules[i]) < Rank(rules[j])
  }

  /** Filtering keeps the relative order of the rules. */
  lemma {:induction false} ViolatedAmongOrdered(rules: seq<Rule>, pwd: string)
    requires InReportOrder(rules)
    ensures InReportOrder(ViolatedAmong(rules, pwd))
    decreases |rules|
  {
    if rules != [] {
      ViolatedAmongOrdered(rules[1..], pwd);
      var rest := ViolatedAmong(rules[1..], pwd);
      forall r | r in rest ensures Rank(rules[0]) < Rank(r) {
        ViolatedAmongMembers(rules[1..], pwd, r);
        var k :| 0 <= k < |rules[1..]| && rules[1..][k] == r;
        assert rules[k + 1] == r;
      }
      if Violates(pwd, rules[0]) {
        var v := [rules[0]] + rest;
        forall i, j | 0 <= i < j < |v| ensures Rank(v[i]) < Rank(v[j]) {
          if i == 0 { assert v[j] == rest[j - 1]; assert v[j] in rest; }
          else { assert v[i] == rest[i - 1] && v[j] == rest[j - 1]; }
        }
      }
    }
  }

  /** Messages appear in the fixed order length, spaces, uppercase, number,
      special characters. */
  lemma ViolationsInReportOrder(pwd: string)
    ensures InReportOrder(Violations(pwd))
  {
    ViolatedAmongOrdered(RuleOrder, pwd);
  }

  /** A password shorter than 8 characters is told first that it is too short. */
  lemma ShortPasswordFirstMessage(pwd: string)
    requires |pwd| < 8
    ensures Violations(pwd) != [] && Violations(pwd)[0] == MinLength
    ensures Messages(Violations(pwd))[0] == "be at least 8 characters long"
  {
  }

  /** Whitespace is not an ASCII letter or digit, so it breaks two rules. */
  lemma WhitespaceBreaksTwoRules(pwd: string)
    requires HasSpace(pwd)
    ensures NoSpaces in Violations(pwd) && NoSpecialCharacters in Violations(pwd)
  {
    ReportsEveryViolation(pwd);
    var i :| 0 <= i < |pwd| && IsSpace(pwd[i]);
    assert !IsAsciiLetterOrDigit(pwd[i]);
  }

  /** An accepted password: at least 8 characters, only ASCII letters and
      digits, an uppercase letter and a decimal digit; and conversely. */
  lemma AcceptedShape(pwd: string)
    ensures Violations(pwd) == [] <==>
      && |pwd| >= 8
      && (forall i :: 0 <= i < |pwd| ==> IsAsciiLetterOrDigit(pwd[i]))
      && HasUpper(pwd)
      && HasDecimal(pwd)
  {
    ReportsEveryViolation(pwd);
    if Violations(pwd) == [] {
      assert !Violates(pwd, MinLength) && !Violates(pwd, NoSpecialCharacters);
      assert !Violates(pwd, HasUppercase) && !Violates(pwd, HasNumber);
    } else {
      assert Violates(pwd, Violations(pwd)[0]);
    }
  }

  /** The empty password breaks exactly the length, uppercase and number rules. */
  lemma EmptyPasswordViolations()
    ensures Violations([]) == [MinLength, HasUppercase, HasNumber]
  {
    assert !HasSpace([]) && !HasSpecial([]) && !HasUpper([]) && !HasDecimal([]);
  }
}
